=== FILE: README.md ===
# prollytree core, modelled in Dafny

This project models the versioned key-value layer of prollytree and the logic
around it:

- **The staging-area store** (`VersionedStore`).
  - Writes are staged as `Some(value)` and deletes as `None`.
  - Reads see the staging area on top of the committed tree.
  - `commit` drains the staging area into the tree and records a commit.
  - It also provides the key-level `diff` between two snapshots and the commits that changed a key.
- **Git-like operations** (`Operations`): the breadth-first ancestor test, fast-forward merge classification, the union-of-keys diff, `show`, `revert` and `decode_hex`.
- **The worktree registry** (`Worktrees`): worktree entries, advisory locks and merges that move branch refs.
- **The git node storage** (`GitStorage`): its cache, the node-hash-to-blob map, and the `hash:oid` lines of the mapping file.
- **The rolling hash** (`RollingHash`).
- **The agent-memory layer**: namespaces and metadata (`AgentTypes`), the query filter and validation (`MemStore`), and the in-memory persistence (`SimplePersistence`).
- **The GlueSQL storage key scheme** (`SqlStorage`): building a storage key from a table and row key, parsing it back, `append_data` and `scan_data`.
- **The repository visualiser's helpers** (`ProllyUi`): HTML and JavaScript escaping, name sanitising, the commit diff, and the parser for `git-prolly show` output.
- **A sorted page of nodes** (`Pages`).

Shared definitions live in three modules:

- `Wrappers`: `Option` and `Result`.
- `ByteStrings`: bytes, lexicographic order, UTF-8.
- `Sequences`: sorting, searching, trimming and line splitting, with their lemmas.

How the source's runtime is represented:

- Hash maps become Dafny maps. Where the source iterates over a hash map or set, the model picks elements in an arbitrary order (`:|`), so every result is proved for every iteration order.
- The git object database becomes a map from commit id to commit object, and branch refs become a map from ref name to commit id.
- Object ids, the current time, XxHash64, the UUID of a new worktree and the outcome of a blob write are parameters.

## Model

| member | source | states |
|---|---|---|
| VersionedStore.KvStore.Init | src/git/versioned_store.rs:933-968 | A new store is on `main`, with an empty tree and an empty staging area. It keeps every ref and commit the repository already has, adds one empty initial commit whose parent is HEAD's commit when there is one, and points `refs/heads/main` at that commit. |
| VersionedStore.KvStore.Get | src/git/versioned_store.rs:133-147 | A staged change wins over the committed value. The result is exactly the view of tree plus staging. |
| VersionedStore.StageWrite | src/git/versioned_store.rs:106-110 | A staged write sets exactly that key in the visible contents (tree plus staging); every other key reads as before. |
| VersionedStore.KvStore.Insert | src/git/versioned_store.rs:106-110 | Stages `Some(value)`. Afterwards `get(key)` is the value, no other key's read changes, and the visible contents are the old ones with `key` set to `value`. |
| VersionedStore.KvStore.Update | src/git/versioned_store.rs:113-120 | Stages the write only if the key is visible, and returns whether it was. Other keys read as before. |
| VersionedStore.KvStore.Delete | src/git/versioned_store.rs:123-130 | Stages `None` only if the key is visible, and returns whether it was. Afterwards `get(key)` is None, and other keys read as before. |
| VersionedStore.KvStore.ListKeys | src/git/versioned_store.rs:150-168 | Committed keys plus staged writes minus staged deletes, which is exactly the keys `get` finds. |
| VersionedStore.KvStore.StatusLabel | src/git/versioned_store.rs:175-185 | `deleted` iff a staged delete; `modified` iff a staged write of a committed key; `added` iff a staged write of a new key. |
| VersionedStore.KvStore.Status | src/git/versioned_store.rs:171-189 | One entry per staged key, keys distinct and all present, each with its label. |
| VersionedStore.Apply | src/git/versioned_store.rs:194-203 | The tree with every staged change applied holds exactly what a read sees. |
| VersionedStore.DrainOne | src/git/versioned_store.rs:194-203 | Applying one staged change and dropping it from the staging area changes no read. |
| VersionedStore.DrainStaging | src/git/versioned_store.rs:194-203 | Draining in any hash-map order yields the applied tree. |
| VersionedStore.KvStore.Commit | src/git/versioned_store.rs:192-262 | The tree becomes the old view and the staging area is empty, so every read is unchanged. A commit with HEAD as parent is recorded, and the branch ref moves to it. |
| VersionedStore.KvStore.HeadParents | src/git/versioned_store.rs:483-487 | A new commit has at most one parent: the current branch's commit, when that ref exists. |
| VersionedStore.BranchRef | src/git/versioned_store.rs:510-512 | `refs/heads/{b}`. |
| VersionedStore.RefName | src/git/versioned_store.rs:320-324 | A name starting with `refs/` is used as is; any other is a branch under `refs/heads/`. |
| VersionedStore.KvStore.Checkout | src/git/versioned_store.rs:314-347 | The staging area is always cleared. It switches branch iff the ref exists, and otherwise fails with BranchNotFound. |
| VersionedStore.KeyChanges | src/git/versioned_store.rs:1508-1545 | At most one entry per commit of the history. |
| VersionedStore.KeyChangesComplete | src/git/versioned_store.rs:1508-1545 | Every commit whose value for the key differs from its predecessor's is reported. |
| VersionedStore.KeyChangesSound | src/git/versioned_store.rs:1508-1545 | Only such commits are reported. |
| VersionedStore.KvStore.GetCommitsForKey | src/git/versioned_store.rs:1508-1545 | Walking oldest first and then reversing gives exactly `KeyChanges`, newest first. |
| VersionedStore.Diff | src/git/versioned_store.rs:598-644 | The two passes plus the sort give one entry per changed key (Added, Removed or Modified with both values), none for unchanged keys, strictly sorted by key. |
| GitTypes.PermutedChangeList | src/git/versioned_store.rs:598-644 | Any reordering of a change list is a change list. |
| GitTypes.SortedChangeList | src/git/versioned_store.rs:640-641 | Sorting a change list by key gives the sorted diff. |
| GitTypes.SortedDiffUnique | src/git/versioned_store.rs:640-641 | The sorted diff is unique, whatever order the hash map yields keys in. |
| GitTypes.SelfDiffEmpty | src/git/versioned_store.rs:1785-1808 | The diff of a snapshot with itself is empty. |
| GitTypes.InvertSortedDiff | src/git/types.rs:73-78 | Swapping the two snapshots swaps Added with Removed and old with new. |
| GitTypes.ByKeyIsTotalPreorder | src/git/versioned_store.rs:640-641 | The key comparison used to sort diffs is a total preorder. |
| Operations.GitOperations.BranchCommit | src/git/operations.rs:259-288 | The branch resolves iff its full ref exists, and then to that ref's commit. |
| Operations.GitOperations.constructor | src/git/operations.rs:29-31 | The operations work on the given store. |
| Operations.GitOperations.HeadCommit | src/git/operations.rs:297-301 | HEAD resolves iff the current branch's ref exists. |
| Operations.GitOperations.StateAt | src/git/operations.rs:291-309 | HEAD's state is the store's current contents; any other commit's state is the one it records, and an unknown commit is an error. |
| Operations.GitOperations.IsAncestor | src/git/operations.rs:78-124 | True exactly when the ancestor is reachable from the descendant through parent links. |
| Operations.ReachesSelf | src/git/operations.rs:84-86 | Every commit reaches itself. |
| Operations.ClosedExcludes | src/git/operations.rs:89-121 | A parent-closed visited set that lacks the ancestor proves it is unreachable. This is why the search answers false. |
| Operations.GitOperations.Merge | src/git/operations.rs:34-64 | The answer is `MergeOutcome`: branch errors propagate; equal tips give FastForward(current); if current is an ancestor of other, the result is FastForward(other). Otherwise there is one `<merge>` conflict. The other branch is checked out exactly in the ancestor case; in every other case the store is unchanged. |
| Operations.GitOperations.BaseState | src/git/operations.rs:196-210 | A root commit's changes are measured from the empty state, and any other commit's from its first parent's state. |
| Operations.UnionDiff | src/git/operations.rs:127-167 | Over the union of keys: each changed key is reported once with its change, unchanged keys are skipped, and there is no sort. |
| Operations.UnionDiffSortedIsStoreDiff | src/git/operations.rs:127-167 | Sorted by key, the union diff is the store's diff. |
| Operations.AllAdded | src/git/operations.rs:201-210 | A root commit's changes: every key reported as Added. |
| Operations.GitOperations.Show | src/git/operations.rs:170-224 | An unknown commit is an error. Otherwise it reports the message, the parents and the change list from the first parent's state (or from nothing) to the commit's state. |
| Operations.Restore | src/git/operations.rs:233-249 | The keys of the set take the base's value (or absence); every other key keeps the current value. |
| Operations.RestoreUndoesChange | src/git/operations.rs:233-249 | Restoring a commit's changed keys over its own state gives its parent's state. |
| Operations.GitOperations.UndoChanges | src/git/operations.rs:233-249 | Added keys are deleted, and Removed and Modified keys get their old value back. The view becomes `Restore` of the changed keys. |
| Operations.GitOperations.Revert | src/git/operations.rs:227-256 | Succeeds iff `show` does. On success the changed keys are restored and the result is committed with message `Revert "<message>"`. Reverting HEAD gives back its parent's state. |
| Operations.DecodeHex | src/git/operations.rs:653-670 | An odd length is rejected. On success the output is half the input's length and is `DecodeAll` of it. Otherwise the first chunk that is not two hex digits fails, with "Invalid hex characters" when it is not UTF-8 and "Invalid hex digit" when it is. |
| Worktrees.WorktreeManager.constructor | src/git/worktree.rs:61-82 | A new manager knows only the main worktree, unlinked and unlocked, and keeps the registry invariant: every entry is filed under its id, main is the only unlinked one, and a lock names the worktree's own lock file. |
| Worktrees.WorktreeManager.IsLocked | src/git/worktree.rs:351-356 | An unknown worktree is never locked; a known one is locked iff it holds a lock file. |
| Worktrees.WorktreeManager.AddWorktree | src/git/worktree.rs:185-273 | With `create_branch` and no main branch, it fails and changes nothing. Otherwise it registers the linked worktree `wt-<8 characters>` on the branch, first pointing a created branch at main's commit. |
| Worktrees.WorktreeManager.RemoveWorktree | src/git/worktree.rs:276-298 | Main cannot be removed and an unknown id is an error, both with no change. Otherwise exactly that entry is dropped. |
| Worktrees.WorktreeManager.LockWorktree | src/git/worktree.rs:300-325 | An unknown or already locked worktree is an error with no change. Otherwise only that worktree becomes locked, on its own lock path. |
| Worktrees.WorktreeManager.UnlockWorktree | src/git/worktree.rs:327-339 | An unknown worktree is an error. Otherwise it becomes unlocked, which is idempotent, and nothing else changes. |
| Worktrees.WorktreeManager.BranchCommit | src/git/worktree.rs:586-598 | Succeeds iff the branch ref exists, with the commit it holds. |
| Worktrees.WorktreeManager.PerformMergeToMain | src/git/worktree.rs:396-458 | A missing source branch or main is an error with no change. Otherwise main points at the source's commit, and the outcome is Identical iff they already agreed. |
| Worktrees.WorktreeManager.MergeToMain | src/git/worktree.rs:359-394 | An unknown worktree or main itself is refused with no change. Otherwise main moves to the worktree branch's commit, and every worktree's lock state afterwards is what it was before. |
| Worktrees.WorktreeManager.PerformMerge | src/git/worktree.rs:535-584 | A missing source or target branch is an error with no change. Otherwise the target points at the source's commit, unchanged iff it already did. |
| Worktrees.WorktreeManager.MergeBranch | src/git/worktree.rs:495-533 | An unknown worktree or a merge of a branch into itself is refused with no change. Otherwise the target moves to the worktree branch's commit, and lock states are restored. |
| Hex.EncodeByte | src/git/storage.rs:250-251 | `{:02x}`: two lower-case digits whose value is the byte. |
| Hex.EncodeHex | src/git/storage.rs:250-251 | Twice the length; the i-th pair of digits encodes the i-th byte. |
| Hex.HexPairAsWritten | src/git/operations.rs:665 | A chunk is accepted iff it is two hex digits or `+` followed by one. |
| Hex.HexPair | src/git/operations.rs:665 | A chunk is accepted iff it is two hex digits. |
| Hex.DecodeAll | src/git/operations.rs:653-670 | Accepts iff the length is even and every pair is two hex digits; the output is half the length. |
| Hex.DecodeAllOfEncode | src/git/storage.rs:250-251 | Hex text read back gives the bytes written. |
| Hex.EncodingOfHexPair | src/git/operations.rs:665 | Every accepted pair is the encoding of the byte it reads, up to case. |
| Hex.HexPairAgrees | src/git/operations.rs:665 | `from_str_radix` and the two-digit reading agree on every pair not starting with `+`. |
| Hex.PlusSignAccepted | src/git/operations.rs:665 | `+a` is accepted as 0x0a. |
| GitStorage.MappingLine | src/git/storage.rs:250-255 | The saved line is `hex(hash):hex(oid)` followed by a newline. |
| GitStorage.SplitOnce | src/git/storage.rs:268 | None iff there is no separator; otherwise the line is the text before, the separator and the text after, with no separator before it. |
| GitStorage.LoadInto | src/git/storage.rs:267-288 | Every hash a loaded file adds has the configured hash length. |
| GitStorage.ParseLine | src/git/storage.rs:268-285 | A line is used only if it has a `:`, a hash part of 2N hex digits and a 40-digit object id. |
| GitStorage.ParseMappingLine | src/git/storage.rs:240-290 | A saved line parses back to the same mapping. |
| GitStorage.AppendThenParse | src/git/storage.rs:240-292 | Appending a saved line to a file that ends a line adds exactly that mapping to what its lines yield. |
| GitStorage.SaveThenLoad | src/git/storage.rs:240-292 | Saving a mapping adds exactly that mapping to what loading the file yields, when the file ended its last line and also when it is not UTF-8: it loaded nothing and is replaced by the one line. |
| ByteStrings.Utf8OfStringValid | src/git/storage.rs:245 | Text the code writes, being the UTF-8 of a string, is read back by `read_to_string`. |
| ByteStrings.Utf8ValidAsciiSuffix | src/git/storage.rs:244-254 | Pushing an ASCII line onto a file neither makes it readable as text nor unreadable. |
| GitStorage.GitNodeStorage.constructor | src/git/storage.rs:64-82 | A new storage has an empty cache and the mappings loaded from the existing file, none when it is not UTF-8. It is consistent when the file ended its last line or is not UTF-8. |
| GitStorage.GitNodeStorage.GetNodeByHash | src/git/storage.rs:159-170 | The cache first, then the mapping and its blob; None iff neither has the hash. |
| GitStorage.GitNodeStorage.SaveHashMapping | src/git/storage.rs:240-258 | A UTF-8 file gets exactly one line appended. A file that is not UTF-8 is read as empty, so it is replaced by that line alone and its earlier mappings are gone. |
| GitStorage.GitNodeStorage.InsertNode | src/git/storage.rs:172-192 | The node is cached, and a written blob is recorded in the mapping and its line saved to the file: appended to a UTF-8 file, and replacing a file that is not UTF-8. Afterwards the hash finds the node. Memory and file stay consistent, and reloading yields the new mapping, whenever the file ended its last line or was not UTF-8. |
| GitStorage.SavedMapping | src/git/storage.rs:240-258 | Saving a mapping keeps memory and file consistent, and a file that ended its last line, or was not UTF-8, then loads the new mapping. |
| GitStorage.UnterminatedAppendAsWritten | src/git/storage.rs:240-258 | As written: after a last line that was never ended, the appended line joins it, and a UTF-8 file loads as if that last line were gone. Neither its mapping nor the new one is read back. |
| GitStorage.UnendedLineLoads | src/git/storage.rs:267-288 | A file holding one saved line without its newline loads that line's mapping. |
| GitStorage.UnterminatedFileLosesMappings | src/git/storage.rs:240-258 | A file holding one mapping on an unended line loads that mapping. After one more mapping is saved, it loads nothing. |
| GitStorage.AppendMappingLoads | src/git/storage.rs:240-258 | Corrected: ending the last line before saving adds exactly the new mapping to what loads, for every file whose last byte is not a carriage return. |
| GitStorage.GitNodeStorage.DeleteNode | src/git/storage.rs:194-205 | On any storage, the hash leaves the cache and the mapping, the file is untouched, and the result is always `Some(())`. Afterwards the hash finds nothing, and a consistent storage stays consistent. |
| GitStorage.GitNodeStorage.LoadHashMappings | src/git/storage.rs:261-292 | A file that is not UTF-8 leaves the mapping as it was. Otherwise the lines are read in order into the mapping, and invalid lines are skipped. |
| GitStorage.GitNodeStorage.ReadLines | src/git/storage.rs:267-288 | The line loop leaves exactly what reading every line in order gives, a later line overriding an earlier one for the same hash. |
| GitStorage.GitNodeStorage.ReadMappingLine | src/git/storage.rs:268-286 | One line is checked in the source's order: split at the first `:`, a hash part of 2N characters read pair by pair, then the object id. The entry is set exactly when all three succeed, as `LoadLine` says; otherwise the mapping is unchanged. |
| GitStorage.GitNodeStorage.DecodeHashHex | src/git/storage.rs:271-278 | The digit loop yields N bytes exactly when every pair is valid, and those bytes are then the decoded hash. |
| RollingHash.PolynomialHash | src/rolling_hash.rs:31-39 | The loop computes `PolyHash`, which is always below MOD. |
| RollingHash.PolyHash | src/rolling_hash.rs:31-39 | The hash is always below MOD. |
| RollingHash.Roll | src/rolling_hash.rs:65-87 | One window step, whose result stays below MOD. |
| RollingHash.CalculateInitialHash | src/rolling_hash.rs:43-52 | The keys' and values' polynomial hashes over the first window, summed modulo MOD. |
| RollingHash.BasePower | src/rolling_hash.rs:63 | The fold yields BASE^window mod MOD. |
| RollingHash.SubtractBytes | src/rolling_hash.rs:67-72 | The byte loop computes `SubBytes`. |
| RollingHash.AddAllBytes | src/rolling_hash.rs:76-81 | The byte loop computes `AddBytes`. |
| RollingHash.RollingHashes | src/rolling_hash.rs:54-88 | Empty when either list is shorter than the window. Otherwise there are `keys - window + 1` hashes, all below MOD; the first is the initial hash, and each later one is rolled from the one before. |
| SimplePersistence.SimpleMemoryPersistence.constructor | src/agent/simple_persistence.rs:20-25 | A new store is empty and has the given namespace. |
| SimplePersistence.SimpleMemoryPersistence.FullKey | src/agent/simple_persistence.rs:33-35 | `{namespace}/{key}`, split back into its two parts. |
| SimplePersistence.SimpleMemoryPersistence.Save | src/agent/simple_persistence.rs:40-45 | Afterwards `load(key)` is the bytes, overwriting any earlier save; no other key changes. |
| SimplePersistence.SimpleMemoryPersistence.Load | src/agent/simple_persistence.rs:47-51 | The saved bytes iff the full key is stored. |
| SimplePersistence.SimpleMemoryPersistence.Delete | src/agent/simple_persistence.rs:53-58 | Succeeds even for an absent key. Afterwards `load(key)` is None; no other key changes. |
| SimplePersistence.SimpleMemoryPersistence.ListKeys | src/agent/simple_persistence.rs:60-77 | Exactly the stored keys starting with the prefix, with the namespace stripped, each once. |
| SimplePersistence.FullKeyInjective | src/agent/simple_persistence.rs:33-35 | Within one namespace, different keys have different full keys. |
| SimplePersistence.NamespacesSeparate | src/agent/simple_persistence.rs:33-35 | Namespaces without `/` never share a full key. |
| SimplePersistence.NamespacesCanCollide | src/agent/simple_persistence.rs:33-35 | Namespace `a` with key `b/c` and namespace `a/b` with key `c` share a full key. |
| AgentTypes.TypeName | src/agent/types.rs:33-43 | The display name is non-empty and has no `/`. |
| AgentTypes.TypeNameInjective | src/agent/types.rs:33-43 | Different memory types display differently. |
| AgentTypes.ToPath | src/agent/types.rs:75-82 | `/memory/agents/{agent}/{type}`, with `/{sub}` appended only when a sub-namespace is present. |
| AgentTypes.ToPathDistinguishes | src/agent/types.rs:75-82 | For agent ids without `/`, the path determines agent and type. |
| AgentTypes.MemoryMetadata.constructor | src/agent/types.rs:134-149 | Created and updated now, with access count 0, confidence 1.0, no ttl, no tags and no thread. |
| AgentTypes.MemoryMetadata.MarkAccessed | src/agent/types.rs:152-155 | The count grows by exactly one (as a u32) and the access time is set; every other field is kept. |
| AgentTypes.MemoryMetadata.IsExpired | src/agent/types.rs:158-164 | False without a ttl. Otherwise true iff now is past creation plus ttl. |
| AgentTypes.MemoryMetadata.ExpiryIsPermanent | src/agent/types.rs:158-164 | Once expired, a memory stays expired. |
| MemStore.MemoryKey | src/agent/mem_store.rs:433-436 | `{namespace path}/{id}`. |
| MemStore.MemoryKeyInjective | src/agent/mem_store.rs:433-436 | Within a namespace, the key determines the id. |
| MemStore.MatchesQueryFilters | src/agent/mem_store.rs:848-886 | A memory matches iff it passes all five filters: expiry unless `include_expired`, every tag present, created within the inclusive bounds, and the text query present. |
| MemStore.TextMatchesSubstring | src/agent/mem_store.rs:879-884 | The text filter holds iff the lower-cased query occurs in the lower-cased content. |
| MemStore.TextQueryIgnoresCase | src/agent/mem_store.rs:879-884 | The case of the query does not matter. |
| MemStore.LowerIdempotent | src/agent/mem_store.rs:881 | Lower-casing twice is lower-casing once. |
| MemStore.SearchNamespaces | src/agent/mem_store.rs:640-657 | The given namespace, or the agent's namespace for each requested (or every) memory type. `Query` reads exactly these namespaces. |
| MemStore.Matching | src/agent/mem_store.rs:660-681 | Exactly the matching documents, in order. |
| MemStore.Truncate | src/agent/mem_store.rs:685-687 | At most `limit` elements, and a prefix of the input. |
| MemStore.ReadAllMembers | src/agent/mem_store.rs:660-681 | A document is among those the search reads exactly when one of the searched namespaces gave it. |
| MemStore.MatchingAppend | src/agent/mem_store.rs:660-681 | Filtering two reads one after the other gives the matches of each, in turn. |
| MemStore.AddMatching | src/agent/mem_store.rs:669-680 | The matching documents of one namespace, in the order read, added to the results so far. |
| MemStore.Query | src/agent/mem_store.rs:635-690 | Of the documents read back from the namespaces `SearchNamespaces` gives, the matching ones in order, cut to the limit. Each result matches and was read from one of those namespaces. |
| MemStore.ValidateMemory | src/agent/mem_store.rs:492-511 | A foreign agent gives PermissionDenied, checked first. An expired memory gives Expired. Otherwise Ok. |
| SqlStorage.NatToStringValue | src/sql.rs:83 | Reading back the decimal digits of `n` gives `n`. |
| SqlStorage.ParseI64 | src/sql.rs:102 | Accepts an optional sign followed by digits, with a value in the i64 range. |
| SqlStorage.ParseIntToString | src/sql.rs:83-102 | Every i64 parses back from its display text. |
| SqlStorage.MakeStorageKey | src/sql.rs:82-89 | The bytes start with `{table}:` and decode to `{table}:{id}`, or to `{table}:__schema__` for the None key. |
| SqlStorage.ParseKey | src/sql.rs:97-108 | The result is always I64 (in range) or Str; a key without the table prefix gives `Str("")`. |
| SqlStorage.ParseKeyOfText | src/sql.rs:97-108 | The text after `{table}:` becomes an I64 if it parses as one, and a Str otherwise. |
| SqlStorage.RoundTripI64 | src/sql.rs:82-108 | An integer key survives make-then-parse. |
| SqlStorage.RoundTripStr | src/sql.rs:82-108 | A string key that does not parse as an i64 survives make-then-parse. |
| SqlStorage.NumericStringKeyReadsAsInteger | src/sql.rs:102-104 | `Str("42")` comes back as `I64(42)`. |
| SqlStorage.SchemaKeyReadsAsString | src/sql.rs:81-108 | The schema entry's key reads back as `Str("__schema__")`. |
| SqlStorage.SchemaKeyIsNotRow | src/sql.rs:189-193 | `scan_data` never reads a table's schema entry as a row. |
| SqlStorage.IntegerKeyIsRow | src/sql.rs:189-193 | Every integer row key is scanned as a row of its table. |
| SqlStorage.PrefixTableRowsLeak | src/sql.rs:182-193 | Every integer row of table `{t}:{s}` appears in the scan of table `t`, read back as the string key `{s}:{n}`. |
| SqlStorage.CounterKeyInjective | src/sql.rs:251-257 | Different counters give different storage keys. |
| SqlStorage.SortedScan | src/sql.rs:189-211 | Sorting the found rows gives a sorted list with one row per row key and nothing else. |
| SqlStorage.ProllyStorage.AppendRow | src/sql.rs:251-267 | The smallest counter whose key is absent is used, so no row is overwritten, and the row is stored under that key. Only that staging entry changes: the tree, the refs, the commits and the current branch stay as they were. |
| SqlStorage.ProllyStorage.AppendData | src/sql.rs:249-270 | Row i is stored under `{table}:{counter_i}`, a key that was absent. No existing entry changes, and the store gains exactly these keys, one per row. They are exactly the row keys the table gains, so `scan_data` returns the appended rows. The rows are only staged: the tree, the refs, the commits and the current branch stay as they were. |
| SqlStorage.AppendedRowKeys | src/sql.rs:249-270 | Once every row is appended under a fresh counter key, each row is under its key, old values are kept, and the keys and row keys gained are exactly those keys. |
| SqlStorage.GainedRowKeys | src/sql.rs:251-266 | Counter keys of a table that the view gains are exactly the row keys it gains. |
| SqlStorage.ProllyStorage.ScanData | src/sql.rs:180-213 | Rows sorted by key, one per row key of the table (under the prefix and not a schema entry), and nothing else. |
| ProllyUi.EscapeHtml | src/bin/prolly-ui.rs:1949-1960 | No raw `<`, `>`, `"` or `'` remains in the output, and every `&` in it begins one of the five entities `&lt;`, `&gt;`, `&amp;`, `&quot;`, `&#39;`. |
| ProllyUi.UnescapeEscapeHtml | src/bin/prolly-ui.rs:1949-1960 | Decoding the entities gives back the text: other characters are unchanged. |
| ProllyUi.EscapeJs | src/bin/prolly-ui.rs:1962-1973 | No raw newline, carriage return or tab remains in the output. |
| ProllyUi.UnescapeEscapeJs | src/bin/prolly-ui.rs:1962-1973 | Reading the escapes back gives the text: other characters are unchanged. |
| ProllyUi.SanitizeName | src/bin/prolly-ui.rs:1937-1947 | Same length. Only alphanumerics, `-` and `_` appear. Kept characters stay in place and every other character becomes `_`. |
| ProllyUi.SanitizeIdempotent | src/bin/prolly-ui.rs:1937-1947 | Sanitising twice is sanitising once. |
| ProllyUi.SanitizeKeepsValidNames | src/bin/prolly-ui.rs:1937-1947 | A valid name is its own sanitised form. |
| ProllyUi.GetDiffBetweenCommits | src/bin/prolly-ui.rs:751-800 | The first failing state read is returned. Otherwise the result is the sorted diff, as the store's `diff` gives. |
| ProllyUi.CleanValue | src/bin/prolly-ui.rs:601-606 | The result has no escape character and no `"` at either end. |
| ProllyUi.TaggedBoundsAsWritten | src/bin/prolly-ui.rs:595-598 | The slice starts right after the tag; its end is the first reset code anywhere in the line. |
| ProllyUi.ResetBeforeTagAsWritten | src/bin/prolly-ui.rs:595-598 | With a reset code before the tag, the bounds are reversed. |
| ProllyUi.TaggedOccurs | src/bin/prolly-ui.rs:595-598 | The text found lies between the tag and a reset code after it. |
| ProllyUi.TaggedAgreesWhenOrdered | src/bin/prolly-ui.rs:595-598 | When the bounds are in order, `Tagged` gives the source's slice. |
| ProllyUi.ParseChangeLine | src/bin/prolly-ui.rs:595-670 | Added, Removed and Modified are tried in that order, each only when its tag is present; a line without ` = ` gives nothing. |
| ProllyUi.AddedLineParses | src/bin/git-prolly.rs:516 | An added entry printed by `git-prolly show` parses back to the same key and value, under the stated conditions on key and value. |
| ProllyUi.PreambleIgnored | src/bin/prolly-ui.rs:583-593 | Lines before `Key-Value Changes:` have no effect on the result. |
| ProllyUi.RunAppend | src/bin/prolly-ui.rs:583 | Reading two runs of lines is reading one after the other. |
| ProllyUi.ParseShowOutput | src/bin/prolly-ui.rs:579-673 | The loop with the `in_changes_section` flag computes `Run` over the output's lines. |
| Pages.Page.constructor | src/page.rs:47-52 | A new page is empty and has the given level. |
| Pages.Balanced | src/page.rs:71-95 | Defines the page after `balance`. |
| Pages.BalancedKeys | src/page.rs:71-95 | A page within the node limit is unchanged by `balance`. A split keeps the first half of the keys, and its last node points to a page of the rest, so no key is lost. |
| Pages.BalancedSorted | src/page.rs:71-95 | Balancing keeps a sorted page sorted. |
| Pages.Page.Balance | src/page.rs:71-95 | The in-place split computes `Balanced`. |
| Pages.Page.Insert | src/page.rs:54-59 | The new node is added, the page stably sorted and then balanced. The page stays sorted by key and within five nodes. |
| Pages.InsertedKeyKept | src/page.rs:54-59 | An inserted key is in the page, or in the page its last node points to. Without a split it is in the page. |
| Pages.Page.Delete | src/page.rs:61-69 | Returns true iff the key was present. Then the first node with it is removed; otherwise nothing changes. The page stays sorted. |
| Pages.RemoveSorted | src/page.rs:61-69 | Removing a node keeps the page sorted. |
| Pages.Page.Find | src/page.rs:97-99 | The first node of the page with an equal key (no earlier node has it), or None iff no node has the key. |

## Left out

- Git and file-system plumbing is not modelled:
  - gix object reads and writes, `git add` and `write-tree`, HEAD and ref files, the staging-area file;
  - the lock files' contents, the worktree directories and `.git` files.
- Refs and commits are in-memory maps, and the commit id of a new commit is a parameter.
- VersionedStore.KvStore.Init: finding the repository, and resolving HEAD to a commit with `head_commit`, are not modelled. The repository's refs and commits and HEAD's commit are parameters. Failing to find or open a repository is not modelled.
- Every I/O error path is absent: the model's writes always succeed.
- VersionedStore.KvStore.Commit: does not model the failure of the git commands. An empty staging area still produces a commit, as the code does.
- VersionedStore.KvStore.Checkout: the HEAD file is not modelled. The tree is not reloaded, as in the code.
- VersionedStore.KvStore.GetCommitsForKey: the commit history is a parameter, newest first. A commit whose tree cannot be read counts as "key absent", as in the code.
- Operations.GitOperations.BranchCommit: the fallback that resolves a name as a commit id with `rev_parse_single` is not modelled. A name without a ref is an error.
- Operations.GitOperations.StateAt: a commit's state is the snapshot recorded in the model's commit object. Reading that state back through prolly config files and node blobs is not modelled.
- Operations.GitOperations.Show: only the first line of the message is kept by the code. The model keeps the whole message, and author, committer and time are not modelled.
- Worktrees.WorktreeManager.PerformMergeToMain: `can_fast_forward` is true for any two different commits, so the merge-commit path is unreachable and not modelled. The result messages are not modelled, including the slice of the first 8 characters of the commit id, which panics for a shorter ref.
- Worktrees.WorktreeManager.PerformMerge: the result message is left out by choice, and with it the message's slice of the first 8 bytes of the source commit (src/git/worktree.rs:581). That slice panics for a ref shorter than 8 bytes, or one whose 8th byte ends inside a character, after the target ref has already been written. The model returns `Ok` there.
- Worktrees.WorktreeManager.constructor: discovery of linked worktrees from `.git/worktrees` is not modelled. A new manager knows only `main`.
- GitStorage.GitNodeStorage.constructor: LRU eviction of the cache (capacity 1000) is not modelled, and neither are `with_cache_size`, `with_mappings`, `save_config` or `get_config`.
- GitStorage.GitNodeStorage.LoadHashMappings:
  - slicing a hash part whose characters are not ASCII panics in the code, and that is not modelled;
  - node (de)serialisation failures are not modelled.
- RollingHash.RollingHashes: XxHash64 is a parameter. Indexing `values` at the incoming position panics when there are fewer values than keys, so the model requires as many values as keys whenever hashes are produced.
- RollingHash.PolyHash: `hash * base + xx` wraps at 2^64 as in a release build. A debug build would panic instead.
- AgentTypes.MemoryMetadata.MarkAccessed: the u32 count wraps as in a release build, and the model requires a count already within u32.
- AgentTypes.MemoryMetadata.constructor: the clock is a parameter; `f64` confidence is a Dafny `real`.
- MemStore.TextMatchesSubstring: the model lower-cases ASCII letters only, while Rust's `to_lowercase` is Unicode-aware. A memory's JSON content is represented by its serialised text.
- MemStore.Query: what reading one namespace gives is a function parameter. Listing its keys, loading each document and deserialising it are not modelled, and neither are their errors. A document that fails to decode is simply absent from what the parameter returns.
- The embedding search, memory lifecycle, thread-safe wrappers and the Python bindings are not modelled.
- SqlStorage.ParseKey: `from_utf8_lossy` is modelled as one U+FFFD per invalid byte. Rust replaces each maximal invalid sequence, which can be several bytes, with one U+FFFD.
- SqlStorage.MakeStorageKey: only the I64, Str and None keys are modelled. The other GlueSQL key variants print with `Debug` formatting, which is not modelled.
- SqlStorage.ProllyStorage.ScanData:
  - the order on keys is a parameter (GlueSQL's `Key::cmp`);
  - rows are kept as their stored bytes, with no JSON decoding, and the error for an undecodable row is not modelled.
- SqlStorage.ProllyStorage.AppendData: serde serialisation and insert errors are not modelled. The i64 counter cannot overflow in the model, since it is bounded by the number of stored keys.
- The schema operations (`insert_schema`, `delete_schema`, `fetch_*`), `insert_data`, `delete_data` and the schema cache are not modelled.
- ProllyUi.SanitizeName: `char::is_alphanumeric` is a parameter.
- ProllyUi.ParseShowOutput: spawning `git-prolly show` is not modelled. The function always returns `Ok`, so the model returns the list.
  - The round trip is proved for printed Added lines only.
  - Removed lines are parsed by the same definition with their own tag.
  - Modified lines are parsed by `KeyChange`, with no round-trip lemma.
- The HTML and JavaScript page generation of the visualiser is not modelled.
- Pages: src/page.rs is not compiled into the library, since it is not declared in `src/lib.rs`. It uses `Node<N, K>` and `Node::new(key, value_hash, level)`, which do not match the one-parameter trait `Node<const N: usize>` that src/node.rs declares. The node is modelled as a key, a value digest, a level and an optional pointer to a page value.
- Pages.Page.Find: searches only the page's own nodes, as the code does. After a split, the keys moved to the right half are found only by following the last node's pointer (see `Pages.BalancedKeys`).

## Findings

| source | as written | input that shows it | evidently intended | confidence | as-written member | corrected member |
|---|---|---|---|---|---|---|
| src/git/operations.rs:665 | `u8::from_str_radix(chunk, 16)` accepts a leading `+`, so a two-character chunk `+a` decodes to 0x0a. The same call reads the hash part in src/git/storage.rs:273. | the hex text `+a` | only two hex digits form a byte, which is what `format!("{:02x}")` writes | not executed | Hex.PlusSignAccepted | Hex.DecodeAllOfEncode |
| src/bin/prolly-ui.rs:595-598 | the end of the slice is the first `[0m` anywhere in the line, so a reset code before the tag gives the slice `line[start + 6..end]` with `end < start + 6` | the line `[0m` followed by `[32m+ k = v` (`ResetBeforeTagAsWritten`: bounds 9 and 0) | the end is the first reset code after the tag | not executed | ProllyUi.ResetBeforeTagAsWritten | ProllyUi.TaggedAgreesWhenOrdered |
| src/git/storage.rs:240-258 | `save_hash_mapping` appends its line as it is, even when the file's last line was never ended (an interrupted write or an edit by hand). The new line then joins the old last line, which `load_hash_mappings` skips as invalid. | a file holding `hex(h1):hex(o1)` with no final newline, then one more saved mapping (`UnterminatedFileLosesMappings`) | every saved mapping is read back, by ending the last line first | not executed | GitStorage.UnterminatedAppendAsWritten | GitStorage.AppendMappingLoads |

=== FILE: agent_types.dfy ===
/**
 * The memory types of src/agent/types.rs: memory kinds, namespaces and
 * their storage paths, and the metadata a memory carries.
 *
 * Timestamps are whole numbers of clock ticks and durations are tick
 * counts; the current time is a parameter wherever the source reads the
 * clock.
 */
module AgentTypes {
  import opened Wrappers
  import opened Sequences

  const U32_MODULUS: nat := 0x1_0000_0000

  datatype MemoryType = ShortTerm | Semantic | Episodic | Procedural

  /** The `Display` text of a memory type. */
  function TypeName(t: MemoryType): (r: string)
    ensures |r| > 0 && '/' !in r
  {
    match t
    case ShortTerm => "ShortTerm"
    case Semantic => "Semantic"
    case Episodic => "Episodic"
    case Procedural => "Procedural"
  }

  /** Different memory types print differently. */
  lemma TypeNameInjective(s: MemoryType, t: MemoryType)
    requires TypeName(s) == TypeName(t)
    ensures s == t
  {
    assert TypeName(s)[0] == TypeName(t)[0];
    assert |TypeName(s)| == |TypeName(t)|;
  }

  datatype MemoryNamespace = MemoryNamespace(agentId: string, memoryType: MemoryType, subNamespace: Option<string>)

  const AGENTS_ROOT: string := "/memory/agents/"

  /** `to_path`: `/memory/agents/{agent}/{type}`, then `/{sub}` when there is a sub-namespace. */
  function ToPath(ns: MemoryNamespace): (r: string)
    ensures AGENTS_ROOT <= r
    ensures ns.subNamespace.None? ==> r == AGENTS_ROOT + ns.agentId + "/" + TypeName(ns.memoryType)
    ensures ns.subNamespace.Some? ==> r == AGENTS_ROOT + ns.agentId + "/" + TypeName(ns.memoryType) + "/" + ns.subNamespace.value
  {
    var base := AGENTS_ROOT + ns.agentId + "/" + TypeName(ns.memoryType);
    match ns.subNamespace
    case Some(sub) => base + "/" + sub
    case None => base
  }

  /** For agent ids without `/`, the path tells the agent and the memory type back. */
  lemma ToPathDistinguishes(a: MemoryNamespace, b: MemoryNamespace)
    requires '/' !in a.agentId && '/' !in b.agentId
    requires a.subNamespace.None? && b.subNamespace.None?
    requires ToPath(a) == ToPath(b)
    ensures a == b
  {
    var n := |AGENTS_ROOT|;
    assert ToPath(a)[n..] == a.agentId + "/" + TypeName(a.memoryType);
    assert ToPath(b)[n..] == b.agentId + "/" + TypeName(b.memoryType);
    SplitAtFirst(a.agentId, '/', TypeName(a.memoryType), b.agentId, TypeName(b.memoryType));
    TypeNameInjective(a.memoryType, b.memoryType);
  }

  /**
   * `MemoryMetadata`: creation and update times, the owning agent, tags, an
   * optional time-to-live, access tracking, the source and a confidence.
   */
  class MemoryMetadata {
    var createdAt: int
    var updatedAt: int
    var agentId: string
    var threadId: Option<string>
    var tags: seq<string>
    var ttl: Option<int>
    var accessCount: nat
    var lastAccessed: Option<int>
    var source: string
    var confidence: real
    var relatedMemories: seq<string>

    /** `new`: created and updated now, never accessed, full confidence, no ttl, no tags. */
    constructor (agentId: string, source: string, now: int)
      ensures createdAt == now && updatedAt == now
      ensures this.agentId == agentId && this.source == source
      ensures threadId.None? && tags == [] && ttl.None? && relatedMemories == []
      ensures accessCount == 0 && lastAccessed.None? && confidence == 1.0
    {
      createdAt := now;
      updatedAt := now;
      this.agentId := agentId;
      threadId := None;
      tags := [];
      ttl := None;
      accessCount := 0;
      lastAccessed := None;
      this.source := source;
      confidence := 1.0;
      relatedMemories := [];
    }

    /** `mark_accessed`: one more access (a u32 count) and the access time. */
    method MarkAccessed(now: int)
      requires accessCount < U32_MODULUS
      modifies this
      ensures accessCount == (old(accessCount) + 1) % U32_MODULUS
      ensures old(accessCount) + 1 < U32_MODULUS ==> accessCount == old(accessCount) + 1
      ensures lastAccessed == Some(now)
      ensures createdAt == old(createdAt) && updatedAt == old(updatedAt) && agentId == old(agentId)
      ensures threadId == old(threadId) && tags == old(tags) && ttl == old(ttl) && source == old(source)
      ensures confidence == old(confidence) && relatedMemories == old(relatedMemories)
    {
      accessCount := (accessCount + 1) % U32_MODULUS;
      lastAccessed := Some(now);
    }

    /** `is_expired`: only a memory with a ttl expires, once `now` is past its creation plus the ttl. */
    predicate IsExpired(now: int)
      reads this
      ensures ttl.None? ==> !IsExpired(now)
      ensures ttl.Some? ==> (IsExpired(now) <==> now > createdAt + ttl.value)
    {
      match ttl
      case Some(t) => now > createdAt + t
      case None => false
    }

    /** Once expired, a memory stays expired. */
    lemma ExpiryIsPermanent(now: int, later: int)
      requires IsExpired(now) && now <= later
      ensures IsExpired(later)
    {
    }
  }
}

=== FILE: byte_strings.dfy ===
/**
 * Byte strings and the order Rust gives them.
 *
 * Keys and values of the store are `Vec<u8>`; their `Ord` is lexicographic,
 * a proper prefix being smaller. Rust's `String` and `str` order the same way
 * on their UTF-8 bytes, which is the order of their code points, so the
 * order is stated once, on sequences of integers, and used for both.
 */
module ByteStrings {

  type byte = x: int | 0 <= x < 256
  type Bytes = seq<byte>

  /** Lexicographic "less than or equal", as `Ord` on slices. */
  predicate LexLe(a: seq<int>, b: seq<int>)
  {
    if |a| == 0 then true
    else if |b| == 0 then false
    else if a[0] != b[0] then a[0] < b[0]
    else LexLe(a[1..], b[1..])
  }

  /** Strict lexicographic order. */
  predicate LexLt(a: seq<int>, b: seq<int>)
  {
    LexLe(a, b) && a != b
  }

  /** The code points of a string, the sequence its order is read on. */
  function CodePoints(s: string): (r: seq<int>)
    ensures |r| == |s|
    ensures forall i :: 0 <= i < |s| ==> r[i] == s[i] as int
  {
    seq(|s|, i requires 0 <= i < |s| => s[i] as int)
  }

  /** The UTF-8 encoding of one character: one to four bytes. */
  function Utf8Char(c: char): (r: Bytes)
    ensures 1 <= |r| <= 4
    ensures c as int < 128 ==> r == [c as int]
  {
    var n := c as int;
    if n < 0x80 then [n]
    else if n < 0x800 then [0xC0 + n / 0x40, 0x80 + n % 0x40]
    else if n < 0x1_0000 then [0xE0 + n / 0x1000, 0x80 + (n / 0x40) % 0x40, 0x80 + n % 0x40]
    else [0xF0 + n / 0x4_0000, 0x80 + (n / 0x1000) % 0x40, 0x80 + (n / 0x40) % 0x40, 0x80 + n % 0x40]
  }

  /** The UTF-8 bytes of a string, as `str::as_bytes` gives them. */
  function Utf8(s: string): (r: Bytes)
    ensures |r| >= |s|
  {
    if s == [] then [] else Utf8Char(s[0]) + Utf8(s[1..])
  }

  /** The code point an encoded character carries. */
  function Utf8Value(r: seq<int>): int
    requires 1 <= |r| <= 4
  {
    if |r| == 1 then r[0]
    else if |r| == 2 then (r[0] - 0xC0) * 0x40 + (r[1] - 0x80)
    else if |r| == 3 then (r[0] - 0xE0) * 0x1000 + (r[1] - 0x80) * 0x40 + (r[2] - 0x80)
    else (r[0] - 0xF0) * 0x4_0000 + (r[1] - 0x80) * 0x1000 + (r[2] - 0x80) * 0x40 + (r[3] - 0x80)
  }

  lemma Utf8Value2(n: int)
    requires 0x80 <= n < 0x800
    ensures (0xC0 + n / 0x40 - 0xC0) * 0x40 + (0x80 + n % 0x40 - 0x80) == n
  {
  }

  lemma Utf8Value3(n: int)
    requires 0x800 <= n < 0x1_0000
    ensures (0xE0 + n / 0x1000 - 0xE0) * 0x1000 + (0x80 + (n / 0x40) % 0x40 - 0x80) * 0x40 + (0x80 + n % 0x40 - 0x80) == n
  {
    assert n / 0x1000 == (n / 0x40) / 0x40;
  }

  lemma Utf8Value4(n: int)
    requires 0x1_0000 <= n < 0x11_0000
    ensures (0xF0 + n / 0x4_0000 - 0xF0) * 0x4_0000 + (0x80 + (n / 0x1000) % 0x40 - 0x80) * 0x1000
          + (0x80 + (n / 0x40) % 0x40 - 0x80) * 0x40 + (0x80 + n % 0x40 - 0x80) == n
  {
    assert n / 0x4_0000 == (n / 0x1000) / 0x40;
    assert n / 0x1000 == (n / 0x40) / 0x40;
  }

  /** Decoding an encoded character gives its code point back. */
  lemma Utf8CharValue(c: char)
    ensures Utf8Value(Utf8Char(c)) == c as int
  {
    var n := c as int;
    if n < 0x80 {
    } else if n < 0x800 {
      Utf8Value2(n);
    } else if n < 0x1_0000 {
      Utf8Value3(n);
    } else {
      Utf8Value4(n);
    }
  }

  predicate IsContinuation(b: int)
  {
    0x80 <= b < 0xC0
  }

  /**
   * The first character of `b` and the number of bytes it takes. A byte
   * that does not start a well-formed sequence decodes to U+FFFD on its own.
   */
  function DecodeFirst(b: Bytes): (r: (char, nat))
    requires |b| > 0
    ensures 1 <= r.1 <= |b|
  {
    if b[0] < 0x80 then (b[0] as char, 1)
    else if 0xC2 <= b[0] < 0xE0 && |b| >= 2 && IsContinuation(b[1]) then
      (Utf8Value(b[..2]) as char, 2)
    else if 0xE0 <= b[0] < 0xF0 && |b| >= 3 && IsContinuation(b[1]) && IsContinuation(b[2])
         && 0x800 <= Utf8Value(b[..3]) && !(0xD800 <= Utf8Value(b[..3]) < 0xE000) then
      (Utf8Value(b[..3]) as char, 3)
    else if 0xF0 <= b[0] < 0xF5 && |b| >= 4 && IsContinuation(b[1]) && IsContinuation(b[2]) && IsContinuation(b[3])
         && 0x1_0000 <= Utf8Value(b[..4]) < 0x11_0000 then
      (Utf8Value(b[..4]) as char, 4)
    else (0xFFFD as char, 1)
  }

  /** `String::from_utf8_lossy`: the characters of `b`, U+FFFD for bytes that are not well-formed UTF-8. */
  function Utf8Decode(b: Bytes): (s: string)
    decreases |b|
  {
    if b == [] then [] else [DecodeFirst(b).0] + Utf8Decode(b[DecodeFirst(b).1..])
  }

  /** The encoding of a character, followed by anything, decodes to that character first. */
  lemma DecodeFirstOfChar(c: char, rest: Bytes)
    ensures DecodeFirst(Utf8Char(c) + rest) == (c, |Utf8Char(c)|)
  {
    var e := Utf8Char(c);
    var b := e + rest;
    Utf8CharValue(c);
    assert b[..|e|] == e;
  }

  /** The encoding of a character, followed by anything, decodes to that character and then the rest. */
  lemma DecodeCons(c: char, rest: Bytes)
    ensures Utf8Decode(Utf8Char(c) + rest) == [c] + Utf8Decode(rest)
  {
    var e := Utf8Char(c);
    DecodeFirstOfChar(c, rest);
    assert (e + rest)[|e|..] == rest;
  }

  /** Decoding the UTF-8 of a string gives the string back. */
  lemma {:induction false} Utf8DecodeOfEncode(s: string)
    ensures Utf8Decode(Utf8(s)) == s
  {
    if s != [] {
      var c, t := s[0], s[1..];
      assert Utf8(s) == Utf8Char(c) + Utf8(t);
      DecodeCons(c, Utf8(t));
      Utf8DecodeOfEncode(t);
      assert s == [c] + t;
    }
  }

  /**
   * `str::from_utf8` accepts `b`: it splits into well-formed characters, so
   * no byte falls back to U+FFFD. A one-byte step is well-formed only for
   * an ASCII byte.
   */
  predicate Utf8Valid(b: Bytes)
    decreases |b|
  {
    b == [] || ((b[0] < 0x80 || DecodeFirst(b).1 > 1) && Utf8Valid(b[DecodeFirst(b).1..]))
  }

  predicate IsAscii(b: Bytes)
  {
    forall i :: 0 <= i < |b| ==> b[i] < 0x80
  }

  /** The UTF-8 of any string is well-formed. */
  lemma {:induction false} Utf8OfStringValid(s: string)
    ensures Utf8Valid(Utf8(s))
  {
    if s != [] {
      var e := Utf8Char(s[0]);
      DecodeFirstOfChar(s[0], Utf8(s[1..]));
      assert (e + Utf8(s[1..]))[|e|..] == Utf8(s[1..]);
      Utf8OfStringValid(s[1..]);
    }
  }

  /** ASCII bytes after `a` do not change how its first character decodes: they cannot continue it. */
  lemma DecodeFirstAsciiSuffix(a: Bytes, t: Bytes)
    requires |a| > 0 && IsAscii(t)
    ensures DecodeFirst(a + t) == DecodeFirst(a)
  {
    var b := a + t;
    if |a| >= 4 {
      assert b[..2] == a[..2] && b[..3] == a[..3] && b[..4] == a[..4];
    } else if |a| == 3 {
      assert b[..2] == a[..2] && b[..3] == a[..3];
      assert |t| > 0 ==> !IsContinuation(b[3]);
    } else if |a| == 2 {
      assert b[..2] == a[..2];
      assert |t| > 0 ==> !IsContinuation(b[2]);
    } else {
      assert |t| > 0 ==> !IsContinuation(b[1]);
    }
  }

  /** ASCII bytes alone are well-formed UTF-8. */
  lemma {:induction false} AsciiValid(t: Bytes)
    requires IsAscii(t)
    ensures Utf8Valid(t)
  {
    if t != [] {
      AsciiValid(t[1..]);
    }
  }

  /** Appending ASCII bytes neither repairs nor breaks well-formedness. */
  lemma {:induction false} Utf8ValidAsciiSuffix(a: Bytes, t: Bytes)
    requires IsAscii(t)
    ensures Utf8Valid(a + t) <==> Utf8Valid(a)
    decreases |a|
  {
    if a == [] {
      assert a + t == t;
      AsciiValid(t);
    } else {
      DecodeFirstAsciiSuffix(a, t);
      var k := DecodeFirst(a).1;
      assert (a + t)[k..] == a[k..] + t;
      assert (a + t)[0] == a[0];
      Utf8ValidAsciiSuffix(a[k..], t);
    }
  }

  /** The bytes of a concatenation are the concatenated bytes. */
  lemma {:induction false} Utf8Append(s: string, t: string)
    ensures Utf8(s + t) == Utf8(s) + Utf8(t)
  {
    if s != [] {
      var c, rest := s[0], s[1..];
      assert s + t == [c] + (rest + t) && s == [c] + rest;
      Utf8Append(rest, t);
      assert Utf8(s + t) == Utf8Char(c) + Utf8(rest + t);
      assert Utf8(s) == Utf8Char(c) + Utf8(rest);
    } else {
      assert s + t == t;
    }
  }

  /** ASCII text encodes to its code points, one byte per character. */
  lemma {:induction false} Utf8Ascii(s: string)
    requires forall i :: 0 <= i < |s| ==> s[i] as int < 128
    ensures Utf8(s) == CodePoints(s)
  {
    if s != [] {
      Utf8Ascii(s[1..]);
      assert CodePoints(s) == [s[0] as int] + CodePoints(s[1..]);
    }
  }

  /** Text followed by ASCII text encodes to the text's bytes followed by the ASCII code points. */
  lemma Utf8AsciiSuffix(s: string, t: string)
    requires forall i :: 0 <= i < |t| ==> t[i] as int < 128
    ensures Utf8(s + t) == Utf8(s) + CodePoints(t)
  {
    Utf8Append(s, t);
    Utf8Ascii(t);
  }

  /** UTF-8 is injective: different strings have different bytes. */
  lemma Utf8Injective(s: string, t: string)
    requires Utf8(s) == Utf8(t)
    ensures s == t
  {
    Utf8DecodeOfEncode(s);
    Utf8DecodeOfEncode(t);
  }

  lemma CodePointsInjective(s: string, t: string)
    requires CodePoints(s) == CodePoints(t)
    ensures s == t
  {
    assert |s| == |t|;
    forall i | 0 <= i < |s| ensures s[i] == t[i] {
      assert CodePoints(s)[i] == CodePoints(t)[i];
    }
  }

  lemma {:induction false} LexLeReflexive(a: seq<int>)
    ensures LexLe(a, a)
  {
    if |a| > 0 {
      LexLeReflexive(a[1..]);
    }
  }

  lemma {:induction false} LexLeAntisymmetric(a: seq<int>, b: seq<int>)
    requires LexLe(a, b) && LexLe(b, a)
    ensures a == b
  {
    if |a| > 0 && |b| > 0 {
      LexLeAntisymmetric(a[1..], b[1..]);
      assert a == [a[0]] + a[1..] && b == [b[0]] + b[1..];
    }
  }

  lemma {:induction false} LexLeTransitive(a: seq<int>, b: seq<int>, c: seq<int>)
    requires LexLe(a, b) && LexLe(b, c)
    ensures LexLe(a, c)
  {
    if |a| > 0 && |b| > 0 && |c| > 0 && a[0] == b[0] == c[0] {
      LexLeTransitive(a[1..], b[1..], c[1..]);
    }
  }

  lemma {:induction false} LexLeTotal(a: seq<int>, b: seq<int>)
    ensures LexLe(a, b) || LexLe(b, a)
  {
    if |a| > 0 && |b| > 0 && a[0] == b[0] {
      LexLeTotal(a[1..], b[1..]);
    }
  }

  /** Of two different byte strings exactly one is the smaller. */
  lemma LexLtTrichotomy(a: seq<int>, b: seq<int>)
    ensures a == b || LexLt(a, b) || LexLt(b, a)
    ensures !(LexLt(a, b) && LexLt(b, a))
  {
    LexLeTotal(a, b);
    if LexLe(a, b) && LexLe(b, a) {
      LexLeAntisymmetric(a, b);
    }
  }

  lemma LexLtTransitive(a: seq<int>, b: seq<int>, c: seq<int>)
    requires LexLt(a, b) && LexLt(b, c)
    ensures LexLt(a, c)
  {
    LexLeTransitive(a, b, c);
    if a == c {
      LexLeAntisymmetric(a, b);
    }
  }
}

=== FILE: git_types.dfy ===
/**
 * The value types of the versioned store (src/git/types.rs): errors, merge
 * results, and key-level differences between two snapshots of the store,
 * with what it means for a list of them to describe the change from one
 * snapshot to another.
 */
module GitTypes {
  import opened Wrappers
  import opened ByteStrings
  import opened Sequences

  /** A git object id; ids come from the object database and are parameters here. */
  type CommitId = nat

  datatype GitKvError =
    | GitObjectError(message: string)
    | BranchNotFound(name: string)

  datatype KvConflict = KvConflict(key: Bytes, baseValue: Option<Bytes>, ourValue: Option<Bytes>, theirValue: Option<Bytes>)

  datatype MergeResult =
    | FastForward(commit: CommitId)
    | ThreeWay(commit: CommitId)
    | Conflict(conflicts: seq<KvConflict>)

  /** The key/value content of the store at one commit. */
  type Snapshot = map<Bytes, Bytes>

  datatype DiffOperation =
    | Added(value: Bytes)
    | Removed(value: Bytes)
    | Modified(oldValue: Bytes, newValue: Bytes)

  datatype KvDiff = KvDiff(key: Bytes, operation: DiffOperation)

  /** What happened to key `k` going from `from` to `to`; None when nothing did. */
  function ChangeAt(from: Snapshot, to: Snapshot, k: Bytes): Option<DiffOperation>
  {
    if k in to then
      if k !in from then Some(Added(to[k]))
      else if from[k] != to[k] then Some(Modified(from[k], to[k]))
      else None
    else if k in from then Some(Removed(from[k]))
    else None
  }

  /** The keys whose value differs between the two snapshots. */
  function ChangedKeys(from: Snapshot, to: Snapshot): (ks: set<Bytes>)
    ensures forall k :: k in ks <==> ChangeAt(from, to, k).Some?
  {
    set k | k in from.Keys + to.Keys && ChangeAt(from, to, k).Some?
  }

  function DiffKeys(r: seq<KvDiff>): (ks: seq<Bytes>)
    ensures |ks| == |r|
    ensures forall i :: 0 <= i < |r| ==> ks[i] == r[i].key
  {
    seq(|r|, i requires 0 <= i < |r| => r[i].key)
  }

  /** Appending a diff for a key not yet reported keeps the keys distinct. */
  lemma AppendFresh(r: seq<KvDiff>, d: KvDiff)
    requires Distinct(DiffKeys(r))
    requires d.key !in DiffKeys(r)
    ensures DiffKeys(r + [d]) == DiffKeys(r) + [d.key]
    ensures Distinct(DiffKeys(r + [d]))
  {
    assert DiffKeys(r + [d]) == DiffKeys(r) + [d.key];
  }

  /**
   * `r` reports every changed key exactly once, each with its change, and
   * nothing for an unchanged key; in any order.
   */
  ghost predicate IsChangeList(from: Snapshot, to: Snapshot, r: seq<KvDiff>)
  {
    && (forall i :: 0 <= i < |r| ==> ChangeAt(from, to, r[i].key) == Some(r[i].operation))
    && Distinct(DiffKeys(r))
    && (forall k :: k in ChangedKeys(from, to) ==> k in DiffKeys(r))
  }

  /** A change list in strictly increasing key order, as the sorted diffs are returned. */
  ghost predicate IsSortedDiff(from: Snapshot, to: Snapshot, r: seq<KvDiff>)
  {
    && IsChangeList(from, to, r)
    && (forall i, j :: 0 <= i < j < |r| ==> LexLt(r[i].key, r[j].key))
  }

  /** The comparison `a.key.cmp(&b.key)` used to sort diffs. */
  function ByKey(): (le: (KvDiff, KvDiff) -> bool)
  {
    (a: KvDiff, b: KvDiff) => LexLe(a.key, b.key)
  }

  lemma ByKeyIsTotalPreorder()
    ensures TotalPreorder(ByKey())
  {
    forall x: KvDiff, y: KvDiff ensures ByKey()(x, y) || ByKey()(y, x) {
      LexLeTotal(x.key, y.key);
    }
    forall x: KvDiff, y: KvDiff, z: KvDiff | ByKey()(x, y) && ByKey()(y, z) ensures ByKey()(x, z) {
      LexLeTransitive(x.key, y.key, z.key);
    }
  }

  /** Any reordering of a change list is a change list. */
  lemma PermutedChangeList(from: Snapshot, to: Snapshot, d: seq<KvDiff>, r: seq<KvDiff>)
    requires IsChangeList(from, to, d)
    requires multiset(r) == multiset(d)
    ensures IsChangeList(from, to, r)
  {
    forall i | 0 <= i < |r| ensures ChangeAt(from, to, r[i].key) == Some(r[i].operation) {
      assert r[i] in multiset(d);
    }
    assert Distinct(d) by {
      forall i, j | 0 <= i < j < |d| ensures d[i] != d[j] {
        assert DiffKeys(d)[i] != DiffKeys(d)[j];
      }
    }
    PermutationDistinct(d, r);
    forall i, j | 0 <= i < j < |r| ensures DiffKeys(r)[i] != DiffKeys(r)[j] {
      assert r[i] != r[j];
      assert ChangeAt(from, to, r[i].key) == Some(r[i].operation);
      assert ChangeAt(from, to, r[j].key) == Some(r[j].operation);
    }
    forall k | k in ChangedKeys(from, to) ensures k in DiffKeys(r) {
      var i :| 0 <= i < |d| && DiffKeys(d)[i] == k;
      assert d[i] in multiset(r);
      var j :| 0 <= j < |r| && r[j] == d[i];
      assert DiffKeys(r)[j] == k;
    }
  }

  /** Sorting a change list by key yields the sorted diff: what `sort_by` on the keys achieves. */
  lemma SortedChangeList(from: Snapshot, to: Snapshot, d: seq<KvDiff>)
    requires IsChangeList(from, to, d)
    ensures IsSortedDiff(from, to, SortBy(d, ByKey()))
  {
    var r := SortBy(d, ByKey());
    ByKeyIsTotalPreorder();
    SortBySorted(d, ByKey());
    PermutedChangeList(from, to, d, r);
    forall i, j | 0 <= i < j < |r| ensures LexLt(r[i].key, r[j].key) {
      assert ByKey()(r[i], r[j]);
      assert DiffKeys(r)[i] != DiffKeys(r)[j];
    }
  }

  /** Two strictly increasing key sequences with the same keys are the same sequence. */
  lemma {:induction false} SortedKeysUnique(a: seq<Bytes>, b: seq<Bytes>)
    requires forall i, j :: 0 <= i < j < |a| ==> LexLt(a[i], a[j])
    requires forall i, j :: 0 <= i < j < |b| ==> LexLt(b[i], b[j])
    requires Elements(a) == Elements(b)
    ensures a == b
  {
    if a == [] {
      ElementsEmpty(a);
      ElementsEmpty(b);
    } else {
      assert b != [] by {
        assert a[0] in Elements(a);
      }
      assert a[0] == b[0] by {
        assert b[0] in Elements(a);
        assert a[0] in Elements(b);
        var i :| 0 <= i < |a| && a[i] == b[0];
        var j :| 0 <= j < |b| && b[j] == a[0];
        if a[0] != b[0] {
          assert i > 0 && j > 0;
          LexLtTrichotomy(a[0], b[0]);
        }
      }
      forall x ensures x in Elements(a[1..]) <==> x in Elements(b[1..]) {
        if x in Elements(a[1..]) {
          var i :| 0 <= i < |a[1..]| && a[1..][i] == x;
          assert LexLt(a[0], a[i + 1]);
          assert x in Elements(b);
        }
        if x in Elements(b[1..]) {
          var i :| 0 <= i < |b[1..]| && b[1..][i] == x;
          assert LexLt(b[0], b[i + 1]);
          assert x in Elements(a);
        }
      }
      SortedKeysUnique(a[1..], b[1..]);
      assert a == [a[0]] + a[1..] && b == [b[0]] + b[1..];
    }
  }

  /**
   * The sorted diff of two snapshots is unique: whatever order a hash map
   * yields the keys in, sorting by key gives one answer.
   */
  lemma SortedDiffUnique(from: Snapshot, to: Snapshot, r1: seq<KvDiff>, r2: seq<KvDiff>)
    requires IsSortedDiff(from, to, r1) && IsSortedDiff(from, to, r2)
    ensures r1 == r2
  {
    var k1, k2 := DiffKeys(r1), DiffKeys(r2);
    forall x ensures x in Elements(k1) <==> x in Elements(k2) {
      if x in Elements(k1) {
        var i :| 0 <= i < |k1| && k1[i] == x;
        assert ChangeAt(from, to, x).Some?;
      }
      if x in Elements(k2) {
        var i :| 0 <= i < |k2| && k2[i] == x;
        assert ChangeAt(from, to, x).Some?;
      }
    }
    SortedKeysUnique(k1, k2);
    forall i | 0 <= i < |r1| ensures r1[i] == r2[i] {
      assert k1[i] == k2[i];
    }
  }

  /** Comparing a snapshot with itself reports nothing. */
  lemma SelfDiffEmpty(x: Snapshot, r: seq<KvDiff>)
    requires IsChangeList(x, x, r)
    ensures r == []
  {
    assert |r| > 0 ==> ChangeAt(x, x, r[0].key).Some?;
  }

  function InvertOperation(op: DiffOperation): (inv: DiffOperation)
  {
    match op
    case Added(v) => Removed(v)
    case Removed(v) => Added(v)
    case Modified(o, n) => Modified(n, o)
  }

  function Invert(r: seq<KvDiff>): (inv: seq<KvDiff>)
    ensures |inv| == |r|
    ensures forall i :: 0 <= i < |r| ==> inv[i] == KvDiff(r[i].key, InvertOperation(r[i].operation))
  {
    seq(|r|, i requires 0 <= i < |r| => KvDiff(r[i].key, InvertOperation(r[i].operation)))
  }

  lemma ChangeAtSwapped(a: Snapshot, b: Snapshot, k: Bytes)
    ensures ChangeAt(b, a, k) == if ChangeAt(a, b, k).Some? then Some(InvertOperation(ChangeAt(a, b, k).value)) else None
  {
  }

  /** Swapping the two sides swaps Added with Removed and old with new. */
  lemma InvertSortedDiff(a: Snapshot, b: Snapshot, r: seq<KvDiff>)
    requires IsSortedDiff(a, b, r)
    ensures IsSortedDiff(b, a, Invert(r))
  {
    var inv := Invert(r);
    forall i | 0 <= i < |inv| ensures ChangeAt(b, a, inv[i].key) == Some(inv[i].operation) {
      ChangeAtSwapped(a, b, r[i].key);
    }
    assert DiffKeys(inv) == DiffKeys(r);
    forall k | k in ChangedKeys(b, a) ensures k in DiffKeys(inv) {
      ChangeAtSwapped(a, b, k);
    }
  }
}

=== FILE: hex.dfy ===
/**
 * Hexadecimal text as the store writes and reads it: every byte as two
 * lower-case digits (`format!("{:02x}", b)`), and two-character chunks read
 * back with `u8::from_str_radix(chunk, 16)`.
 *
 * Text is handled as its UTF-8 bytes. `from_str_radix` accepts a leading
 * `+` sign, so besides two hex digits it also accepts `+` followed by one;
 * `HexPairAsWritten` keeps that behaviour and `HexPair` is the two-digit
 * reading the hex format calls for.
 */
module Hex {
  import opened Wrappers
  import opened ByteStrings

  const PLUS: byte := 43

  predicate IsHexDigit(c: byte)
  {
    ('0' as byte <= c <= '9' as byte) || ('a' as byte <= c <= 'f' as byte) || ('A' as byte <= c <= 'F' as byte)
  }

  function DigitValue(c: byte): (v: int)
    requires IsHexDigit(c)
    ensures 0 <= v < 16
  {
    if c <= '9' as byte then c - '0' as byte
    else if c <= 'F' as byte then c - 'A' as byte + 10
    else c - 'a' as byte + 10
  }

  /** The lower-case digit for `v`, as `{:x}` prints it. */
  function LowerDigit(v: int): (c: byte)
    requires 0 <= v < 16
    ensures IsHexDigit(c) && DigitValue(c) == v
    ensures !('A' as byte <= c <= 'F' as byte)
  {
    if v < 10 then '0' as byte + v else 'a' as byte + v - 10
  }

  /** `format!("{:02x}", b)`: two lower-case digits, high nibble first. */
  function EncodeByte(b: byte): (r: Bytes)
    ensures |r| == 2 && IsHexDigit(r[0]) && IsHexDigit(r[1])
    ensures 16 * DigitValue(r[0]) + DigitValue(r[1]) == b
  {
    [LowerDigit(b / 16), LowerDigit(b % 16)]
  }

  /** Every byte of `bs` as two lower-case digits. */
  function EncodeHex(bs: Bytes): (r: Bytes)
    ensures |r| == 2 * |bs|
    ensures forall i :: 0 <= i < |bs| ==> r[2 * i..2 * i + 2] == EncodeByte(bs[i])
  {
    if bs == [] then []
    else
      var r := EncodeByte(bs[0]) + EncodeHex(bs[1..]);
      assert forall i :: 1 <= i < |bs| ==> r[2 * i..2 * i + 2] == EncodeHex(bs[1..])[2 * (i - 1)..2 * (i - 1) + 2];
      r
  }

  /**
   * `u8::from_str_radix(chunk, 16)` on a two-byte chunk: an optional `+`
   * sign followed by hex digits. A chunk that is not ASCII is rejected
   * either by the UTF-8 check or by the digit check.
   */
  function HexPairAsWritten(c0: byte, c1: byte): (r: Option<byte>)
    ensures r.Some? <==> (IsHexDigit(c0) || c0 == PLUS) && IsHexDigit(c1)
  {
    if c0 == PLUS then
      if IsHexDigit(c1) then Some(DigitValue(c1)) else None
    else if IsHexDigit(c0) && IsHexDigit(c1) then Some(16 * DigitValue(c0) + DigitValue(c1))
    else None
  }

  /** `+a` is accepted and read as 0x0a, although `0a` is the only encoding of that byte. */
  lemma PlusSignAccepted()
    ensures HexPairAsWritten(PLUS, 'a' as byte) == Some(10)
    ensures EncodeByte(10) != [PLUS, 'a' as byte]
  {
  }

  /** Two hex digits read as one byte, high nibble first. */
  function HexPair(c0: byte, c1: byte): (r: Option<byte>)
    ensures r.Some? <==> IsHexDigit(c0) && IsHexDigit(c1)
  {
    if IsHexDigit(c0) && IsHexDigit(c1) then Some(16 * DigitValue(c0) + DigitValue(c1)) else None
  }

  /** The two readings agree on every pair that does not start with `+`. */
  lemma HexPairAgrees(c0: byte, c1: byte)
    requires c0 != PLUS
    ensures HexPairAsWritten(c0, c1) == HexPair(c0, c1)
  {
  }

  /** Reading back an encoded byte gives the byte. */
  lemma HexPairOfEncoding(b: byte)
    ensures HexPair(EncodeByte(b)[0], EncodeByte(b)[1]) == Some(b)
  {
  }

  function Lower(c: byte): (r: byte)
  {
    if 'A' as byte <= c <= 'F' as byte then c + 32 else c
  }

  /** Every pair `HexPair` accepts is the encoding of what it reads, up to case. */
  lemma EncodingOfHexPair(c0: byte, c1: byte)
    requires HexPair(c0, c1).Some?
    ensures EncodeByte(HexPair(c0, c1).value) == [Lower(c0), Lower(c1)]
  {
    var v := HexPair(c0, c1).value;
    assert v / 16 == DigitValue(c0) && v % 16 == DigitValue(c1);
  }

  /** Hex text read two digits at a time; None unless the length is even and every pair is valid. */
  function DecodeAll(hex: Bytes): (r: Option<Bytes>)
    ensures r.Some? <==> |hex| % 2 == 0 && forall j :: 0 <= j < |hex| / 2 ==> HexPair(hex[2 * j], hex[2 * j + 1]).Some?
    ensures r.Some? ==> |r.value| == |hex| / 2
  {
    if |hex| % 2 == 0 && forall j :: 0 <= j < |hex| / 2 ==> HexPair(hex[2 * j], hex[2 * j + 1]).Some? then
      Some(seq(|hex| / 2, j requires 0 <= j < |hex| / 2 => HexPair(hex[2 * j], hex[2 * j + 1]).value))
    else None
  }

  /** Text of twice the length whose every pair reads as the matching byte of `bs` reads as `bs`. */
  lemma DecodeAllPairs(hex: Bytes, bs: Bytes)
    requires |hex| == 2 * |bs|
    requires forall j :: 0 <= j < |bs| ==> HexPair(hex[2 * j], hex[2 * j + 1]) == Some(bs[j])
    ensures DecodeAll(hex) == Some(bs)
  {
    assert |hex| % 2 == 0 && |hex| / 2 == |bs|;
    var r := DecodeAll(hex);
    assert r.Some?;
    assert r.value == bs;
  }

  /** Reading back what `EncodeHex` writes gives the bytes. */
  lemma DecodeAllOfEncode(bs: Bytes)
    ensures DecodeAll(EncodeHex(bs)) == Some(bs)
  {
    var hex := EncodeHex(bs);
    forall j | 0 <= j < |bs| ensures HexPair(hex[2 * j], hex[2 * j + 1]) == Some(bs[j]) {
      PairOfEncodeHex(bs, j);
    }
    DecodeAllPairs(hex, bs);
  }


  lemma PairOfEncodeHex(bs: Bytes, j: int)
    requires 0 <= j < |bs|
    ensures HexPair(EncodeHex(bs)[2 * j], EncodeHex(bs)[2 * j + 1]) == Some(bs[j])
  {
    var hex, pair := EncodeHex(bs), EncodeByte(bs[j]);
    var k := 2 * j;
    assert hex[k..k + 2] == pair;
    assert hex[k] == hex[k..k + 2][0] && hex[k + 1] == hex[k..k + 2][1];
    HexPairOfEncoding(bs[j]);
  }

  /** Encoded text holds only digits, so never a separator such as `:` or a newline. */
  lemma EncodeHexDigitsOnly(bs: Bytes, i: int)
    requires 0 <= i < |EncodeHex(bs)|
    ensures IsHexDigit(EncodeHex(bs)[i])
  {
    var j := i / 2;
    assert EncodeHex(bs)[2 * j..2 * j + 2] == EncodeByte(bs[j]);
    assert EncodeHex(bs)[i] == EncodeByte(bs[j])[i - 2 * j];
  }
}

=== FILE: mem_store.dfy ===
/**
 * The query filter, key scheme and validation of the base memory store in
 * src/agent/mem_store.rs.
 *
 * A memory's JSON content is represented by its serialised text, which is
 * what the text filter searches. What reading one namespace back from
 * persistence gives (its documents, in the order read) is a function
 * parameter of `Query`.
 */
module MemStore {
  import opened Wrappers
  import opened Sequences
  import opened AgentTypes

  datatype TimeRange = TimeRange(start: Option<int>, end: Option<int>)

  /** The filters of a `MemoryQuery`; the embedding-based part is not modelled. */
  datatype MemoryQuery = MemoryQuery(
    namespace: Option<MemoryNamespace>,
    memoryTypes: Option<seq<MemoryType>>,
    tags: Option<seq<string>>,
    timeRange: Option<TimeRange>,
    textQuery: Option<string>,
    limit: Option<nat>,
    includeExpired: bool)

  datatype MemoryDocument = MemoryDocument(
    id: string,
    namespace: MemoryNamespace,
    memoryType: MemoryType,
    content: string,
    metadata: MemoryMetadata)

  datatype MemoryError =
    | NotFound(message: string)
    | PermissionDenied(message: string)
    | Expired(message: string)
    | StorageError(message: string)

  /** `memory_key`: `{namespace path}/{id}`. */
  function MemoryKey(ns: MemoryNamespace, id: string): (r: string)
    ensures |r| == |ToPath(ns)| + 1 + |id|
    ensures ToPath(ns) <= r && r[|ToPath(ns)|] == '/' && r[|ToPath(ns)| + 1..] == id
  {
    ToPath(ns) + "/" + id
  }

  /** Within one namespace, the key tells the id back. */
  lemma MemoryKeyInjective(ns: MemoryNamespace, a: string, b: string)
    requires MemoryKey(ns, a) == MemoryKey(ns, b)
    ensures a == b
  {
    assert a == MemoryKey(ns, a)[|ToPath(ns)| + 1..];
  }

  /** ASCII letters in lower case, every other character unchanged. */
  function Lower(s: string): (r: string)
    ensures |r| == |s|
    ensures forall i :: 0 <= i < |s| ==> r[i] == if 'A' <= s[i] <= 'Z' then (s[i] as int + 32) as char else s[i]
  {
    if s == [] then []
    else [if 'A' <= s[0] <= 'Z' then (s[0] as int + 32) as char else s[0]] + Lower(s[1..])
  }

  lemma LowerIdempotent(s: string)
    ensures Lower(Lower(s)) == Lower(s)
  {
    assert forall i :: 0 <= i < |s| ==> Lower(Lower(s))[i] == Lower(s)[i];
  }

  /** `str::contains`: `needle` occurs somewhere in `hay`. */
  function Contains(hay: string, needle: string): (r: bool)
    decreases |hay|
  {
    needle <= hay || (hay != [] && Contains(hay[1..], needle))
  }

  lemma {:induction false} ContainsAt(hay: string, needle: string)
    ensures Contains(hay, needle) <==> exists i :: OccursAt(hay, needle, i)
    decreases |hay|
  {
    if needle <= hay {
      assert OccursAt(hay, needle, 0);
    } else if hay != [] {
      ContainsAt(hay[1..], needle);
      if exists i :: OccursAt(hay, needle, i) {
        var i :| OccursAt(hay, needle, i);
        assert i != 0;
        assert OccursAt(hay[1..], needle, i - 1);
      }
      if exists i :: OccursAt(hay[1..], needle, i) {
        var i :| OccursAt(hay[1..], needle, i);
        assert OccursAt(hay, needle, i + 1);
      }
    } else {
      assert !OccursAt(hay, needle, 0);
    }
  }

  /** The text filter: the query, lower-cased, occurs in the lower-cased content. */
  predicate TextMatches(content: string, query: string)
  {
    Contains(Lower(content), Lower(query))
  }

  /**
   * `matches_query`: an expired memory only when expired ones are asked
   * for, every queried tag among the memory's tags, the creation time
   * within the inclusive bounds, and the text query in the content.
   */
  predicate MatchesQuery(memory: MemoryDocument, q: MemoryQuery, now: int)
    reads memory.metadata
  {
    if !q.includeExpired && memory.metadata.IsExpired(now) then false
    else if q.tags.Some? && !(forall t :: t in q.tags.value ==> t in memory.metadata.tags) then false
    else if q.timeRange.Some? && q.timeRange.value.start.Some? && memory.metadata.createdAt < q.timeRange.value.start.value then false
    else if q.timeRange.Some? && q.timeRange.value.end.Some? && memory.metadata.createdAt > q.timeRange.value.end.value then false
    else if q.textQuery.Some? && !TextMatches(memory.content, q.textQuery.value) then false
    else true
  }

  /** Each filter of the query, stated on its own; a memory matches exactly when it passes all of them. */
  lemma MatchesQueryFilters(memory: MemoryDocument, q: MemoryQuery, now: int)
    ensures MatchesQuery(memory, q, now) <==>
      && (q.includeExpired || !memory.metadata.IsExpired(now))
      && (q.tags.Some? ==> forall t :: t in q.tags.value ==> t in memory.metadata.tags)
      && (q.timeRange.Some? && q.timeRange.value.start.Some? ==> q.timeRange.value.start.value <= memory.metadata.createdAt)
      && (q.timeRange.Some? && q.timeRange.value.end.Some? ==> memory.metadata.createdAt <= q.timeRange.value.end.value)
      && (q.textQuery.Some? ==> TextMatches(memory.content, q.textQuery.value))
  {
  }

  /** The text filter holds exactly when the lower-cased query occurs at some position of the lower-cased content. */
  lemma TextMatchesSubstring(content: string, query: string)
    ensures TextMatches(content, query) <==> exists i :: OccursAt(Lower(content), Lower(query), i)
  {
    ContainsAt(Lower(content), Lower(query));
    assert TextMatches(content, query) == Contains(Lower(content), Lower(query));
    assert Contains(Lower(content), Lower(query)) <==> exists i :: OccursAt(Lower(content), Lower(query), i);
  }

  /** The text filter does not care about the case of the query. */
  lemma TextQueryIgnoresCase(memory: MemoryDocument, q: MemoryQuery, text: string, now: int)
    ensures MatchesQuery(memory, q.(textQuery := Some(text)), now) == MatchesQuery(memory, q.(textQuery := Some(Lower(text))), now)
  {
    LowerIdempotent(text);
  }

  /** The documents of `docs` that match, in order. */
  function Matching(docs: seq<MemoryDocument>, q: MemoryQuery, now: int): (r: seq<MemoryDocument>)
    reads set d | d in docs :: d.metadata
    ensures |r| <= |docs|
    ensures forall i :: 0 <= i < |r| ==> r[i] in docs && MatchesQuery(r[i], q, now)
    ensures forall i :: 0 <= i < |docs| && MatchesQuery(docs[i], q, now) ==> docs[i] in r
  {
    if docs == [] then []
    else
      var last := docs[|docs| - 1];
      var front := Matching(docs[..|docs| - 1], q, now);
      assert forall i :: 0 <= i < |docs| - 1 ==> docs[i] == docs[..|docs| - 1][i];
      if MatchesQuery(last, q, now) then front + [last] else front
  }

  /** `truncate(limit)`: at most the first `limit` elements. */
  function Truncate<T>(s: seq<T>, limit: Option<nat>): (r: seq<T>)
    ensures limit.None? ==> r == s
    ensures limit.Some? ==> |r| == if limit.value < |s| then limit.value else |s|
    ensures r <= s
  {
    if limit.Some? && limit.value < |s| then s[..limit.value] else s
  }

  /** The namespaces a query searches: its own, or the agent's namespace of each requested (or every) memory type. */
  function SearchNamespaces(q: MemoryQuery, agentId: string): (r: seq<MemoryNamespace>)
    ensures q.namespace.Some? ==> r == [q.namespace.value]
    ensures q.namespace.None? ==> forall ns :: ns in r ==> ns.agentId == agentId && ns.subNamespace.None?
    ensures q.namespace.None? && q.memoryTypes.Some? ==> |r| == |q.memoryTypes.value|
    ensures q.namespace.None? && q.memoryTypes.None? ==> |r| == 4
  {
    if q.namespace.Some? then [q.namespace.value]
    else
      var types := if q.memoryTypes.Some? then q.memoryTypes.value else [ShortTerm, Semantic, Episodic, Procedural];
      seq(|types|, i requires 0 <= i < |types| => MemoryNamespace(agentId, types[i], None))
  }

  /** One more document read: it joins the matching ones exactly when it matches. */
  lemma MatchingSnoc(docs: seq<MemoryDocument>, d: MemoryDocument, q: MemoryQuery, now: int)
    ensures Matching(docs + [d], q, now) == if MatchesQuery(d, q, now) then Matching(docs, q, now) + [d] else Matching(docs, q, now)
  {
    assert (docs + [d])[..|docs|] == docs;
  }

  /** The matching documents of two reads one after the other are those of each, in turn. */
  lemma {:induction false} MatchingAppend(a: seq<MemoryDocument>, b: seq<MemoryDocument>, q: MemoryQuery, now: int)
    ensures Matching(a + b, q, now) == Matching(a, q, now) + Matching(b, q, now)
    decreases |b|
  {
    if b == [] {
      assert a + b == a;
    } else {
      var front, last := b[..|b| - 1], b[|b| - 1];
      assert b == front + [last] && a + b == (a + front) + [last];
      MatchingAppend(a, front, q, now);
      MatchingSnoc(a + front, last, q, now);
      MatchingSnoc(front, last, q, now);
    }
  }

  /** The documents read back from each namespace in turn, one after another. */
  function ReadAll(read: MemoryNamespace -> seq<MemoryDocument>, namespaces: seq<MemoryNamespace>): seq<MemoryDocument>
  {
    if namespaces == [] then []
    else ReadAll(read, namespaces[..|namespaces| - 1]) + read(namespaces[|namespaces| - 1])
  }

  /** A document is among those read exactly when one of the namespaces gave it. */
  lemma {:induction false} ReadAllMembers(read: MemoryNamespace -> seq<MemoryDocument>, namespaces: seq<MemoryNamespace>, d: MemoryDocument)
    ensures d in ReadAll(read, namespaces) <==> exists ns :: ns in namespaces && d in read(ns)
    decreases |namespaces|
  {
    if namespaces != [] {
      var front, last := namespaces[..|namespaces| - 1], namespaces[|namespaces| - 1];
      ReadAllMembers(read, front, d);
      assert namespaces == front + [last];
    }
  }

  lemma ReadAllSnoc(read: MemoryNamespace -> seq<MemoryDocument>, namespaces: seq<MemoryNamespace>, n: nat)
    requires n < |namespaces|
    ensures ReadAll(read, namespaces[..n + 1]) == ReadAll(read, namespaces[..n]) + read(namespaces[n])
  {
    assert namespaces[..n + 1][..n] == namespaces[..n];
  }

  /**
   * `query`: the documents read back from each namespace `SearchNamespaces`
   * names, in turn, those that match kept in the order read, cut to the
   * limit. `read` stands for listing a namespace's keys and loading and
   * decoding each document.
   */
  method Query(read: MemoryNamespace -> seq<MemoryDocument>, agentId: string, q: MemoryQuery, now: int) returns (results: seq<MemoryDocument>)
    ensures results == Truncate(Matching(ReadAll(read, SearchNamespaces(q, agentId)), q, now), q.limit)
    ensures forall i :: 0 <= i < |results| ==>
              MatchesQuery(results[i], q, now) && exists ns :: ns in SearchNamespaces(q, agentId) && results[i] in read(ns)
    ensures q.limit.Some? ==> |results| <= q.limit.value
  {
    var namespaces := SearchNamespaces(q, agentId);
    results := [];
    var n := 0;
    assert namespaces[..0] == [];
    while n < |namespaces|
      invariant 0 <= n <= |namespaces|
      invariant results == Matching(ReadAll(read, namespaces[..n]), q, now)
    {
      ReadAllSnoc(read, namespaces, n);
      results := AddMatching(results, ReadAll(read, namespaces[..n]), read(namespaces[n]), q, now);
      n := n + 1;
    }
    TakeAll(namespaces);
    if q.limit.Some? && q.limit.value < |results| {
      results := results[..q.limit.value];
    }
    forall i | 0 <= i < |results| ensures exists ns :: ns in namespaces && results[i] in read(ns) {
      ReadAllMembers(read, namespaces, results[i]);
    }
  }

  /** The matching documents of one namespace, in the order read, added to the results so far. */
  method AddMatching(results: seq<MemoryDocument>, ghost before: seq<MemoryDocument>, docs: seq<MemoryDocument>, q: MemoryQuery, now: int)
    returns (r: seq<MemoryDocument>)
    requires results == Matching(before, q, now)
    ensures r == Matching(before + docs, q, now)
  {
    var found := [];
    var i := 0;
    while i < |docs|
      invariant 0 <= i <= |docs|
      invariant found == Matching(docs[..i], q, now)
    {
      MatchingSnoc(docs[..i], docs[i], q, now);
      assert docs[..i + 1] == docs[..i] + [docs[i]];
      if MatchesQuery(docs[i], q, now) {
        found := found + [docs[i]];
      }
      i := i + 1;
    }
    TakeAll(docs);
    MatchingAppend(before, docs, q, now);
    r := results + found;
  }

  /** `validate_memory`: a memory of another agent is refused first, then an expired one. */
  function ValidateMemory(memory: MemoryDocument, agentId: string, now: int): (r: Result<(), MemoryError>)
    reads memory.metadata
    ensures r.Ok? <==> memory.metadata.agentId == agentId && !memory.metadata.IsExpired(now)
    ensures r.Err? && r.error.PermissionDenied? <==> memory.metadata.agentId != agentId
    ensures r.Err? && r.error.Expired? <==> memory.metadata.agentId == agentId && memory.metadata.IsExpired(now)
  {
    if memory.metadata.agentId != agentId then
      Err(PermissionDenied("Memory belongs to different agent: " + memory.metadata.agentId))
    else if memory.metadata.IsExpired(now) then
      Err(Expired("Memory " + memory.id + " has expired"))
    else Ok(())
  }
}

=== FILE: operations.dfy ===
/**
 * The git-like operations of src/git/operations.rs over a store: branch
 * resolution, the ancestor test by breadth-first search over the parent
 * graph, fast-forward merge classification, the union-of-keys diff, `show`,
 * `revert`, and hex decoding.
 */
module Operations {
  import opened Wrappers
  import opened ByteStrings
  import opened Sequences
  import opened GitTypes
  import opened Hex
  import opened VersionedStore

  /** The parents of commit `c`; a commit whose object cannot be read has none. */
  function ParentsOf(commits: map<CommitId, CommitObject>, c: CommitId): seq<CommitId>
  {
    if c in commits then commits[c].parents else []
  }

  /** `p` walks from child to parent at every step. */
  ghost predicate IsWalk(commits: map<CommitId, CommitObject>, p: seq<CommitId>)
  {
    && |p| > 0
    && forall i :: 0 <= i < |p| - 1 ==> p[i + 1] in ParentsOf(commits, p[i])
  }

  /** `a` is `d` or one of its ancestors. */
  ghost predicate Reaches(commits: map<CommitId, CommitObject>, d: CommitId, a: CommitId)
  {
    exists p :: IsWalk(commits, p) && p[0] == d && p[|p| - 1] == a
  }

  lemma ReachesSelf(commits: map<CommitId, CommitObject>, d: CommitId)
    ensures Reaches(commits, d, d)
  {
    assert IsWalk(commits, [d]);
  }

  lemma ReachesParent(commits: map<CommitId, CommitObject>, d: CommitId, c: CommitId, q: CommitId)
    requires Reaches(commits, d, c) && q in ParentsOf(commits, c)
    ensures Reaches(commits, d, q)
  {
    var p :| IsWalk(commits, p) && p[0] == d && p[|p| - 1] == c;
    var p' := p + [q];
    assert IsWalk(commits, p');
  }

  /** Every commit the search can meet: the start and every commit named in the object database. */
  ghost function Known(commits: map<CommitId, CommitObject>, d: CommitId): set<CommitId>
  {
    {d} + commits.Keys + (set c, q | c in commits && q in commits[c].parents :: q)
  }

  /** A set that holds `d` and the parents of each of its members holds every ancestor of `d`. */
  lemma {:induction false} ClosedHoldsWalk(commits: map<CommitId, CommitObject>, s: set<CommitId>, p: seq<CommitId>, i: int)
    requires IsWalk(commits, p) && p[0] in s
    requires forall x, q :: x in s && q in ParentsOf(commits, x) ==> q in s
    requires 0 <= i < |p|
    ensures p[i] in s
  {
    if i > 0 {
      ClosedHoldsWalk(commits, s, p, i - 1);
    }
  }

  lemma ClosedExcludes(commits: map<CommitId, CommitObject>, s: set<CommitId>, d: CommitId, a: CommitId)
    requires d in s && a !in s
    requires forall x, q :: x in s && q in ParentsOf(commits, x) ==> q in s
    ensures !Reaches(commits, d, a)
  {
    if Reaches(commits, d, a) {
      var p :| IsWalk(commits, p) && p[0] == d && p[|p| - 1] == a;
      ClosedHoldsWalk(commits, s, p, |p| - 1);
    }
  }

  datatype CommitInfo = CommitInfo(id: CommitId, message: string)

  datatype CommitDetails = CommitDetails(info: CommitInfo, changes: seq<KvDiff>, parentIds: seq<CommitId>)

  /**
   * The single conflict a merge that is not a fast-forward reports, its
   * key and texts as their (ASCII) bytes.
   */
  const ManualMergeConflict: KvConflict :=
    KvConflict(
      [60, 109, 101, 114, 103, 101, 62], // "<merge>"
      None,
      // "Cannot automatically merge - guide merge required"
      Some([67, 97, 110, 110, 111, 116, 32, 97, 117, 116, 111, 109, 97, 116, 105, 99,
            97, 108, 108, 121, 32, 109, 101, 114, 103, 101, 32, 45, 32, 103, 117, 105,
            100, 101, 32, 109, 101, 114, 103, 101, 32, 114, 101, 113, 117, 105, 114, 101,
            100]),
      // "Use 'git merge' or resolve conflicts manually"
      Some([85, 115, 101, 32, 39, 103, 105, 116, 32, 109, 101, 114, 103, 101, 39, 32,
            111, 114, 32, 114, 101, 115, 111, 108, 118, 101, 32, 99, 111, 110, 102, 108,
            105, 99, 116, 115, 32, 109, 97, 110, 117, 97, 108, 108, 121]))

  /**
   * The union-of-keys diff: every key of either state, in hash-set order,
   * with unchanged keys skipped. The result is not sorted.
   */
  method UnionDiff(from: Snapshot, to: Snapshot) returns (diffs: seq<KvDiff>)
    ensures IsChangeList(from, to, diffs)
  {
    diffs := [];
    var rest := from.Keys + to.Keys;
    while rest != {}
      invariant rest <= from.Keys + to.Keys
      invariant forall i :: 0 <= i < |diffs| ==> ChangeAt(from, to, diffs[i].key) == Some(diffs[i].operation)
      invariant Distinct(DiffKeys(diffs))
      invariant forall k :: k in DiffKeys(diffs) <==> k in (from.Keys + to.Keys) - rest && ChangeAt(from, to, k).Some?
      decreases rest
    {
      var key :| key in rest;
      rest := rest - {key};
      var operation;
      if key !in from {
        operation := Added(to[key]);
      } else if key !in to {
        operation := Removed(from[key]);
      } else if from[key] != to[key] {
        operation := Modified(from[key], to[key]);
      } else {
        continue;
      }
      AppendFresh(diffs, KvDiff(key, operation));
      diffs := diffs + [KvDiff(key, operation)];
    }
  }

  /** Both diffs describe the same change: sorted by key, the union-of-keys diff is the store's diff. */
  lemma UnionDiffSortedIsStoreDiff(from: Snapshot, to: Snapshot, unsorted: seq<KvDiff>, sorted: seq<KvDiff>)
    requires IsChangeList(from, to, unsorted)
    requires IsSortedDiff(from, to, sorted)
    ensures SortBy(unsorted, ByKey()) == sorted
  {
    SortedChangeList(from, to, unsorted);
    SortedDiffUnique(from, to, SortBy(unsorted, ByKey()), sorted);
  }

  /** Every key of a state reported as added, in hash-map order: the changes of a root commit. */
  method AllAdded(state: Snapshot) returns (diffs: seq<KvDiff>)
    ensures IsChangeList(map[], state, diffs)
  {
    diffs := [];
    var rest := state.Keys;
    while rest != {}
      invariant rest <= state.Keys
      invariant forall i :: 0 <= i < |diffs| ==> ChangeAt(map[], state, diffs[i].key) == Some(diffs[i].operation)
      invariant Distinct(DiffKeys(diffs))
      invariant forall k :: k in DiffKeys(diffs) <==> k in state.Keys - rest
      decreases rest
    {
      var key :| key in rest;
      rest := rest - {key};
      AppendFresh(diffs, KvDiff(key, Added(state[key])));
      diffs := diffs + [KvDiff(key, Added(state[key]))];
    }
  }

  /**
   * `map` with the keys of `ks` set back to what `base` holds for them:
   * the state a revert stages.
   */
  function Restore(current: Snapshot, base: Snapshot, ks: set<Bytes>): (r: Snapshot)
    ensures forall k :: k in ks ==> (k in r <==> k in base) && (k in base ==> r[k] == base[k])
    ensures forall k :: k !in ks ==> (k in r <==> k in current) && (k in current ==> r[k] == current[k])
  {
    map k | k in current.Keys + base.Keys && (if k in ks then k in base else k in current)
      :: if k in ks then base[k] else current[k]
  }

  /** Restoring the changed keys of a commit over the commit's own state gives back its parent's state. */
  lemma RestoreUndoesChange(base: Snapshot, state: Snapshot)
    ensures Restore(state, base, ChangedKeys(base, state)) == base
  {
    var r := Restore(state, base, ChangedKeys(base, state));
    forall k ensures (k in r <==> k in base) && (k in r ==> r[k] == base[k]) {
      if k !in ChangedKeys(base, state) {
        assert ChangeAt(base, state, k).None?;
      }
    }
  }

  function SnapshotGet(m: Snapshot, k: Bytes): (r: Option<Bytes>)
    ensures r.Some? <==> k in m
    ensures r.Some? ==> r.value == m[k]
  {
    if k in m then Some(m[k]) else None
  }

  /** The keys of one more change are the keys so far and its own. */
  lemma DiffKeysSnoc(changes: seq<KvDiff>, i: nat)
    requires i < |changes|
    ensures Elements(DiffKeys(changes[..i + 1])) == Elements(DiffKeys(changes[..i])) + {changes[i].key}
  {
    assert DiffKeys(changes[..i + 1]) == DiffKeys(changes[..i]) + [changes[i].key];
  }

  /** Restoring one more key changes what that key reads, and nothing else. */
  lemma RestoreAdd(current: Snapshot, base: Snapshot, ks: set<Bytes>, key: Bytes)
    ensures SnapshotGet(Restore(current, base, ks + {key}), key) == SnapshotGet(base, key)
    ensures forall k :: k != key ==> SnapshotGet(Restore(current, base, ks + {key}), k) == SnapshotGet(Restore(current, base, ks), k)
  {
  }

  /** A change from `base` records what `base` held for its key. */
  lemma ValueBeforeChange(base: Snapshot, state: Snapshot, key: Bytes, op: DiffOperation)
    requires ChangeAt(base, state, key) == Some(op)
    ensures op.Added? ==> key !in base
    ensures op.Removed? ==> key in base && base[key] == op.value
    ensures op.Modified? ==> key in base && base[key] == op.oldValue
  {
  }

  /** Both tips resolve, differ, and the current one is an ancestor of the other: `merge` checks out the other branch. */
  ghost predicate FastForwards(current: Result<CommitId, GitKvError>, other: Result<CommitId, GitKvError>,
                               commits: map<CommitId, CommitObject>)
  {
    current.Ok? && other.Ok? && current.value != other.value && Reaches(commits, other.value, current.value)
  }

  /**
   * What `merge` answers for the two branch tips: a lookup error first, a
   * fast-forward to the same commit when the tips agree, a fast-forward to
   * the other tip when the current one is its ancestor, and otherwise one
   * `<merge>` conflict.
   */
  ghost function MergeOutcome(current: Result<CommitId, GitKvError>, other: Result<CommitId, GitKvError>,
                              commits: map<CommitId, CommitObject>): Result<MergeResult, GitKvError>
  {
    if current.Err? then Err(current.error)
    else if other.Err? then Err(other.error)
    else if current.value == other.value then Ok(FastForward(current.value))
    else if Reaches(commits, other.value, current.value) then Ok(FastForward(other.value))
    else Ok(Conflict([ManualMergeConflict]))
  }

  /** Git operations over one store. */
  class GitOperations {
    const store: KvStore

    constructor (store: KvStore)
      ensures this.store == store
    {
      this.store := store;
    }

    /** The commit a branch name points to, as its full ref resolves. */
    function BranchCommit(branch: string): (r: Result<CommitId, GitKvError>)
      reads store
      ensures r.Ok? <==> RefName(branch) in store.refs
      ensures r.Ok? ==> r.value == store.refs[RefName(branch)]
    {
      var name := RefName(branch);
      if name in store.refs then Ok(store.refs[name])
      else Err(GitObjectError("Cannot resolve branch/commit " + branch))
    }

    /** The commit HEAD names: the tip of the current branch. */
    function HeadCommit(): (r: Result<CommitId, GitKvError>)
      reads store
      ensures r.Ok? <==> BranchRef(store.currentBranch) in store.refs
    {
      var name := BranchRef(store.currentBranch);
      if name in store.refs then Ok(store.refs[name])
      else Err(GitObjectError("Failed to get HEAD"))
    }

    /**
     * The key/value state at a commit: the store's current contents when the
     * commit is HEAD, otherwise the contents recorded in the commit.
     */
    function StateAt(id: CommitId): (r: Result<Snapshot, GitKvError>)
      reads store
      ensures HeadCommit() == Ok(id) ==> r == Ok(store.View())
      ensures HeadCommit().Ok? && HeadCommit().value != id ==> (r.Ok? <==> id in store.commits)
      ensures HeadCommit().Ok? && HeadCommit().value != id && id in store.commits ==> r.value == store.commits[id].data
    {
      match HeadCommit()
      case Err(e) => Err(e)
      case Ok(head) =>
        if id == head then Ok(store.View())
        else if id in store.commits then Ok(store.commits[id].data)
        else Err(GitObjectError("Commit not found"))
    }

    /**
     * Breadth-first search from `descendant` through parent links, each
     * commit expanded at most once; true exactly when `ancestor` is reached.
     */
    method IsAncestor(ancestor: CommitId, descendant: CommitId) returns (found: bool)
      ensures found <==> Reaches(store.commits, descendant, ancestor)
    {
      var commits := store.commits;
      if ancestor == descendant {
        ReachesSelf(commits, descendant);
        return true;
      }
      ghost var known := Known(commits, descendant);
      var visited: set<CommitId> := {};
      var queue: seq<CommitId> := [descendant];
      ReachesSelf(commits, descendant);
      while queue != []
        invariant visited <= known
        invariant forall x :: x in queue ==> x in known && Reaches(commits, descendant, x)
        invariant forall x :: x in visited ==> Reaches(commits, descendant, x)
        invariant ancestor !in visited
        invariant descendant in visited || descendant in queue
        invariant forall x, q :: x in visited && q in ParentsOf(commits, x) ==> q in visited || q in queue
        decreases known - visited, |queue|
      {
        var current := queue[0];
        queue := queue[1..];
        if current in visited {
          continue;
        }
        visited := visited + {current};
        if current == ancestor {
          return true;
        }
        var parents := ParentsOf(commits, current);
        for j := 0 to |parents|
          invariant forall x :: x in queue ==> x in known && Reaches(commits, descendant, x)
          invariant forall i :: 0 <= i < j ==> parents[i] in visited || parents[i] in queue
          invariant descendant in visited || descendant in queue
          invariant forall x, q :: x in visited && x != current && q in ParentsOf(commits, x) ==> q in visited || q in queue
        {
          if parents[j] !in visited {
            ReachesParent(commits, descendant, current, parents[j]);
            queue := queue + [parents[j]];
          }
        }
      }
      ClosedExcludes(commits, visited, descendant, ancestor);
      return false;
    }

    /**
     * Merge `otherBranch` into the current branch: identical tips are a
     * fast-forward to the current commit; when the current commit is an
     * ancestor of the other, the store checks out the other branch;
     * otherwise a single `<merge>` conflict is reported and nothing changes.
     */
    method Merge(otherBranch: string) returns (r: Result<MergeResult, GitKvError>)
      modifies store
      ensures r == MergeOutcome(old(BranchCommit(store.currentBranch)), old(BranchCommit(otherBranch)), old(store.commits))
      ensures if FastForwards(old(BranchCommit(store.currentBranch)), old(BranchCommit(otherBranch)), old(store.commits))
        then && store.currentBranch == otherBranch && store.staging == map[]
             && store.tree == old(store.tree) && store.refs == old(store.refs) && store.commits == old(store.commits)
        else unchanged(store)
    {
      var current := BranchCommit(store.currentBranch);
      if current.Err? {
        return Err(current.error);
      }
      var other := BranchCommit(otherBranch);
      if other.Err? {
        return Err(other.error);
      }
      if current.value == other.value {
        return Ok(FastForward(current.value));
      }
      var fastForward := IsAncestor(current.value, other.value);
      if fastForward {
        assert FastForwards(current, other, store.commits);
        var _ := store.Checkout(otherBranch);
        return Ok(FastForward(other.value));
      }
      assert !FastForwards(current, other, store.commits);
      return Ok(Conflict([ManualMergeConflict]));
    }

    /** The state a commit's changes are measured from: its first parent's, or empty for a root commit. */
    function BaseState(id: CommitId): (r: Result<Snapshot, GitKvError>)
      reads store
      requires id in store.commits
      ensures store.commits[id].parents == [] ==> r == Ok(map[])
      ensures store.commits[id].parents != [] ==> r == StateAt(store.commits[id].parents[0])
    {
      var parents := store.commits[id].parents;
      if parents == [] then Ok(map[]) else StateAt(parents[0])
    }

    /**
     * The details of commit `id`: its message, its parents, and its changes,
     * which are the diff from its first parent or, for a root commit, every
     * key of its state as added.
     */
    method Show(id: CommitId) returns (r: Result<CommitDetails, GitKvError>)
      ensures id !in store.commits ==> r.Err?
      ensures id in store.commits && BaseState(id).Ok? && StateAt(id).Ok? ==>
        && r.Ok?
        && r.value.info == CommitInfo(id, store.commits[id].message)
        && r.value.parentIds == store.commits[id].parents
        && IsChangeList(BaseState(id).value, StateAt(id).value, r.value.changes)
      ensures r.Ok? ==> id in store.commits && BaseState(id).Ok? && StateAt(id).Ok?
    {
      if id !in store.commits {
        return Err(GitObjectError("Commit not found"));
      }
      var commit := store.commits[id];
      var info := CommitInfo(id, commit.message);
      var changes;
      if commit.parents != [] {
        var from := StateAt(commit.parents[0]);
        if from.Err? {
          return Err(from.error);
        }
        var to := StateAt(id);
        if to.Err? {
          return Err(to.error);
        }
        changes := UnionDiff(from.value, to.value);
      } else {
        var state := StateAt(id);
        if state.Err? {
          return Err(state.error);
        }
        changes := AllAdded(state.value);
      }
      return Ok(CommitDetails(info, changes, commit.parents));
    }

    /**
     * Stage the inverse of each change in turn: a delete for an added key,
     * the old value for a removed or modified one.
     */
    method UndoChanges(ghost base: Snapshot, ghost state: Snapshot, changes: seq<KvDiff>)
      modifies store
      requires IsChangeList(base, state, changes)
      ensures store.View() == Restore(old(store.View()), base, Elements(DiffKeys(changes)))
      ensures store.tree == old(store.tree) && store.currentBranch == old(store.currentBranch)
      ensures store.refs == old(store.refs) && store.commits == old(store.commits)
    {
      ghost var before := store.View();
      ghost var ks: set<Bytes> := {};
      for i := 0 to |changes|
        invariant ks == Elements(DiffKeys(changes[..i]))
        invariant forall k :: store.Get(k) == SnapshotGet(Restore(before, base, ks), k)
        invariant store.tree == old(store.tree) && store.currentBranch == old(store.currentBranch)
        invariant store.refs == old(store.refs) && store.commits == old(store.commits)
      {
        var diff := changes[i];
        DiffKeysSnoc(changes, i);
        RestoreAdd(before, base, ks, diff.key);
        ValueBeforeChange(base, state, diff.key, diff.operation);
        match diff.operation {
          case Added(_) =>
            var _ := store.Delete(diff.key);
          case Removed(value) =>
            store.Insert(diff.key, value);
          case Modified(oldValue, _) =>
            store.Insert(diff.key, oldValue);
        }
        ks := ks + {diff.key};
      }
      TakeAll(changes);
      var target := Restore(before, base, ks);
      forall k ensures (k in store.View() <==> k in target) && (k in target ==> store.View()[k] == target[k]) {
        assert store.Get(k) == SnapshotGet(target, k);
      }
    }

    /**
     * Undo commit `id`: an added key is deleted, a removed key is inserted
     * with its old value, a modified key gets its old value back; then the
     * result is committed as `newId` with message `Revert "<message>"`.
     */
    method Revert(id: CommitId, newId: CommitId) returns (r: Result<(), GitKvError>)
      modifies store
      ensures r.Err? ==> unchanged(store)
      ensures old(id in store.commits && BaseState(id).Ok? && StateAt(id).Ok?) <==> r.Ok?
      ensures r.Ok? ==>
        var base, state := old(BaseState(id)).value, old(StateAt(id)).value;
        && store.tree == Restore(old(store.View()), base, ChangedKeys(base, state))
        && store.staging == map[]
        && store.currentBranch == old(store.currentBranch)
        && store.refs == old(store.refs)[BranchRef(store.currentBranch) := newId]
        && store.commits == old(store.commits)[newId := CommitObject(old(store.HeadParents()), "Revert \"" + old(store.commits)[id].message + "\"", store.tree)]
      ensures r.Ok? && old(HeadCommit()) == Ok(id) ==> store.tree == old(BaseState(id)).value
    {
      var details := Show(id);
      if details.Err? {
        return Err(details.error);
      }
      ghost var base, state := BaseState(id).value, StateAt(id).value;
      var changes := details.value.changes;
      UndoChanges(base, state, changes);
      assert Elements(DiffKeys(changes)) == ChangedKeys(base, state);
      RestoreUndoesChange(base, state);
      var _ := store.Commit(newId, "Revert \"" + details.value.info.message + "\"");
      return Ok(());
    }
  }

  /**
   * `decode_hex`: an odd length is rejected, otherwise each two-byte chunk is
   * read as one byte. A chunk that is not UTF-8 and a chunk that is not two
   * hex digits fail with different errors, and the first failing chunk
   * decides. The chunks are read with `HexPair`, the two-digit reading; see
   * `HexPairAsWritten` for the sign the original also accepts.
   */
  method DecodeHex(hex: Bytes) returns (r: Result<Bytes, GitKvError>)
    ensures |hex| % 2 != 0 ==> r == Err(GitObjectError("Invalid hex string length"))
    ensures r.Ok? <==> DecodeAll(hex).Some?
    ensures r.Ok? ==> r.value == DecodeAll(hex).value && |r.value| == |hex| / 2
    ensures r.Err? && |hex| % 2 == 0 ==>
      exists k :: 0 <= k < |hex| / 2 && HexPair(hex[2 * k], hex[2 * k + 1]).None?
        && (forall j :: 0 <= j < k ==> HexPair(hex[2 * j], hex[2 * j + 1]).Some?)
        && r == Err(GitObjectError(if Utf8Valid(hex[2 * k..2 * k + 2]) then "Invalid hex digit" else "Invalid hex characters"))
  {
    if |hex| % 2 != 0 {
      return Err(GitObjectError("Invalid hex string length"));
    }
    var bytes: Bytes := [];
    for i := 0 to |hex| / 2
      invariant |bytes| == i
      invariant forall j :: 0 <= j < i ==> HexPair(hex[2 * j], hex[2 * j + 1]) == Some(bytes[j])
    {
      var chunk := hex[2 * i..2 * i + 2];
      if !Utf8Valid(chunk) {
        assert !IsAscii(chunk) by {
          if IsAscii(chunk) {
            AsciiValid(chunk);
          }
        }
        assert chunk == [hex[2 * i], hex[2 * i + 1]];
        return Err(GitObjectError("Invalid hex characters"));
      }
      var b := HexPair(hex[2 * i], hex[2 * i + 1]);
      if b.None? {
        return Err(GitObjectError("Invalid hex digit"));
      }
      bytes := bytes + [b.value];
    }
    return Ok(bytes);
  }
}

=== FILE: page.dfy ===
/**
 * A page of the prolly tree (src/page.rs): nodes kept sorted by key, split
 * once a page holds more than five of them.
 *
 * A node carries its key, its value digest, its level and an optional
 * pointer to a page below it; the page a node points to is a copy (a boxed
 * clone in the source), so it is a value here. The order on keys is the
 * key type's `Ord`, a total preorder `le` fixed when the page is made.
 */
module Pages {
  import opened Wrappers
  import opened ByteStrings
  import opened Sequences

  /** A page as a value, as a node's pointer holds it. */
  datatype PageValue<K> = PageValue(nodes: seq<Node<K>>, level: nat)

  datatype Node<K> = Node(key: K, valueHash: Bytes, level: nat, ltPointer: Option<PageValue<K>>)

  const MAX_NODES: nat := 5

  function Keys<K>(nodes: seq<Node<K>>): (ks: seq<K>)
    ensures |ks| == |nodes|
    ensures forall i :: 0 <= i < |nodes| ==> ks[i] == nodes[i].key
  {
    seq(|nodes|, i requires 0 <= i < |nodes| => nodes[i].key)
  }

  /** `a.key().cmp(&b.key())`: nodes compared by key. */
  function NodeOrder<K>(le: (K, K) -> bool): (Node<K>, Node<K>) -> bool
  {
    (a: Node<K>, b: Node<K>) => le(a.key, b.key)
  }

  lemma NodeOrderPreorder<K(!new)>(le: (K, K) -> bool)
    requires TotalPreorder(le)
    ensures TotalPreorder(NodeOrder(le))
  {
    var order := NodeOrder(le);
    forall a, b ensures order(a, b) || order(b, a) {
      assert order(a, b) == le(a.key, b.key) && order(b, a) == le(b.key, a.key);
    }
    forall a, b, c | order(a, b) && order(b, c) ensures order(a, c) {
      assert le(a.key, b.key) && le(b.key, c.key);
    }
  }

  /**
   * `balance`: a page of more than MAX_NODES nodes keeps its first half. The
   * last node of that half is taken out and comes back at the end, one
   * level up, pointing to a page of the second half. The node before it
   * points to a copy of the first half as it was after the removal.
   */
  function Balanced<K>(nodes: seq<Node<K>>, level: nat): (r: seq<Node<K>>)
  {
    if |nodes| <= MAX_NODES then nodes
    else
      var mid := |nodes| / 2;
      var left := nodes[..mid - 1];
      var midNode := nodes[mid - 1];
      var promoted := Node(midNode.key, midNode.valueHash, midNode.level + 1, Some(PageValue(nodes[mid..], level)));
      var last := left[|left| - 1];
      left[..|left| - 1] + [last.(ltPointer := Some(PageValue(left, level)))] + [promoted]
  }

  /**
   * After a split the page holds the first half of the keys, in order, and
   * its last node points to the page of the rest: no key is lost.
   */
  lemma BalancedKeys<K>(nodes: seq<Node<K>>, level: nat)
    ensures var r := Balanced(nodes, level);
      && (|nodes| <= MAX_NODES ==> r == nodes)
      && (|nodes| > MAX_NODES ==>
            && |r| == |nodes| / 2
            && Keys(r) == Keys(nodes)[..|nodes| / 2]
            && r[|r| - 1].ltPointer.Some?
            && Keys(r) + Keys(r[|r| - 1].ltPointer.value.nodes) == Keys(nodes))
  {
    if |nodes| > MAX_NODES {
      var r := Balanced(nodes, level);
      var mid := |nodes| / 2;
      assert Keys(r) == Keys(nodes)[..mid];
      assert Keys(nodes)[..mid] + Keys(nodes[mid..]) == Keys(nodes);
    }
  }

  /** Balancing keeps a sorted page sorted. */
  lemma BalancedSorted<K>(nodes: seq<Node<K>>, level: nat, le: (K, K) -> bool)
    requires Sorted(nodes, NodeOrder(le))
    ensures Sorted(Balanced(nodes, level), NodeOrder(le))
  {
    BalancedKeys(nodes, level);
    var r := Balanced(nodes, level);
    forall i, j | 0 <= i < j < |r| ensures NodeOrder(le)(r[i], r[j]) {
      assert Keys(r)[i] == Keys(nodes)[i] && Keys(r)[j] == Keys(nodes)[j];
      assert NodeOrder(le)(nodes[i], nodes[j]);
    }
  }

  /**
   * An inserted key is kept: after the sort and the split it is in the page
   * or in the page its last node points to, and in the page itself when no
   * split was needed.
   */
  lemma InsertedKeyKept<K>(nodes: seq<Node<K>>, key: K, valueHash: Bytes, level: nat, le: (K, K) -> bool)
    ensures var r := Balanced(SortBy(nodes + [Node(key, valueHash, level + 1, None)], NodeOrder(le)), level);
      && (|nodes| < MAX_NODES ==> key in Keys(r))
      && (|| key in Keys(r)
          || (r != [] && r[|r| - 1].ltPointer.Some? && key in Keys(r[|r| - 1].ltPointer.value.nodes)))
  {
    var added := Node(key, valueHash, level + 1, None);
    var sorted := SortBy(nodes + [added], NodeOrder(le));
    assert added in multiset(nodes + [added]);
    assert added in sorted;
    var i :| 0 <= i < |sorted| && sorted[i] == added;
    assert key in Keys(sorted) by { assert Keys(sorted)[i] == key; }
    BalancedKeys(sorted, level);
  }

  /** Removing one node keeps a sorted page sorted. */
  lemma RemoveSorted<K>(nodes: seq<Node<K>>, i: nat, le: (K, K) -> bool)
    requires i < |nodes| && Sorted(nodes, NodeOrder(le))
    ensures Sorted(nodes[..i] + nodes[i + 1..], NodeOrder(le))
  {
    var r := nodes[..i] + nodes[i + 1..];
    forall a, b | 0 <= a < b < |r| ensures NodeOrder(le)(r[a], r[b]) {
      var a', b' := if a < i then a else a + 1, if b < i then b else b + 1;
      assert r[a] == nodes[a'] && r[b] == nodes[b'];
    }
  }

  class Page<K(==,!new)> {
    var nodes: seq<Node<K>>
    const level: nat
    const le: (K, K) -> bool

    /** A page as insert and delete leave it: sorted by key, at most MAX_NODES nodes. */
    ghost predicate Valid()
      reads this
    {
      TotalPreorder(le) && Sorted(nodes, NodeOrder(le)) && |nodes| <= MAX_NODES
    }

    /** `new`: an empty page at the given level. */
    constructor (level: nat, le: (K, K) -> bool)
      requires TotalPreorder(le)
      ensures nodes == [] && this.level == level && this.le == le
      ensures Valid()
    {
      nodes := [];
      this.level := level;
      this.le := le;
    }

    /** `balance`, in place. */
    method Balance()
      modifies this
      ensures nodes == Balanced(old(nodes), level)
    {
      if |nodes| > MAX_NODES {
        var mid := |nodes| / 2;
        ghost var start := nodes;
        var rightNodes := nodes[mid..];
        nodes := nodes[..mid];
        var rightPage := PageValue(rightNodes, level);
        var midNode := nodes[|nodes| - 1];
        nodes := nodes[..|nodes| - 1];
        assert nodes == start[..mid - 1];
        var newNode := Node(midNode.key, midNode.valueHash, midNode.level + 1, Some(rightPage));
        var leftPage := PageValue(nodes, level);
        // A page of more than MAX_NODES nodes keeps at least two after the split.
        assert |nodes| >= 2;
        var last := nodes[|nodes| - 1];
        nodes := nodes[..|nodes| - 1] + [last.(ltPointer := Some(leftPage))];
        nodes := nodes + [newNode];
      }
    }

    /**
     * `insert`: a node for the key, one level above the page's own, is
     * added and the page stably sorted by key, then balanced; the page stays
     * sorted and within MAX_NODES nodes.
     */
    method Insert(key: K, valueHash: Bytes)
      requires Valid()
      modifies this
      ensures nodes == Balanced(SortBy(old(nodes) + [Node(key, valueHash, level + 1, None)], NodeOrder(le)), level)
      ensures Valid()
    {
      var newNode := Node(key, valueHash, level + 1, None);
      nodes := nodes + [newNode];
      NodeOrderPreorder(le);
      SortBySorted(nodes, NodeOrder(le));
      nodes := SortBy(nodes, NodeOrder(le));
      ghost var sorted := nodes;
      Balance();
      BalancedSorted(sorted, level, le);
      BalancedKeys(sorted, level);
    }

    /** `find`: the first node whose key equals `key`. */
    function Find(key: K): (r: Option<Node<K>>)
      reads this
      ensures r.Some? ==> exists i :: 0 <= i < |nodes| && r.value == nodes[i] && key !in Keys(nodes[..i])
      ensures r.Some? ==> r.value.key == key
      ensures r.None? <==> key !in Keys(nodes)
    {
      match IndexOf(Keys(nodes), key)
      case Some(i) =>
        assert Keys(nodes[..i]) == Keys(nodes)[..i];
        Some(nodes[i])
      case None => None
    }

    /**
     * `delete`: the first node with the key removed, then the page balanced;
     * true exactly when there was one.
     */
    method Delete(key: K) returns (found: bool)
      requires Valid()
      modifies this
      ensures found <==> key in Keys(old(nodes))
      ensures !found ==> nodes == old(nodes)
      ensures found ==> var i := IndexOf(Keys(old(nodes)), key).value;
                nodes == old(nodes)[..i] + old(nodes)[i + 1..]
      ensures Valid()
    {
      match IndexOf(Keys(nodes), key)
      case Some(pos) =>
        var removed := nodes[..pos] + nodes[pos + 1..];
        RemoveSorted(nodes, pos, le);
        nodes := removed;
        Balance();
        found := true;
      case None =>
        found := false;
    }
  }
}

=== FILE: prolly_ui.dfy ===
/**
 * The text handling of the repository browser in src/bin/prolly-ui.rs:
 * escaping for HTML and for JavaScript string literals, dataset names made
 * safe for identifiers, the diff between two commits, and the reading of the
 * change list that `git-prolly show` prints.
 *
 * Which characters are alphanumeric is Unicode's classification, a
 * parameter `isAlphanumeric` of the model; the key/value states at two
 * references are parameters of `GetDiffBetweenCommits`.
 */
module ProllyUi {
  import opened Wrappers
  import opened ByteStrings
  import opened Sequences
  import opened GitTypes
  import opened VersionedStore

  /** The entity `escape_html` writes for a character; any other character stands for itself. */
  function HtmlEscapeChar(c: char): string
  {
    match c
    case '<' => "&lt;"
    case '>' => "&gt;"
    case '&' => "&amp;"
    case '"' => "&quot;"
    case '\'' => "&#39;"
    case _ => [c]
  }

  /** The characters that may not appear raw in escaped HTML text. */
  predicate HtmlSpecial(c: char)
  {
    c == '<' || c == '>' || c == '"' || c == '\''
  }

  /** `s` begins with one of the five entities `escape_html` writes. */
  predicate StartsEntity(s: string)
  {
    "&lt;" <= s || "&gt;" <= s || "&amp;" <= s || "&quot;" <= s || "&#39;" <= s
  }

  /**
   * `escape_html`: each character replaced by its escape, in order. No
   * special character remains raw, and every `&` left begins an entity.
   */
  function EscapeHtml(text: string): (r: string)
    ensures |r| >= |text|
    ensures forall i :: 0 <= i < |r| ==> !HtmlSpecial(r[i])
    ensures forall i :: 0 <= i < |r| && r[i] == '&' ==> StartsEntity(r[i..])
  {
    if text == [] then []
    else
      var head, tail := HtmlEscapeChar(text[0]), EscapeHtml(text[1..]);
      EscapedCharEntities(text[0], tail);
      assert forall j :: 0 <= j < |tail| ==> (head + tail)[|head| + j..] == tail[j..];
      head + tail
  }

  /** One escaped character holds no special character, and an `&` in it only where its entity begins. */
  lemma EscapedCharEntities(c: char, rest: string)
    ensures forall i :: 0 <= i < |HtmlEscapeChar(c)| ==> !HtmlSpecial(HtmlEscapeChar(c)[i])
    ensures forall i :: 0 <= i < |HtmlEscapeChar(c)| && HtmlEscapeChar(c)[i] == '&' ==>
              i == 0 && StartsEntity(HtmlEscapeChar(c) + rest)
  {
  }

  /** What an HTML reader makes of escaped text: each of the five entities back to its character. */
  function UnescapeHtml(s: string): string
    decreases |s|
  {
    if s == [] then []
    else if "&lt;" <= s then "<" + UnescapeHtml(s[4..])
    else if "&gt;" <= s then ">" + UnescapeHtml(s[4..])
    else if "&amp;" <= s then "&" + UnescapeHtml(s[5..])
    else if "&quot;" <= s then "\"" + UnescapeHtml(s[6..])
    else if "&#39;" <= s then "'" + UnescapeHtml(s[5..])
    else [s[0]] + UnescapeHtml(s[1..])
  }

  lemma UnescapeHtmlChar(c: char, rest: string)
    ensures UnescapeHtml(HtmlEscapeChar(c) + rest) == [c] + UnescapeHtml(rest)
  {
    match c
    case '<' => UnescapeEntity("&lt;", '<', rest);
    case '>' => UnescapeEntity("&gt;", '>', rest);
    case '&' => UnescapeEntity("&amp;", '&', rest);
    case '"' => UnescapeEntity("&quot;", '"', rest);
    case '\'' => UnescapeEntity("&#39;", '\'', rest);
    case _ =>
      var s := [c] + rest;
      assert s[0] == c && s[1..] == rest;
  }

  /** One entity at the front reads back as its character. */
  lemma UnescapeEntity(entity: string, c: char, rest: string)
    requires (entity, c) in {("&lt;", '<'), ("&gt;", '>'), ("&amp;", '&'), ("&quot;", '"'), ("&#39;", '\'')}
    ensures UnescapeHtml(entity + rest) == [c] + UnescapeHtml(rest)
  {
    var s := entity + rest;
    assert s[..|entity|] == entity && s[|entity|..] == rest;
    assert s[1] == entity[1];
  }

  /** Escaped text reads back as the original text: escaping loses nothing. */
  lemma {:induction false} UnescapeEscapeHtml(text: string)
    ensures UnescapeHtml(EscapeHtml(text)) == text
  {
    if text != [] {
      UnescapeHtmlChar(text[0], EscapeHtml(text[1..]));
      UnescapeEscapeHtml(text[1..]);
      assert text == [text[0]] + text[1..];
    }
  }

  /** The escape `escape_js_string` writes for a character; any other character stands for itself. */
  function JsEscapeChar(c: char): string
  {
    match c
    case '"' => "\\\""
    case '\\' => "\\\\"
    case '\n' => "\\n"
    case '\r' => "\\r"
    case '\t' => "\\t"
    case _ => [c]
  }

  /** The line breaks and tab, which may not appear raw in a JavaScript string literal. */
  predicate JsSpecial(c: char)
  {
    c == '\n' || c == '\r' || c == '\t'
  }

  /** `escape_js_string`: each character replaced by its escape, in order. */
  function EscapeJs(text: string): (r: string)
    ensures |r| >= |text|
    ensures forall i :: 0 <= i < |r| ==> !JsSpecial(r[i])
  {
    if text == [] then []
    else
      var head, tail := JsEscapeChar(text[0]), EscapeJs(text[1..]);
      assert forall i :: 0 <= i < |head| ==> !JsSpecial(head[i]);
      head + tail
  }

  /** What a JavaScript reader makes of a string literal's body: each backslash escape back to its character. */
  function UnescapeJs(s: string): string
    decreases |s|
  {
    if s == [] then []
    else if s[0] == '\\' && |s| >= 2 then
      [match s[1] case 'n' => '\n' case 'r' => '\r' case 't' => '\t' case c => c] + UnescapeJs(s[2..])
    else [s[0]] + UnescapeJs(s[1..])
  }

  lemma UnescapeJsChar(c: char, rest: string)
    ensures UnescapeJs(JsEscapeChar(c) + rest) == [c] + UnescapeJs(rest)
  {
    var s := JsEscapeChar(c) + rest;
    if c == '"' || c == '\\' || c == '\n' || c == '\r' || c == '\t' {
      assert s[2..] == rest;
    } else {
      assert s[0] == c && s[1..] == rest;
    }
  }

  /** An escaped string literal reads back as the original text. */
  lemma {:induction false} UnescapeEscapeJs(text: string)
    ensures UnescapeJs(EscapeJs(text)) == text
  {
    if text != [] {
      UnescapeJsChar(text[0], EscapeJs(text[1..]));
      UnescapeEscapeJs(text[1..]);
      assert text == [text[0]] + text[1..];
    }
  }

  /** A character `sanitize_name` keeps: alphanumeric, `-` or `_`. */
  predicate NameChar(c: char, isAlphanumeric: char -> bool)
  {
    isAlphanumeric(c) || c == '-' || c == '_'
  }

  /** `sanitize_name`: every character it does not keep becomes `_`. */
  function SanitizeName(name: string, isAlphanumeric: char -> bool): (r: string)
    ensures |r| == |name|
    ensures forall i :: 0 <= i < |r| ==> NameChar(r[i], isAlphanumeric)
    ensures forall i :: 0 <= i < |r| && NameChar(name[i], isAlphanumeric) ==> r[i] == name[i]
    ensures forall i :: 0 <= i < |r| && !NameChar(name[i], isAlphanumeric) ==> r[i] == '_'
  {
    seq(|name|, i requires 0 <= i < |name| => if NameChar(name[i], isAlphanumeric) then name[i] else '_')
  }

  /** A sanitised name is left alone by a second sanitising. */
  lemma SanitizeIdempotent(name: string, isAlphanumeric: char -> bool)
    ensures SanitizeName(SanitizeName(name, isAlphanumeric), isAlphanumeric) == SanitizeName(name, isAlphanumeric)
  {
  }

  /** A name made only of kept characters is its own sanitised form. */
  lemma SanitizeKeepsValidNames(name: string, isAlphanumeric: char -> bool)
    requires forall i :: 0 <= i < |name| ==> NameChar(name[i], isAlphanumeric)
    ensures SanitizeName(name, isAlphanumeric) == name
  {
  }

  /**
   * `get_diff_between_commits`: the states at the two references, read in
   * that order (the first failure is returned), then the same two passes
   * and sort by key as the store's `diff`.
   */
  method GetDiffBetweenCommits(fromState: Result<Snapshot, GitKvError>, toState: Result<Snapshot, GitKvError>)
    returns (r: Result<seq<KvDiff>, GitKvError>)
    ensures fromState.Err? ==> r == Err(fromState.error)
    ensures fromState.Ok? && toState.Err? ==> r == Err(toState.error)
    ensures fromState.Ok? && toState.Ok? ==> r.Ok? && IsSortedDiff(fromState.value, toState.value, r.value)
  {
    if fromState.Err? {
      return Err(fromState.error);
    }
    if toState.Err? {
      return Err(toState.error);
    }
    var diffs := Diff(fromState.value, toState.value);
    return Ok(diffs);
  }

  const ESC: char := 27 as char
  const CHANGES_HEADER: string := "Key-Value Changes:"
  const ADDED_TAG: string := "[32m+ "
  const REMOVED_TAG: string := "[31m- "
  const MODIFIED_TAG: string := "[33m~ "
  const RESET: string := "[0m"

  /** Unicode's White_Space property, which `str::trim` strips. */
  predicate IsWhitespace(c: char)
  {
    || 9 <= c as int <= 13 || c as int == 0x20 || c as int == 0x85 || c as int == 0xA0
    || c as int == 0x1680 || 0x2000 <= c as int <= 0x200A || c as int == 0x2028 || c as int == 0x2029
    || c as int == 0x202F || c as int == 0x205F || c as int == 0x3000
  }

  function TrimLine(line: string): string
  {
    Trim(line, IsWhitespace)
  }

  predicate IsQuote(c: char)
  {
    c == '"'
  }

  /** A value as the parser keeps it: cut at the first escape character, surrounding `"` removed. */
  function CleanValue(v: string): (r: string)
    ensures ESC !in r
    ensures r != [] ==> r[0] != '"' && r[|r| - 1] != '"'
  {
    var cut := match IndexOf(v, ESC) case Some(i) => v[..i] case None => v;
    Trim(cut, IsQuote)
  }

  /**
   * As written: the slice bounds `start + 6 .. end` of the text after `tag`,
   * with `end` the first reset code anywhere in the line.
   */
  function TaggedBoundsAsWritten(line: string, tag: string): (r: Option<(nat, nat)>)
    ensures r.Some? ==> Find(line, tag).Some? && r.value.0 == Find(line, tag).value + |tag|
  {
    match Find(line, tag)
    case None => None
    case Some(start) =>
      match Find(line, RESET)
      case None => None
      case Some(end) => Some((start + |tag|, end))
  }

  /** A line with a reset code before the tag gives slice bounds in the wrong order, on which the slice panics. */
  lemma ResetBeforeTagAsWritten()
    ensures var b := TaggedBoundsAsWritten(RESET + ADDED_TAG + "k = v", ADDED_TAG);
      b.Some? && b.value.0 > b.value.1
  {
    var line := RESET + ADDED_TAG + "k = v";
    assert RESET <= line;
    assert line[3..3 + |ADDED_TAG|] == ADDED_TAG;
    assert line[1] != ADDED_TAG[1] && line[1] != '[' && line[2] != '[';
    FindAt(line, ADDED_TAG, 3);
  }

  /** The text between `tag` and the first reset code after it, when the line has both. */
  function Tagged(line: string, tag: string): Option<string>
  {
    match Find(line, tag)
    case None => None
    case Some(start) =>
      var after := line[start + |tag|..];
      match Find(after, RESET)
      case None => None
      case Some(len) => Some(after[..len])
  }

  /** What `Tagged` finds sits in the line between the tag and a reset code. */
  lemma TaggedOccurs(line: string, tag: string)
    ensures Tagged(line, tag).Some? ==> exists start :: OccursAt(line, tag + Tagged(line, tag).value + RESET, start)
  {
    if Tagged(line, tag).Some? {
      var start := Find(line, tag).value;
      var after := line[start + |tag|..];
      var len := Find(after, RESET).value;
      var content := after[..len];
      assert OccursAt(after, content, 0);
      OccursAtShift(line, content, start + |tag|, 0);
      OccursAtShift(line, RESET, start + |tag|, len);
      OccursAtConcat(line, tag, content, start);
      OccursAtConcat(line, tag + content, RESET, start);
    }
  }

  /** When the first reset code follows the tag, the text is the slice the source takes. */
  lemma TaggedAgreesWhenOrdered(line: string, tag: string)
    requires TaggedBoundsAsWritten(line, tag).Some?
    requires TaggedBoundsAsWritten(line, tag).value.0 <= TaggedBoundsAsWritten(line, tag).value.1
    ensures var b := TaggedBoundsAsWritten(line, tag).value;
      Tagged(line, tag) == Some(line[b.0..b.1])
  {
    var b := TaggedBoundsAsWritten(line, tag).value;
    var after := line[b.0..];
    var end := b.1;
    OccursAtShift(line, RESET, b.0, end - b.0);
    forall j | 0 <= j < end - b.0 ensures !OccursAt(after, RESET, j) {
      OccursAtShift(line, RESET, b.0, j);
    }
    FindAt(after, RESET, end - b.0);
    assert after[..end - b.0] == line[b.0..end];
  }

  /** The key and value of an added or removed entry: `{key} = {value}` between the tag and the reset code. */
  function KeyValue(line: string, tag: string): Option<(string, string)>
  {
    match Tagged(line, tag)
    case None => None
    case Some(content) =>
      match Find(content, " = ")
      case None => None
      case Some(eq) => Some((content[..eq], CleanValue(content[eq + 3..])))
  }

  /** The key, old and new value of a modified entry: `{key} = {old} -> {new}`. */
  function KeyChange(line: string): Option<(string, string, string)>
  {
    match Tagged(line, MODIFIED_TAG)
    case None => None
    case Some(content) =>
      match Find(content, " = ")
      case None => None
      case Some(eq) =>
        var change := content[eq + 3..];
        match Find(change, " -> ")
        case None => None
        case Some(arrow) => Some((content[..eq], CleanValue(change[..arrow]), CleanValue(change[arrow + 4..])))
  }

  predicate Has(line: string, p: string)
  {
    Find(line, p).Some?
  }

  /**
   * One trimmed line of the change section: an added, a removed or a modified
   * entry, tried in that order, the first whose markers the line contains
   * deciding; the key and values are kept as UTF-8 bytes.
   */
  function ParseChangeLine(line: string): (r: Option<KvDiff>)
    ensures r.Some? && r.value.operation.Added? ==> Has(line, ADDED_TAG)
    ensures r.Some? && r.value.operation.Removed? ==> Has(line, REMOVED_TAG) && !Has(line, ADDED_TAG)
    ensures r.Some? && r.value.operation.Modified? ==> Has(line, MODIFIED_TAG) && !Has(line, ADDED_TAG) && !Has(line, REMOVED_TAG)
    ensures !Has(line, " = ") ==> r.None?
  {
    if Has(line, ADDED_TAG) && Has(line, " = ") then
      match KeyValue(line, ADDED_TAG)
      case None => None
      case Some(kv) => Some(KvDiff(Utf8(kv.0), Added(Utf8(kv.1))))
    else if Has(line, REMOVED_TAG) && Has(line, " = ") then
      match KeyValue(line, REMOVED_TAG)
      case None => None
      case Some(kv) => Some(KvDiff(Utf8(kv.0), Removed(Utf8(kv.1))))
    else if Has(line, MODIFIED_TAG) && Has(line, " = ") && Has(line, " -> ") then
      match KeyChange(line)
      case None => None
      case Some(kc) => Some(KvDiff(Utf8(kc.0), Modified(Utf8(kc.1), Utf8(kc.2))))
    else None
  }

  /** The text `git-prolly show` prints for an added key between the tag and the reset code. */
  function AddedEntry(key: string, value: string): string
  {
    key + " = \"" + value + "\"" + [ESC]
  }

  /** The line `git-prolly show` prints for an added key, as the parser sees it once trimmed. */
  function AddedLine(key: string, value: string): string
  {
    [ESC] + ADDED_TAG + AddedEntry(key, value) + RESET
  }

  /** A value printed between quotes and followed by an escape character is kept as it was. */
  lemma QuotedValueCleaned(value: string)
    requires ESC !in value
    requires value != [] ==> value[0] != '"' && value[|value| - 1] != '"'
    ensures CleanValue("\"" + value + "\"" + [ESC]) == value
  {
    var quoted := "\"" + value + "\"";
    IndexOfJoin(quoted, ESC, []);
    assert quoted + [ESC] == quoted + [ESC] + [];
    assert (quoted + [ESC])[..|quoted|] == quoted;
    assert quoted[1..] == value + "\"";
    var start := TrimStart(quoted, IsQuote);
    if value == [] {
      assert TrimStart(quoted[1..], IsQuote) == [];
    } else {
      assert TrimStart(value + "\"", IsQuote) == value + "\"";
      assert start == value + "\"";
      assert start[..|start| - 1] == value;
    }
  }

  /** The text between a tag and a reset code, when nothing before the tag starts like it and the text has no `[`. */
  lemma TaggedOf(pre: string, tag: string, rest: string)
    requires tag != [] && tag[0] !in pre && '[' !in rest
    ensures Tagged(pre + tag + rest + RESET, tag) == Some(rest)
  {
    var line := pre + tag + rest + RESET;
    assert line == pre + tag + (rest + RESET);
    FindAfter(pre, tag, rest + RESET);
    assert line[|pre| + |tag|..] == rest + RESET + [];
    FindAfter(rest, RESET, []);
  }

  /** A line that contains `p` somewhere has it. */
  lemma HasWithin(a: string, p: string, b: string)
    ensures Has(a + p + b, p)
  {
    assert (a + p + b)[|a|..|a| + |p|] == p;
    assert OccursAt(a + p + b, p, |a|);
  }

  /** The printed line holds its tag and ` = `. */
  lemma AddedLineHas(key: string, value: string)
    ensures Has(AddedLine(key, value), ADDED_TAG) && Has(AddedLine(key, value), " = ")
  {
    var line := AddedLine(key, value);
    assert line[1..1 + |ADDED_TAG|] == ADDED_TAG;
    assert OccursAt(line, ADDED_TAG, 1);
    var q := 1 + |ADDED_TAG| + |key|;
    assert line[q..q + 3] == " = ";
    assert OccursAt(line, " = ", q);
  }

  /** The text after the tag, up to the final reset code, is the printed entry. */
  lemma AddedLineTagged(key: string, value: string)
    requires '[' !in key && '[' !in value
    ensures Tagged(AddedLine(key, value), ADDED_TAG) == Some(AddedEntry(key, value))
  {
    assert '[' !in AddedEntry(key, value);
    TaggedOf([ESC], ADDED_TAG, AddedEntry(key, value));
  }

  /**
   * An added entry printed by `git-prolly show` reads back as that entry when
   * the key has no space and neither key nor value contains `[` or the escape
   * character, and the value does not start or end with `"`.
   */
  lemma AddedLineParses(key: string, value: string)
    requires ' ' !in key && '[' !in key
    requires '[' !in value && ESC !in value
    requires value != [] ==> value[0] != '"' && value[|value| - 1] != '"'
    ensures ParseChangeLine(AddedLine(key, value)) == Some(KvDiff(Utf8(key), Added(Utf8(value))))
  {
    AddedLineHas(key, value);
    AddedLineTagged(key, value);
    SplitKeyValue(key, value);
    assert KeyValue(AddedLine(key, value), ADDED_TAG) == Some((key, value));
  }

  /** In `key = "value"` followed by an escape character, the first ` = ` ends the key and the value is recovered. */
  lemma SplitKeyValue(key: string, value: string)
    requires ' ' !in key && ESC !in value
    requires value != [] ==> value[0] != '"' && value[|value| - 1] != '"'
    ensures var content := AddedEntry(key, value);
      Find(content, " = ") == Some(|key|) && content[..|key|] == key && CleanValue(content[|key| + 3..]) == value
  {
    var tail := "\"" + value + "\"" + [ESC];
    var content := key + " = " + tail;
    assert content == AddedEntry(key, value);
    FindAfter(key, " = ", tail);
    assert content[|key| + 3..] == tail;
    QuotedValueCleaned(value);
  }

  /** The parser's state between lines: whether the change section has begun, and the entries read so far. */
  datatype ShowScan = ShowScan(inChanges: bool, diffs: seq<KvDiff>)

  const START: ShowScan := ShowScan(false, [])

  /** One line: the header opens the change section; before it lines are skipped; after it each entry line adds its diff. */
  function Step(st: ShowScan, rawLine: string): ShowScan
  {
    var line := TrimLine(rawLine);
    if line == CHANGES_HEADER then st.(inChanges := true)
    else if !st.inChanges then st
    else match ParseChangeLine(line)
      case Some(d) => st.(diffs := st.diffs + [d])
      case None => st
  }

  /** The lines in turn, from state `st`. */
  function Run(st: ShowScan, lines: seq<string>): ShowScan
  {
    if lines == [] then st else Step(Run(st, lines[..|lines| - 1]), lines[|lines| - 1])
  }

  /** One more line is one more step. */
  lemma RunSnoc(st: ShowScan, lines: seq<string>, i: nat)
    requires i < |lines|
    ensures Run(st, lines[..i + 1]) == Step(Run(st, lines[..i]), lines[i])
  {
    assert lines[..i + 1][..i] == lines[..i];
  }

  lemma {:induction false} RunAppend(st: ShowScan, a: seq<string>, b: seq<string>)
    ensures Run(st, a + b) == Run(Run(st, a), b)
    decreases |b|
  {
    if b == [] {
      assert a + b == a;
    } else {
      assert (a + b)[..|a + b| - 1] == a + b[..|b| - 1];
      RunAppend(st, a, b[..|b| - 1]);
    }
  }

  /** Lines without the header leave the starting state as it is. */
  lemma {:induction false} PreambleSkipped(pre: seq<string>)
    requires forall i :: 0 <= i < |pre| ==> TrimLine(pre[i]) != CHANGES_HEADER
    ensures Run(START, pre) == START
  {
    if pre != [] {
      PreambleSkipped(pre[..|pre| - 1]);
    }
  }

  /** Whatever precedes the header has no effect on the entries read. */
  lemma PreambleIgnored(pre: seq<string>, rest: seq<string>)
    requires forall i :: 0 <= i < |pre| ==> TrimLine(pre[i]) != CHANGES_HEADER
    ensures Run(START, pre + rest) == Run(START, rest)
  {
    RunAppend(START, pre, rest);
    PreambleSkipped(pre);
  }

  /** The body of the line loop of `parse_prolly_show_output`: one line read, as `Step` reads it. */
  method ReadShowLine(inChanges: bool, diffs: seq<KvDiff>, rawLine: string) returns (inChanges': bool, diffs': seq<KvDiff>)
    ensures ShowScan(inChanges', diffs') == Step(ShowScan(inChanges, diffs), rawLine)
  {
    inChanges', diffs' := inChanges, diffs;
    var line := TrimLine(rawLine);
    if line == CHANGES_HEADER {
      inChanges' := true;
      return;
    }
    if !inChanges {
      return;
    }
    var parsed := ParseChangeLine(line);
    if parsed.Some? {
      diffs' := diffs + [parsed.value];
    }
  }

  /** `parse_prolly_show_output`: the lines of the output in turn, with the `in_changes_section` flag. */
  method ParseShowOutput(output: string) returns (diffs: seq<KvDiff>)
    ensures diffs == Run(START, Lines(output, '\n', '\r')).diffs
  {
    var lines := Lines(output, '\n', '\r');
    diffs := [];
    var inChanges := false;
    for i := 0 to |lines|
      invariant ShowScan(inChanges, diffs) == Run(START, lines[..i])
    {
      RunSnoc(START, lines, i);
      inChanges, diffs := ReadShowLine(inChanges, diffs, lines[i]);
    }
    TakeAll(lines);
  }
}

=== FILE: rolling_hash.dfy ===
/**
 * The rolling hash of src/rolling_hash.rs.
 *
 * The first window's hash is a polynomial hash, modulo MOD, of the 64-bit
 * XxHash of each key and each value in the window. Each later window is
 * derived from the one before by subtracting the outgoing key's and value's
 * bytes times BASE^window, multiplying by BASE and adding the incoming
 * key's and value's bytes. XxHash is a parameter `xx` of the model.
 */
module RollingHash {
  import opened ByteStrings

  const BASE: nat := 257
  const MOD: nat := 1_000_000_007
  const U64_MODULUS: nat := 0x1_0000_0000_0000_0000

  type u64 = x: int | 0 <= x < U64_MODULUS

  function Pow(b: nat, e: nat): nat
  {
    if e == 0 then 1 else b * Pow(b, e - 1)
  }

  /**
   * `polynomial_hash`: for each item in turn, `hash = (hash * base + xx(item)) % MOD`,
   * where the sum is a u64 and so wraps at 2^64.
   */
  function PolyHash(data: seq<Bytes>, xx: Bytes -> u64): (h: nat)
    ensures h < MOD
  {
    if data == [] then 0
    else ((PolyHash(data[..|data| - 1], xx) * BASE + xx(data[|data| - 1])) % U64_MODULUS) % MOD
  }

  /** The loop of `polynomial_hash`. */
  method PolynomialHash(data: seq<Bytes>, xx: Bytes -> u64) returns (hash: u64)
    ensures hash == PolyHash(data, xx)
  {
    hash := 0;
    var i := 0;
    while i < |data|
      invariant 0 <= i <= |data|
      invariant hash == PolyHash(data[..i], xx)
    {
      assert data[..i + 1][..i] == data[..i];
      hash := ((hash * BASE + xx(data[i])) % U64_MODULUS) % MOD;
      i := i + 1;
    }
    assert data[..i] == data;
  }

  /** `calculate_initial_hash`: the sum, modulo MOD, of the first window's key and value hashes. */
  function InitialHash(keys: seq<Bytes>, values: seq<Bytes>, windowSize: nat, xx: Bytes -> u64): (h: nat)
    requires windowSize <= |keys| && windowSize <= |values|
    ensures h < MOD
  {
    (PolyHash(keys[..windowSize], xx) + PolyHash(values[..windowSize], xx)) % MOD
  }

  method CalculateInitialHash(keys: seq<Bytes>, values: seq<Bytes>, windowSize: nat, xx: Bytes -> u64) returns (h: u64)
    requires windowSize <= |keys| && windowSize <= |values|
    ensures h == InitialHash(keys, values, windowSize, xx)
  {
    var keysHash := PolynomialHash(keys[..windowSize], xx);
    var valuesHash := PolynomialHash(values[..windowSize], xx);
    h := (keysHash + valuesHash) % MOD;
  }

  /** Each byte of `bs` in turn times `basePower` taken away from `h`, modulo MOD. */
  function SubBytes(h: nat, bs: Bytes, basePower: nat): (r: nat)
    requires h < MOD
    ensures r < MOD
  {
    if bs == [] then h
    else (SubBytes(h, bs[..|bs| - 1], basePower) + MOD - bs[|bs| - 1] * basePower % MOD) % MOD
  }

  /** Each byte of `bs` in turn added to `h`, modulo MOD. */
  function AddBytes(h: nat, bs: Bytes): (r: nat)
    requires h < MOD
    ensures r < MOD
  {
    if bs == [] then h else (AddBytes(h, bs[..|bs| - 1]) + bs[|bs| - 1]) % MOD
  }

  /** The next window's hash: the outgoing entry's bytes removed, a shift by BASE, the incoming entry's bytes added. */
  function Roll(h: nat, outKey: Bytes, outValue: Bytes, inKey: Bytes, inValue: Bytes, basePower: nat): (r: nat)
    requires h < MOD
    ensures r < MOD
  {
    AddBytes(AddBytes(SubBytes(SubBytes(h, outKey, basePower), outValue, basePower) * BASE % MOD, inKey), inValue)
  }

  /** The `fold` that computes BASE^windowSize modulo MOD step by step. */
  method BasePower(windowSize: nat) returns (acc: u64)
    ensures acc == Pow(BASE, windowSize) % MOD
  {
    acc := 1;
    var i := 0;
    while i < windowSize
      invariant 0 <= i <= windowSize
      invariant acc == Pow(BASE, i) % MOD
    {
      PowStep(i);
      acc := (acc * BASE) % MOD;
      i := i + 1;
    }
  }

  /** Reducing `a` modulo MOD before the multiplication by BASE does not change the product modulo MOD. */
  lemma MulBaseMod(a: nat)
    ensures (a % MOD * BASE) % MOD == (a * BASE) % MOD
  {
    var q := a / MOD;
    var r := a % MOD;
    assert a == q * MOD + r;
    assert a * BASE == (q * BASE) * MOD + r * BASE;
  }

  lemma PowStep(i: nat)
    ensures (Pow(BASE, i) % MOD * BASE) % MOD == Pow(BASE, i + 1) % MOD
  {
    var p := Pow(BASE, i);
    MulBaseMod(p);
    assert Pow(BASE, i + 1) == BASE * p;
    assert BASE * p == p * BASE;
  }

  /** Subtracting the bytes of `bs` one by one, as the loop over the outgoing entry does. */
  method SubtractBytes(h: u64, bs: Bytes, basePower: u64) returns (r: u64)
    requires h < MOD && basePower < MOD
    ensures r == SubBytes(h, bs, basePower)
  {
    r := h;
    var j := 0;
    while j < |bs|
      invariant 0 <= j <= |bs|
      invariant r == SubBytes(h, bs[..j], basePower)
    {
      assert bs[..j + 1][..j] == bs[..j];
      r := (r + MOD - bs[j] * basePower % MOD) % MOD;
      j := j + 1;
    }
    assert bs[..j] == bs;
  }

  /** Adding the bytes of `bs` one by one, as the loop over the incoming entry does. */
  method AddAllBytes(h: u64, bs: Bytes) returns (r: u64)
    requires h < MOD
    ensures r == AddBytes(h, bs)
  {
    r := h;
    var j := 0;
    while j < |bs|
      invariant 0 <= j <= |bs|
      invariant r == AddBytes(h, bs[..j])
    {
      assert bs[..j + 1][..j] == bs[..j];
      r := (r + bs[j]) % MOD;
      j := j + 1;
    }
    assert bs[..j] == bs;
  }

  /**
   * `rolling_hash`: no hashes when either list is shorter than the window;
   * otherwise one hash per window start, the first the initial hash and each
   * later one rolled from the one before. Indexing `values` at the incoming
   * position needs as many values as keys.
   */
  method RollingHashes(keys: seq<Bytes>, values: seq<Bytes>, windowSize: nat, xx: Bytes -> u64)
    returns (result: seq<u64>)
    requires |keys| < windowSize || |values| < windowSize || |keys| <= |values|
    ensures forall i :: 0 <= i < |result| ==> result[i] < MOD
    ensures |keys| < windowSize || |values| < windowSize ==> result == []
    ensures windowSize <= |keys| && windowSize <= |values| ==>
              && |result| == |keys| - windowSize + 1
              && result[0] == InitialHash(keys, values, windowSize, xx)
              && forall i :: 1 <= i < |result| ==>
                   result[i] == Roll(result[i - 1], keys[i - 1], values[i - 1],
                                     keys[i + windowSize - 1], values[i + windowSize - 1],
                                     Pow(BASE, windowSize) % MOD)
  {
    result := [];
    if |keys| < windowSize || |values| < windowSize {
      return;
    }
    var currentHash := CalculateInitialHash(keys, values, windowSize, xx);
    result := result + [currentHash];
    var basePower := BasePower(windowSize);
    var i := 1;
    while i <= |keys| - windowSize
      invariant 1 <= i <= |keys| - windowSize + 1
      invariant |result| == i && result[i - 1] == currentHash
      invariant result[0] == InitialHash(keys, values, windowSize, xx)
      invariant forall j :: 0 <= j < |result| ==> result[j] < MOD
      invariant forall j :: 1 <= j < |result| ==>
                  result[j] == Roll(result[j - 1], keys[j - 1], values[j - 1],
                                    keys[j + windowSize - 1], values[j + windowSize - 1], basePower)
    {
      currentHash := SubtractBytes(currentHash, keys[i - 1], basePower);
      currentHash := SubtractBytes(currentHash, values[i - 1], basePower);
      currentHash := (currentHash * BASE) % MOD;
      currentHash := AddAllBytes(currentHash, keys[i + windowSize - 1]);
      currentHash := AddAllBytes(currentHash, values[i + windowSize - 1]);
      result := result + [currentHash];
      i := i + 1;
    }
  }
}

=== FILE: sequences.dfy ===
/**
 * Sequence helpers shared by the model: `Vec::reverse`, and Rust's `sort_by`,
 * a stable sort under a caller-given comparison, stated on sequences: each
 * element is placed after the ones that compare less than or equal to it.
 */
module Sequences {
  import opened Wrappers

  function Reverse<T>(s: seq<T>): (r: seq<T>)
    ensures |r| == |s|
    ensures forall i :: 0 <= i < |s| ==> r[i] == s[|s| - 1 - i]
  {
    if s == [] then [] else Reverse(s[1..]) + [s[0]]
  }

  /** `le` is total and transitive, as every `Ord`-derived comparison is. */
  ghost predicate TotalPreorder<T(!new)>(le: (T, T) -> bool)
  {
    && (forall x, y :: le(x, y) || le(y, x))
    && (forall x, y, z :: le(x, y) && le(y, z) ==> le(x, z))
  }

  predicate Sorted<T>(s: seq<T>, le: (T, T) -> bool)
  {
    forall i, j :: 0 <= i < j < |s| ==> le(s[i], s[j])
  }

  /** No element occurs twice. */
  predicate Distinct<T(==)>(s: seq<T>)
  {
    forall i, j :: 0 <= i < j < |s| ==> s[i] != s[j]
  }

  /** Taking every element of a sequence gives the sequence. */
  lemma TakeAll<T>(s: seq<T>)
    ensures s[..|s|] == s
  {
  }

  function Elements<T>(s: seq<T>): set<T>
  {
    set x | x in s
  }

  lemma ElementsEmpty<T>(s: seq<T>)
    ensures Elements(s) == {} <==> s == []
  {
    if s != [] {
      assert s[0] in Elements(s);
    }
  }

  /** Place `x` after every element of the sorted `s` that is `le` it. */
  function Insert<T>(s: seq<T>, x: T, le: (T, T) -> bool): (r: seq<T>)
    ensures |r| == |s| + 1
    ensures multiset(r) == multiset(s) + multiset{x}
  {
    if s == [] then [x]
    else if le(s[0], x) then
      assert s == [s[0]] + s[1..];
      [s[0]] + Insert(s[1..], x, le)
    else [x] + s
  }

  /** The stable sort of `s`: each element inserted in turn, left to right. */
  function SortBy<T>(s: seq<T>, le: (T, T) -> bool): (r: seq<T>)
    ensures |r| == |s|
    ensures multiset(r) == multiset(s)
  {
    if s == [] then []
    else
      assert s == s[..|s| - 1] + [s[|s| - 1]];
      Insert(SortBy(s[..|s| - 1], le), s[|s| - 1], le)
  }

  lemma {:induction false} InsertSorted<T(!new)>(s: seq<T>, x: T, le: (T, T) -> bool)
    requires TotalPreorder(le)
    requires Sorted(s, le)
    ensures Sorted(Insert(s, x, le), le)
  {
    if s != [] && le(s[0], x) {
      InsertSorted(s[1..], x, le);
      var r := Insert(s, x, le);
      forall j | 0 < j < |r| ensures le(r[0], r[j]) {
        assert r[j] in multiset(Insert(s[1..], x, le));
        assert r[j] in multiset(s[1..]) + multiset{x};
        if r[j] != x {
          var k :| 0 <= k < |s[1..]| && s[1..][k] == r[j];
          assert s[1..][k] == s[k + 1];
        }
      }
    }
  }

  lemma {:induction false} SortBySorted<T(!new)>(s: seq<T>, le: (T, T) -> bool)
    requires TotalPreorder(le)
    ensures Sorted(SortBy(s, le), le)
  {
    if s != [] {
      SortBySorted(s[..|s| - 1], le);
      InsertSorted(SortBy(s[..|s| - 1], le), s[|s| - 1], le);
    }
  }

  /** A sequence is free of repetitions exactly when it has as many distinct elements as entries. */
  lemma {:induction false} DistinctCardinality<T>(s: seq<T>)
    ensures |Elements(s)| <= |s|
    ensures Distinct(s) <==> |Elements(s)| == |s|
  {
    if s != [] {
      var init, last := s[..|s| - 1], s[|s| - 1];
      assert s == init + [last];
      DistinctCardinality(init);
      assert Elements(s) == Elements(init) + {last};
      if last in init {
        assert Elements(s) == Elements(init);
        var k :| 0 <= k < |init| && init[k] == last;
        assert s[k] == s[|s| - 1];
        assert !Distinct(s);
      } else {
        assert |Elements(s)| == |Elements(init)| + 1;
        if Distinct(init) {
          assert Distinct(s);
        } else {
          var i, j :| 0 <= i < j < |init| && init[i] == init[j];
          assert s[i] == s[j];
        }
      }
    }
  }

  /** A permutation of a repetition-free sequence is repetition-free. */
  lemma PermutationDistinct<T>(s: seq<T>, t: seq<T>)
    requires multiset(s) == multiset(t)
    requires Distinct(s)
    ensures Distinct(t)
  {
    assert |s| == |multiset(s)| == |multiset(t)| == |t|;
    assert Elements(s) == Elements(t) by {
      forall x ensures x in s <==> x in t {
        assert x in s <==> x in multiset(s);
        assert x in t <==> x in multiset(t);
      }
    }
    DistinctCardinality(s);
    DistinctCardinality(t);
  }

  /** The first position of `x` in `s`. */
  function IndexOf<T(==)>(s: seq<T>, x: T): (r: Option<nat>)
    ensures r.Some? ==> r.value < |s| && s[r.value] == x && x !in s[..r.value]
    ensures r.None? ==> x !in s
  {
    if s == [] then None
    else if s[0] == x then Some(0)
    else match IndexOf(s[1..], x)
      case None => None
      case Some(i) =>
        assert s[..i + 1] == [s[0]] + s[1..][..i];
        Some(i + 1)
  }

  /** Text after the first occurrence of `x` does not move that occurrence. */
  lemma {:induction false} IndexOfAppend<T>(s: seq<T>, t: seq<T>, x: T)
    requires IndexOf(s, x).Some?
    ensures IndexOf(s + t, x) == IndexOf(s, x)
  {
    if s[0] != x {
      assert (s + t)[1..] == s[1..] + t;
      IndexOfAppend(s[1..], t, x);
    }
  }

  /** The first `x` of `a + [x] + b`, when `a` has none, is at `|a|`. */
  lemma {:induction false} IndexOfJoin<T>(a: seq<T>, x: T, b: seq<T>)
    requires x !in a
    ensures IndexOf(a + [x] + b, x) == Some(|a|)
  {
    if a != [] {
      assert (a + [x] + b)[1..] == a[1..] + [x] + b;
      IndexOfJoin(a[1..], x, b);
    }
  }

  /** A part without `sep`, followed by `sep`, is recovered from the joined sequence. */
  lemma SplitAtFirst<T>(x: seq<T>, sep: T, s: seq<T>, y: seq<T>, t: seq<T>)
    requires sep !in x && sep !in y
    requires x + [sep] + s == y + [sep] + t
    ensures x == y && s == t
  {
    IndexOfJoin(x, sep, s);
    IndexOfJoin(y, sep, t);
    assert x == (x + [sep] + s)[..|x|];
    assert y == (y + [sep] + t)[..|y|];
    assert s == (x + [sep] + s)[|x| + 1..];
    assert t == (y + [sep] + t)[|y| + 1..];
  }

  /** `s` with `p` removed from its front, if `s` starts with `p`. */
  function StripPrefix<T(==)>(s: seq<T>, p: seq<T>): (r: Option<seq<T>>)
    ensures r.Some? <==> p <= s
    ensures r.Some? ==> p + r.value == s
  {
    if p <= s then Some(s[|p|..]) else None
  }

  /** `p` occurs in `s` starting at position `i`. */
  predicate OccursAt<T(==)>(s: seq<T>, p: seq<T>, i: int)
  {
    0 <= i <= |s| - |p| && s[i..i + |p|] == p
  }

  lemma OccursAtTail<T>(s: seq<T>, p: seq<T>, i: int)
    requires s != [] && 0 <= i
    ensures OccursAt(s[1..], p, i) <==> OccursAt(s, p, i + 1)
  {
    if 0 <= i <= |s| - 1 - |p| {
      assert s[1..][i..i + |p|] == s[i + 1..i + 1 + |p|];
    }
  }

  /** An occurrence in a suffix of `s` is an occurrence in `s`, shifted by the suffix's start. */
  lemma OccursAtShift<T>(s: seq<T>, p: seq<T>, k: nat, i: int)
    requires k <= |s|
    ensures OccursAt(s[k..], p, i) <==> 0 <= i && OccursAt(s, p, k + i)
  {
    if 0 <= i <= |s| - k - |p| {
      assert s[k..][i..i + |p|] == s[k + i..k + i + |p|];
    }
  }

  /** Two adjacent occurrences form one occurrence of the concatenation. */
  lemma OccursAtConcat<T>(s: seq<T>, p: seq<T>, q: seq<T>, i: int)
    requires OccursAt(s, p, i) && OccursAt(s, q, i + |p|)
    ensures OccursAt(s, p + q, i)
  {
    assert s[i..i + |p| + |q|] == s[i..i + |p|] + s[i + |p|..i + |p| + |q|];
  }

  /** `find`: the first position at which `p` occurs in `s`. */
  function Find<T(==)>(s: seq<T>, p: seq<T>): (r: Option<nat>)
    ensures r.Some? ==> OccursAt(s, p, r.value) && forall j :: 0 <= j < r.value ==> !OccursAt(s, p, j)
    ensures r.None? ==> forall j :: !OccursAt(s, p, j)
    decreases |s|
  {
    if p <= s then
      assert s[0..|p|] == p;
      Some(0)
    else if s == [] then None
    else
      var rest := Find(s[1..], p);
      assert !OccursAt(s, p, 0);
      assert forall j :: 1 <= j ==> (OccursAt(s, p, j) <==> OccursAt(s[1..], p, j - 1)) by {
        forall j | 1 <= j ensures OccursAt(s, p, j) <==> OccursAt(s[1..], p, j - 1) {
          OccursAtTail(s, p, j - 1);
        }
      }
      match rest
      case None => None
      case Some(i) => Some(i + 1)
  }

  /** The first occurrence of `p` in `a + p + b`, when no element of `a` equals `p`'s first, is at `|a|`. */
  lemma FindAfter<T>(a: seq<T>, p: seq<T>, b: seq<T>)
    requires p != [] && p[0] !in a
    ensures Find(a + p + b, p) == Some(|a|)
  {
    var s := a + p + b;
    assert s[|a|..|a| + |p|] == p;
    assert OccursAt(s, p, |a|);
    forall j | 0 <= j < |a| ensures !OccursAt(s, p, j) {
      assert s[j] == a[j] != p[0];
    }
  }

  /** `find` gives the first position at which `p` occurs. */
  lemma FindAt<T>(s: seq<T>, p: seq<T>, i: nat)
    requires OccursAt(s, p, i)
    requires forall j :: 0 <= j < i ==> !OccursAt(s, p, j)
    ensures Find(s, p) == Some(i)
  {
  }

  /** `trim_start_matches`: `s` without its longest prefix of elements that `strip` accepts. */
  function TrimStart<T>(s: seq<T>, strip: T -> bool): (r: seq<T>)
    ensures |r| <= |s| && r == s[|s| - |r|..]
    ensures forall i :: 0 <= i < |s| - |r| ==> strip(s[i])
    ensures r != [] ==> !strip(r[0])
  {
    if s != [] && strip(s[0]) then
      var r := TrimStart(s[1..], strip);
      assert s[1..][|s| - 1 - |r|..] == s[|s| - |r|..];
      r
    else s
  }

  /** `trim_end_matches`: `s` without its longest suffix of elements that `strip` accepts. */
  function TrimEnd<T>(s: seq<T>, strip: T -> bool): (r: seq<T>)
    ensures |r| <= |s| && r == s[..|r|]
    ensures forall i :: |r| <= i < |s| ==> strip(s[i])
    ensures r != [] ==> !strip(r[|r| - 1])
  {
    if s != [] && strip(s[|s| - 1]) then TrimEnd(s[..|s| - 1], strip) else s
  }

  /** `trim_matches`: both ends trimmed. */
  function Trim<T>(s: seq<T>, strip: T -> bool): (r: seq<T>)
    ensures |r| <= |s|
    ensures r != [] ==> !strip(r[0]) && !strip(r[|r| - 1])
  {
    TrimEnd(TrimStart(s, strip), strip)
  }

  /** `ends_with`: the last `|suffix|` elements of `s` are `suffix`. */
  predicate EndsWith<T(==)>(s: seq<T>, suffix: seq<T>)
  {
    |suffix| <= |s| && s[|s| - |suffix|..] == suffix
  }

  /** A subset is no larger than its superset. */
  lemma SubsetCardinality<T>(a: set<T>, b: set<T>)
    requires a <= b
    ensures |a| <= |b|
  {
    assert b == a + (b - a);
  }

  /** `s` without one trailing `x`, if it ends with one. */
  function StripSuffix<T(==)>(s: seq<T>, x: T): (r: seq<T>)
  {
    if |s| > 0 && s[|s| - 1] == x then s[..|s| - 1] else s
  }

  /**
   * `str::lines`: the text split at each `nl`, a `cr` directly before an
   * `nl` dropped, and no empty line after a final `nl`.
   */
  function Lines<T(==)>(s: seq<T>, nl: T, cr: T): seq<seq<T>>
    decreases |s|
  {
    if s == [] then []
    else match IndexOf(s, nl)
      case None => [s]
      case Some(i) => [StripSuffix(s[..i], cr)] + Lines(s[i + 1..], nl, cr)
  }

  /** One terminated line is read as that line. */
  lemma LinesSingle<T>(l: seq<T>, nl: T, cr: T)
    requires nl !in l
    ensures Lines(l + [nl], nl, cr) == [StripSuffix(l, cr)]
  {
    IndexOfJoin(l, nl, []);
    assert l + [nl] + [] == l + [nl];
    assert (l + [nl])[..|l|] == l && (l + [nl])[|l| + 1..] == [];
  }

  /**
   * Two texts with the same first line, whose rests read alike but for one
   * more line at the end, read alike but for that line.
   */
  lemma LinesSameFirst<T>(f: seq<T>, g: seq<T>, nl: T, cr: T, i: nat, last: seq<T>)
    requires IndexOf(f, nl) == Some(i) && IndexOf(g, nl) == Some(i) && g[..i] == f[..i]
    requires Lines(g[i + 1..], nl, cr) == Lines(f[i + 1..], nl, cr) + [last]
    ensures Lines(g, nl, cr) == Lines(f, nl, cr) + [last]
  {
    var first, rest := [StripSuffix(f[..i], cr)], Lines(f[i + 1..], nl, cr);
    assert Lines(g, nl, cr) == first + (rest + [last]);
    assert Lines(f, nl, cr) == first + rest;
  }

  /** Appending one terminated line to text that ends a line adds exactly that line. */
  lemma {:induction false} LinesAppend<T>(f: seq<T>, l: seq<T>, nl: T, cr: T)
    requires f == [] || f[|f| - 1] == nl
    requires nl !in l
    ensures Lines(f + l + [nl], nl, cr) == Lines(f, nl, cr) + [StripSuffix(l, cr)]
    decreases |f|
  {
    if f == [] {
      assert f + l + [nl] == l + [nl];
      LinesSingle(l, nl, cr);
    } else {
      var g := f + l + [nl];
      assert f[|f| - 1] in f;
      var i := IndexOf(f, nl).value;
      assert g == f + (l + [nl]);
      IndexOfAppend(f, l + [nl], nl);
      assert g[..i] == f[..i] && g[i + 1..] == f[i + 1..] + l + [nl];
      LinesAppend(f[i + 1..], l, nl, cr);
      LinesSameFirst(f, g, nl, cr, i, StripSuffix(l, cr));
    }
  }


  /** Ending a last line that does not end in `cr` reads the same lines. */
  lemma {:induction false} LinesTerminate<T>(f: seq<T>, nl: T, cr: T)
    requires f != [] && f[|f| - 1] != nl && f[|f| - 1] != cr
    ensures Lines(f + [nl], nl, cr) == Lines(f, nl, cr)
    decreases |f|
  {
    match IndexOf(f, nl)
    case None =>
      LinesSingle(f, nl, cr);
    case Some(i) =>
      var g := f + [nl];
      IndexOfAppend(f, [nl], nl);
      assert g[..i] == f[..i] && g[i + 1..] == f[i + 1..] + [nl];
      LinesTerminate(f[i + 1..], nl, cr);
  }

}

=== FILE: simple_persistence.dfy ===
/**
 * The in-memory persistence of src/agent/simple_persistence.rs: a map from
 * `{namespace}/{key}` to bytes. Branches, checkouts, merges and checkpoints
 * are no-ops there and are not modelled.
 */
module SimplePersistence {
  import opened Wrappers
  import opened ByteStrings
  import opened Sequences

  /** Two keys under the same namespace are equal exactly when their full keys are. */
  lemma FullKeyInjective(ns: string, a: string, b: string)
    requires ns + "/" + a == ns + "/" + b
    ensures a == b
  {
    assert a == (ns + "/" + a)[|ns| + 1..];
    assert b == (ns + "/" + b)[|ns| + 1..];
  }

  /** Prefixes of keys under one namespace correspond to prefixes of the full keys. */
  lemma FullKeyPrefix(ns: string, p: string, k: string)
    ensures ns + "/" + p <= ns + "/" + k <==> p <= k
  {
    var fp, fk := ns + "/" + p, ns + "/" + k;
    if p <= k {
      assert fk[..|fp|] == fp;
    }
    if fp <= fk {
      assert fp[|ns| + 1..] == p;
      assert fk[|ns| + 1..|fp|] == p;
    }
  }

  /** A namespace that contains `/` can reach the keys of another namespace. */
  lemma NamespacesCanCollide()
    ensures "a" + "/" + "b/c" == "a/b" + "/" + "c"
  {
  }

  /** Namespaces without `/` never share a full key. */
  lemma NamespacesSeparate(ns1: string, k1: string, ns2: string, k2: string)
    requires '/' !in ns1 && '/' !in ns2 && ns1 != ns2
    ensures ns1 + "/" + k1 != ns2 + "/" + k2
  {
    if ns1 + "/" + k1 == ns2 + "/" + k2 {
      SplitAtFirst(ns1, '/', k1, ns2, k2);
    }
  }

  class SimpleMemoryPersistence {
    const namespacePrefix: string
    var data: map<string, Bytes>

    /** `init`: an empty store for the namespace; the path is not used. */
    constructor (namespacePrefix: string)
      ensures this.namespacePrefix == namespacePrefix && data == map[]
    {
      this.namespacePrefix := namespacePrefix;
      data := map[];
    }

    /** `full_key`: `{namespace}/{key}`. */
    function FullKey(key: string): (r: string)
      ensures |r| == |namespacePrefix| + 1 + |key|
      ensures r[..|namespacePrefix| + 1] == namespacePrefix + "/" && r[|namespacePrefix| + 1..] == key
    {
      namespacePrefix + "/" + key
    }

    /** `load`: the bytes saved under the key, if any. */
    function Load(key: string): (r: Option<Bytes>)
      reads this
      ensures r.Some? <==> FullKey(key) in data
      ensures r.Some? ==> r.value == data[FullKey(key)]
    {
      if FullKey(key) in data then Some(data[FullKey(key)]) else None
    }

    /** `save`: the key now loads the bytes, overwriting any earlier save; no other key changes. */
    method Save(key: string, bytes: Bytes) returns (r: Result<(), string>)
      modifies this
      ensures r.Ok?
      ensures data == old(data)[FullKey(key) := bytes]
      ensures Load(key) == Some(bytes)
      ensures forall k :: k != key ==> Load(k) == old(Load(k))
    {
      data := data[FullKey(key) := bytes];
      forall k | k != key ensures Load(k) == old(Load(k)) {
        if FullKey(k) == FullKey(key) {
          FullKeyInjective(namespacePrefix, k, key);
        }
      }
      return Ok(());
    }

    /** `delete`: the key no longer loads, whether or not it was there; no other key changes. */
    method Delete(key: string) returns (r: Result<(), string>)
      modifies this
      ensures r.Ok?
      ensures data == old(data) - {FullKey(key)}
      ensures Load(key).None?
      ensures forall k :: k != key ==> Load(k) == old(Load(k))
    {
      data := data - {FullKey(key)};
      forall k | k != key ensures Load(k) == old(Load(k)) {
        if FullKey(k) == FullKey(key) {
          FullKeyInjective(namespacePrefix, k, key);
        }
      }
      return Ok(());
    }

    /**
     * `list_keys`: every stored key whose full key starts with
     * `{namespace}/{prefix}`, with `{namespace}/` removed, each once, in the
     * map's iteration order.
     */
    method ListKeys(prefix: string) returns (keys: seq<string>)
      ensures forall k :: k in keys <==> Load(k).Some? && prefix <= k
      ensures Distinct(keys)
    {
      var fullPrefix := namespacePrefix + "/" + prefix;
      var rest := data.Keys;
      keys := [];
      while rest != {}
        invariant rest <= data.Keys
        invariant forall k :: k in keys <==> FullKey(k) in data.Keys - rest && prefix <= k
        invariant Distinct(keys)
        decreases |rest|
      {
        var full :| full in rest;
        if fullPrefix <= full {
          match StripPrefix(full, namespacePrefix + "/")
          case Some(k) =>
            assert FullKey(k) == full;
            FullKeyPrefix(namespacePrefix, prefix, k);
            assert k !in keys;
            keys := keys + [k];
          case None =>
        }
        forall k ensures FullKey(k) == full ==> k == full[|namespacePrefix| + 1..] {
        }
        rest := rest - {full};
      }
    }
  }
}

=== FILE: sql.dfy ===
/**
 * The key scheme and the row operations of the SQL storage in src/sql.rs.
 *
 * Every row of table `t` lives in the versioned store under the UTF-8 bytes
 * of `{t}:{key}`; the table's schema lives under `{t}:__schema__`. Rows and
 * schemas are stored as their serialised bytes; the serialisation itself is
 * not part of this model. The order of SQL keys is the query engine's and is
 * a parameter `le` of `ScanData`.
 */
module SqlStorage {
  import opened Wrappers
  import opened ByteStrings
  import opened Sequences
  import opened GitTypes
  import opened VersionedStore

  const I64_MIN: int := -0x8000_0000_0000_0000
  const I64_MAX: int := 0x7FFF_FFFF_FFFF_FFFF

  /** The row keys the storage tells apart: integers, strings, and `None` for the schema entry. */
  datatype Key = I64(n: int) | Str(s: string) | KeyNone

  predicate IsDigit(c: char)
  {
    '0' <= c <= '9'
  }

  predicate AllDigits(s: string)
  {
    forall i :: 0 <= i < |s| ==> IsDigit(s[i])
  }

  function DigitChar(d: nat): (c: char)
    requires d < 10
    ensures IsDigit(c) && c as int - '0' as int == d
  {
    ('0' as int + d) as char
  }

  /** The decimal digits of `n` as `Display` writes them: at least one, no leading zero. */
  function NatToString(n: nat): (r: string)
    ensures |r| >= 1 && AllDigits(r)
    ensures r[0] == '0' ==> n == 0
  {
    if n < 10 then [DigitChar(n)] else NatToString(n / 10) + [DigitChar(n % 10)]
  }

  /** The number a string of decimal digits denotes. */
  function DigitsValue(s: string): nat
    requires AllDigits(s)
  {
    if s == [] then 0 else DigitsValue(s[..|s| - 1]) * 10 + (s[|s| - 1] as int - '0' as int)
  }

  /** Reading back the digits of `n` gives `n`. */
  lemma {:induction false} NatToStringValue(n: nat)
    ensures DigitsValue(NatToString(n)) == n
  {
    if n >= 10 {
      var s := NatToString(n);
      assert s[..|s| - 1] == NatToString(n / 10);
      NatToStringValue(n / 10);
    }
  }

  /** `i64`'s `Display`: a minus sign before the digits of a negative number. */
  function IntToString(n: int): string
  {
    if n < 0 then "-" + NatToString(-n) else NatToString(n)
  }

  /**
   * `str::parse::<i64>`: an optional `+` or `-`, then one or more decimal
   * digits whose value, with the sign, lies within the i64 range.
   */
  function ParseI64(s: string): (r: Option<int>)
    ensures r.Some? ==> I64_MIN <= r.value <= I64_MAX
    ensures r.Some? ==> |s| > 0 && (IsDigit(s[0]) || s[0] == '+' || s[0] == '-') && AllDigits(s[1..])
  {
    var signed := |s| > 0 && (s[0] == '+' || s[0] == '-');
    var digits := if signed then s[1..] else s;
    if digits == [] || !AllDigits(digits) then None
    else
      var v: int := if signed && s[0] == '-' then 0 - DigitsValue(digits) else DigitsValue(digits);
      if I64_MIN <= v <= I64_MAX then Some(v) else None
  }

  /** Every i64 parses back from its decimal text. */
  lemma ParseIntToString(n: int)
    requires I64_MIN <= n <= I64_MAX
    ensures ParseI64(IntToString(n)) == Some(n)
  {
    var s := IntToString(n);
    if n < 0 {
      assert s[0] == '-' && s[1..] == NatToString(-n);
      NatToStringValue(-n);
    } else {
      assert IsDigit(s[0]);
      NatToStringValue(n);
    }
  }

  /** The text after `{table}:` for each kind of key. */
  function KeyText(key: Key): string
  {
    match key
    case I64(n) => IntToString(n)
    case Str(s) => s
    case KeyNone => "__schema__"
  }

  /** The bytes of `{table}:`, with which every key of the table starts. */
  function TablePrefix(table: string): Bytes
  {
    Utf8(table + ":")
  }

  /** The byte string `:__schema__`. */
  const SCHEMA_SUFFIX: seq<int> := CodePoints(":__schema__")

  /** `make_storage_key`: the UTF-8 of `{table}:{key}`, with `__schema__` standing for the schema entry. */
  function MakeStorageKey(table: string, key: Key): (r: Bytes)
    ensures TablePrefix(table) <= r
    ensures Utf8Decode(r) == table + ":" + KeyText(key)
  {
    Utf8Append(table + ":", KeyText(key));
    Utf8DecodeOfEncode(table + ":" + KeyText(key));
    Utf8(table + ":" + KeyText(key))
  }

  /**
   * `parse_key_from_storage_key`: the text of the key after `{table}:`
   * (empty when it does not start so) as an integer key when it parses as
   * an i64, as a string key otherwise.
   */
  function ParseKey(storageKey: Bytes, table: string): (r: Key)
    ensures r.I64? || r.Str?
    ensures r.I64? ==> I64_MIN <= r.n <= I64_MAX
    ensures !(table + ":" <= Utf8Decode(storageKey)) ==> r == Str("")
  {
    var keyPart := StripPrefix(Utf8Decode(storageKey), table + ":").GetOr("");
    match ParseI64(keyPart)
    case Some(n) => I64(n)
    case None => Str(keyPart)
  }

  /** A key read back is its text after `{table}:`, as a number if it parses as one. */
  lemma ParseKeyOfText(table: string, text: string)
    ensures ParseKey(Utf8(table + ":" + text), table) ==
              match ParseI64(text) case Some(n) => I64(n) case None => Str(text)
  {
    var p := table + ":";
    Utf8DecodeOfEncode(p + text);
    assert StripPrefix(p + text, p).Some?;
  }

  /** Integer keys survive the trip through the store. */
  lemma RoundTripI64(table: string, n: int)
    requires I64_MIN <= n <= I64_MAX
    ensures ParseKey(MakeStorageKey(table, I64(n)), table) == I64(n)
  {
    ParseKeyOfText(table, IntToString(n));
    ParseIntToString(n);
  }

  /** String keys that do not read as an i64 survive the trip through the store. */
  lemma RoundTripStr(table: string, s: string)
    requires ParseI64(s).None?
    ensures ParseKey(MakeStorageKey(table, Str(s)), table) == Str(s)
  {
    ParseKeyOfText(table, s);
  }

  /** A string key that reads as a number comes back as an integer key. */
  lemma NumericStringKeyReadsAsInteger(table: string)
    ensures ParseKey(MakeStorageKey(table, Str("42")), table) == I64(42)
  {
    ParseKeyOfText(table, "42");
    assert "42"[..1] == "4";
    assert DigitsValue("42") == 42;
  }

  /** The schema entry reads back as the string key `__schema__`. */
  lemma SchemaKeyReadsAsString(table: string)
    ensures ParseKey(MakeStorageKey(table, KeyNone), table) == Str("__schema__")
  {
    ParseKeyOfText(table, "__schema__");
    assert !IsDigit("__schema__"[0]);
  }

  /** A storage key `scan_data` reads as a row of `table`: under the table's prefix, and not a schema entry. */
  predicate IsRowKey(sk: Bytes, table: string)
  {
    TablePrefix(table) <= sk && !EndsWith(sk, SCHEMA_SUFFIX)
  }

  /** The schema entry of a table is never read as one of its rows. */
  lemma SchemaKeyIsNotRow(table: string)
    ensures !IsRowKey(MakeStorageKey(table, KeyNone), table)
  {
    var sk := MakeStorageKey(table, KeyNone);
    assert table + ":" + "__schema__" == table + ":__schema__";
    Utf8AsciiSuffix(table, ":__schema__");
    assert sk[|Utf8(table)|..] == SCHEMA_SUFFIX;
  }

  /** The UTF-8 of a string that ends in an ASCII character ends in that character's byte. */
  lemma Utf8LastAscii(s: string)
    requires |s| > 0 && s[|s| - 1] as int < 128
    ensures |Utf8(s)| > 0 && Utf8(s)[|Utf8(s)| - 1] == s[|s| - 1] as int
  {
    assert s == s[..|s| - 1] + [s[|s| - 1]];
    Utf8Append(s[..|s| - 1], [s[|s| - 1]]);
  }

  /** The key of every integer row is read as a row of its table. */
  lemma IntegerKeyIsRow(table: string, n: int)
    ensures IsRowKey(MakeStorageKey(table, I64(n)), table)
  {
    var sk := MakeStorageKey(table, I64(n));
    var digits := NatToString(if n < 0 then -n else n);
    var text := table + ":" + IntToString(n);
    assert text[|text| - 1] == digits[|digits| - 1];
    assert IsDigit(text[|text| - 1]);
    Utf8LastAscii(text);
    assert SCHEMA_SUFFIX[|SCHEMA_SUFFIX| - 1] == '_' as int;
  }

  /**
   * A table whose name extends another's with `:` shows its integer rows in
   * the other table's scan, as string keys.
   */
  lemma PrefixTableRowsLeak(table: string, sub: string, n: int)
    ensures IsRowKey(MakeStorageKey(table + ":" + sub, I64(n)), table)
    ensures ParseKey(MakeStorageKey(table + ":" + sub, I64(n)), table) == Str(sub + ":" + IntToString(n))
  {
    var text := sub + ":" + IntToString(n);
    assert (table + ":" + sub) + ":" + IntToString(n) == table + ":" + text;
    IntegerKeyIsRow(table + ":" + sub, n);
    Utf8Append(table + ":", text);
    ParseKeyOfText(table, text);
    assert text[|sub|] == ':';
    if sub != [] {
      assert text[1..][|sub| - 1] == ':';
    }
  }

  /** Counter keys of one table are distinct. */
  lemma CounterKeyInjective(table: string, a: nat, b: nat)
    requires MakeStorageKey(table, I64(a)) == MakeStorageKey(table, I64(b))
    ensures a == b
  {
    var sa, sb := table + ":" + NatToString(a), table + ":" + NatToString(b);
    Utf8Injective(sa, sb);
    assert NatToString(a) == sa[|table| + 1..] == sb[|table| + 1..] == NatToString(b);
    NatToStringValue(a);
    NatToStringValue(b);
  }

  /** No later counter shares the key of `counter`. */
  lemma LaterCounterKeys(table: string, counter: nat)
    ensures forall c: nat :: counter < c ==> MakeStorageKey(table, I64(c)) != MakeStorageKey(table, I64(counter))
  {
    forall c: nat | counter < c ensures MakeStorageKey(table, I64(c)) != MakeStorageKey(table, I64(counter)) {
      if MakeStorageKey(table, I64(c)) == MakeStorageKey(table, I64(counter)) {
        CounterKeyInjective(table, c, counter);
      }
    }
  }

  /** `rows.sort_by` on the key of each row. */
  function RowOrder(le: (Key, Key) -> bool): ((Key, Bytes), (Key, Bytes)) -> bool
  {
    (a: (Key, Bytes), b: (Key, Bytes)) => le(a.0, b.0)
  }

  lemma RowOrderPreorder(le: (Key, Key) -> bool)
    requires TotalPreorder(le)
    ensures TotalPreorder(RowOrder(le))
  {
    var order := RowOrder(le);
    forall a, b ensures order(a, b) || order(b, a) {
      assert order(a, b) == le(a.0, b.0) && order(b, a) == le(b.0, a.0);
    }
    forall a, b, c | order(a, b) && order(b, c) ensures order(a, c) {
      assert le(a.0, b.0) && le(b.0, c.0);
    }
  }

  /** The storage keys of `table`'s rows in `view`. */
  function RowKeys(view: Snapshot, table: string): set<Bytes>
  {
    set sk | sk in view && IsRowKey(sk, table)
  }

  /** The row a storage key holds: its key read back, and its bytes. */
  function Entry(view: Snapshot, sk: Bytes, table: string): (Key, Bytes)
    requires sk in view
  {
    (ParseKey(sk, table), view[sk])
  }

  /**
   * A scan of `view` with the keys `rest` still to visit: `found` holds one
   * row for each row key met so far, `from` the storage keys they came from.
   */
  ghost predicate Scanned(view: Snapshot, table: string, rest: set<Bytes>, from: seq<Bytes>, found: seq<(Key, Bytes)>)
  {
    && rest <= view.Keys
    && |found| == |from| && Distinct(from)
    && (forall j :: 0 <= j < |from| ==> from[j] !in rest && from[j] in RowKeys(view, table) && found[j] == Entry(view, from[j], table))
    && (forall sk :: sk in RowKeys(view, table) && sk !in rest ==> sk in from)
  }

  /** Visiting a row key adds its row. */
  lemma ScannedTake(view: Snapshot, table: string, rest: set<Bytes>, from: seq<Bytes>, found: seq<(Key, Bytes)>, sk: Bytes)
    requires Scanned(view, table, rest, from, found) && sk in rest && IsRowKey(sk, table)
    ensures sk in view
    ensures Scanned(view, table, rest - {sk}, from + [sk], found + [Entry(view, sk, table)])
  {
    var from', found' := from + [sk], found + [Entry(view, sk, table)];
    forall i, j | 0 <= i < j < |from'| ensures from'[i] != from'[j] {
      if j == |from| {
        assert from'[i] == from[i] && from[i] !in rest;
      }
    }
  }

  /** Visiting any other key adds nothing. */
  lemma ScannedSkip(view: Snapshot, table: string, rest: set<Bytes>, from: seq<Bytes>, found: seq<(Key, Bytes)>, sk: Bytes)
    requires Scanned(view, table, rest, from, found) && sk in rest && !IsRowKey(sk, table)
    ensures Scanned(view, table, rest - {sk}, from, found)
  {
  }

  /**
   * The rows found, one per row key in any order, sorted: sorted by key, one
   * row per row key, and nothing else.
   */
  lemma SortedScan(view: Snapshot, table: string, le: (Key, Key) -> bool, from: seq<Bytes>, found: seq<(Key, Bytes)>)
    requires TotalPreorder(le)
    requires |found| == |from| && Distinct(from)
    requires forall j :: 0 <= j < |from| ==> from[j] in RowKeys(view, table) && found[j] == Entry(view, from[j], table)
    requires forall sk :: sk in RowKeys(view, table) ==> sk in from
    ensures var rows := SortBy(found, RowOrder(le));
      && Sorted(rows, RowOrder(le))
      && |rows| == |RowKeys(view, table)|
      && (forall sk :: sk in RowKeys(view, table) ==> Entry(view, sk, table) in rows)
      && (forall i :: 0 <= i < |rows| ==> exists sk :: sk in RowKeys(view, table) && rows[i] == Entry(view, sk, table))
  {
    var rows := SortBy(found, RowOrder(le));
    assert Elements(from) == RowKeys(view, table);
    DistinctCardinality(from);
    RowOrderPreorder(le);
    SortBySorted(found, RowOrder(le));
    forall sk | sk in RowKeys(view, table) ensures Entry(view, sk, table) in rows {
      var j :| 0 <= j < |from| && from[j] == sk;
      assert found[j] in multiset(rows);
    }
    forall i | 0 <= i < |rows| ensures exists sk :: sk in RowKeys(view, table) && rows[i] == Entry(view, sk, table) {
      assert rows[i] in multiset(found);
      var j :| 0 <= j < |found| && found[j] == rows[i];
      assert from[j] in RowKeys(view, table);
    }
  }

  /**
   * `view` is `start` with the first `|placed|` rows added under the fresh
   * keys `placed`: every old key keeps its value and there is one key more
   * per row.
   */
  ghost predicate Appended(start: Snapshot, view: Snapshot, placed: seq<Bytes>, rows: seq<Bytes>)
  {
    && |placed| <= |rows|
    && start.Keys <= view.Keys
    && (forall sk :: sk in start ==> view[sk] == start[sk])
    && |view.Keys| == |start.Keys| + |placed|
    && (forall j :: 0 <= j < |placed| ==> placed[j] in view && view[placed[j]] == rows[j])
  }

  /** Storing the next row under a key not yet used extends the append by that row. */
  lemma AppendedStep(start: Snapshot, view: Snapshot, placed: seq<Bytes>, rows: seq<Bytes>, k: Bytes)
    requires Appended(start, view, placed, rows) && |placed| < |rows| && k !in view
    ensures Appended(start, view[k := rows[|placed|]], placed + [k], rows)
  {
    var view', placed' := view[k := rows[|placed|]], placed + [k];
    assert view'.Keys == view.Keys + {k};
    assert |view'.Keys| == |view.Keys| + 1;
    forall sk | sk in start ensures view'[sk] == start[sk] {
      assert sk in view && sk != k;
    }
    forall j | 0 <= j < |placed'| ensures placed'[j] in view' && view'[placed'[j]] == rows[j] {
      if j < |placed| {
        assert placed'[j] == placed[j] && placed[j] in view;
      } else {
        assert placed'[j] == k && j == |placed|;
      }
    }
  }

  /** The keys `view` has beyond `start` are exactly those placed, none of them in `start`. */
  ghost predicate Gained(start: Snapshot, view: Snapshot, placed: seq<Bytes>)
  {
    && view.Keys == start.Keys + Elements(placed)
    && (forall j :: 0 <= j < |placed| ==> placed[j] !in start)
  }

  lemma GainedStep(start: Snapshot, view: Snapshot, placed: seq<Bytes>, k: Bytes, v: Bytes)
    requires Gained(start, view, placed) && k !in view
    ensures Gained(start, view[k := v], placed + [k])
  {
    assert Elements(placed + [k]) == Elements(placed) + {k};
  }

  /** The storage keys `{table}:{c}` of the given counters, in order. */
  function CounterKeys(table: string, counters: seq<nat>): (ks: seq<Bytes>)
    ensures |ks| == |counters|
    ensures forall j :: 0 <= j < |counters| ==> ks[j] == MakeStorageKey(table, I64(counters[j]))
  {
    seq(|counters|, j requires 0 <= j < |counters| => MakeStorageKey(table, I64(counters[j])))
  }

  /** One more row appended under the absent counter key `c`. */
  lemma AppendCounterStep(start: Snapshot, view: Snapshot, table: string, counters: seq<nat>, rows: seq<Bytes>, c: nat)
    requires Appended(start, view, CounterKeys(table, counters), rows) && Gained(start, view, CounterKeys(table, counters))
    requires |counters| < |rows| && MakeStorageKey(table, I64(c)) !in view
    ensures var view' := view[MakeStorageKey(table, I64(c)) := rows[|counters|]];
      && Appended(start, view', CounterKeys(table, counters + [c]), rows)
      && Gained(start, view', CounterKeys(table, counters + [c]))
  {
    var k := MakeStorageKey(table, I64(c));
    assert CounterKeys(table, counters + [c]) == CounterKeys(table, counters) + [k];
    AppendedStep(start, view, CounterKeys(table, counters), rows, k);
    GainedStep(start, view, CounterKeys(table, counters), k, rows[|counters|]);
  }

  /**
   * Once every row is appended under a counter key of `table`, the view
   * holds each row under its fresh key, keeps every old value, and gains
   * exactly those keys, which are new row keys of the table.
   */
  lemma AppendedRowKeys(start: Snapshot, view: Snapshot, table: string, rows: seq<Bytes>, counters: seq<nat>)
    requires Appended(start, view, CounterKeys(table, counters), rows) && Gained(start, view, CounterKeys(table, counters))
    requires |counters| == |rows|
    ensures view.Keys == start.Keys + set i | 0 <= i < |rows| :: MakeStorageKey(table, I64(counters[i]))
    ensures forall sk :: sk in start ==> sk in view && view[sk] == start[sk]
    ensures |view.Keys| == |start.Keys| + |rows|
    ensures forall i :: 0 <= i < |rows| ==>
              && MakeStorageKey(table, I64(counters[i])) !in start
              && MakeStorageKey(table, I64(counters[i])) in view
              && view[MakeStorageKey(table, I64(counters[i]))] == rows[i]
    ensures RowKeys(view, table) == RowKeys(start, table) + set i | 0 <= i < |rows| :: MakeStorageKey(table, I64(counters[i]))
  {
    var placed := CounterKeys(table, counters);
    CounterKeysElements(table, counters);
    GainedRowKeys(start, view, table, counters);
    forall i | 0 <= i < |rows|
      ensures MakeStorageKey(table, I64(counters[i])) !in start && MakeStorageKey(table, I64(counters[i])) in view
      ensures view[MakeStorageKey(table, I64(counters[i]))] == rows[i]
    {
      assert placed[i] == MakeStorageKey(table, I64(counters[i]));
    }
  }

  lemma CounterKeysElements(table: string, counters: seq<nat>)
    ensures Elements(CounterKeys(table, counters)) == set i | 0 <= i < |counters| :: MakeStorageKey(table, I64(counters[i]))
  {
    var placed := CounterKeys(table, counters);
    var added := set i | 0 <= i < |counters| :: MakeStorageKey(table, I64(counters[i]));
    forall sk | sk in added ensures sk in Elements(placed) {
      var i :| 0 <= i < |counters| && sk == MakeStorageKey(table, I64(counters[i]));
      assert placed[i] == sk;
    }
  }

  /** The keys gained under counter keys of `table` are exactly the row keys it gains. */
  lemma GainedRowKeys(start: Snapshot, view: Snapshot, table: string, counters: seq<nat>)
    requires Gained(start, view, CounterKeys(table, counters))
    ensures RowKeys(view, table) == RowKeys(start, table) + Elements(CounterKeys(table, counters))
  {
    var placed := CounterKeys(table, counters);
    forall j | 0 <= j < |placed| ensures IsRowKey(placed[j], table) {
      IntegerKeyIsRow(table, counters[j]);
    }
  }

  class ProllyStorage {
    const store: KvStore

    /** `new`: SQL storage over a versioned store. */
    constructor (store: KvStore)
      ensures this.store == store
    {
      this.store := store;
    }

    /**
     * One row of `append_data`: stored under the first counter from 0 whose
     * key is not in the store, so no existing row is overwritten.
     */
    method AppendRow(table: string, row: Bytes) returns (counter: nat)
      modifies store
      ensures counter <= |old(store.View()).Keys|
      ensures MakeStorageKey(table, I64(counter)) !in old(store.View())
      ensures forall c :: 0 <= c < counter ==> MakeStorageKey(table, I64(c)) in old(store.View())
      ensures store.View() == old(store.View())[MakeStorageKey(table, I64(counter)) := row]
      ensures store.staging == old(store.staging)[MakeStorageKey(table, I64(counter)) := Some(row)]
      ensures store.tree == old(store.tree) && store.currentBranch == old(store.currentBranch)
      ensures store.refs == old(store.refs) && store.commits == old(store.commits)
    {
      counter := 0;
      ghost var taken: set<Bytes> := {};
      while store.Get(MakeStorageKey(table, I64(counter))).Some?
        invariant store.View() == old(store.View())
        invariant store.staging == old(store.staging) && store.tree == old(store.tree)
        invariant store.currentBranch == old(store.currentBranch)
        invariant store.refs == old(store.refs) && store.commits == old(store.commits)
        invariant taken <= store.View().Keys && |taken| == counter
        invariant forall c :: counter <= c ==> MakeStorageKey(table, I64(c)) !in taken
        invariant forall c :: 0 <= c < counter ==> MakeStorageKey(table, I64(c)) in store.View()
        decreases |store.View().Keys| - counter
      {
        var k := MakeStorageKey(table, I64(counter));
        LaterCounterKeys(table, counter);
        taken := taken + {k};
        SubsetCardinality(taken, store.View().Keys);
        counter := counter + 1;
      }
      SubsetCardinality(taken, store.View().Keys);
      store.Insert(MakeStorageKey(table, I64(counter)), row);
    }

    /**
     * `append_data`: each row in turn under a fresh counter key
     * `{table}:{counter}`; the store keeps every value it held and gains
     * exactly those keys, which are new row keys of the table.
     */
    method AppendData(table: string, rows: seq<Bytes>) returns (ghost counters: seq<nat>)
      modifies store
      ensures |counters| == |rows|
      ensures store.View().Keys == old(store.View()).Keys + set i | 0 <= i < |rows| :: MakeStorageKey(table, I64(counters[i]))
      ensures forall sk :: sk in old(store.View()) ==> sk in store.View() && store.View()[sk] == old(store.View())[sk]
      ensures |store.View().Keys| == |old(store.View()).Keys| + |rows|
      ensures forall i :: 0 <= i < |rows| ==>
                && MakeStorageKey(table, I64(counters[i])) !in old(store.View())
                && MakeStorageKey(table, I64(counters[i])) in store.View()
                && store.View()[MakeStorageKey(table, I64(counters[i]))] == rows[i]
      ensures RowKeys(store.View(), table) == RowKeys(old(store.View()), table) + set i | 0 <= i < |rows| :: MakeStorageKey(table, I64(counters[i]))
      ensures store.tree == old(store.tree) && store.currentBranch == old(store.currentBranch)
      ensures store.refs == old(store.refs) && store.commits == old(store.commits)
    {
      ghost var start := store.View();
      counters := [];
      var i := 0;
      while i < |rows|
        invariant 0 <= i <= |rows| && |counters| == i
        invariant Appended(start, store.View(), CounterKeys(table, counters), rows)
        invariant Gained(start, store.View(), CounterKeys(table, counters))
        invariant store.tree == old(store.tree) && store.currentBranch == old(store.currentBranch)
        invariant store.refs == old(store.refs) && store.commits == old(store.commits)
      {
        ghost var view := store.View();
        var counter := AppendRow(table, rows[i]);
        AppendCounterStep(start, view, table, counters, rows, counter);
        counters := counters + [counter];
        i := i + 1;
      }
      AppendedRowKeys(start, store.View(), table, rows, counters);
    }

    /**
     * `scan_data`: the rows under the table's prefix, schema entries left
     * out, each with its key read back, sorted by key.
     */
    method ScanData(table: string, le: (Key, Key) -> bool) returns (rows: seq<(Key, Bytes)>)
      requires TotalPreorder(le)
      ensures Sorted(rows, RowOrder(le))
      ensures |rows| == |RowKeys(store.View(), table)|
      ensures forall sk :: sk in RowKeys(store.View(), table) ==> Entry(store.View(), sk, table) in rows
      ensures forall i :: 0 <= i < |rows| ==>
                exists sk :: sk in RowKeys(store.View(), table) && rows[i] == Entry(store.View(), sk, table)
    {
      var rest := store.ListKeys();
      var found: seq<(Key, Bytes)> := [];
      ghost var view := store.View();
      ghost var from: seq<Bytes> := [];
      while rest != {}
        invariant Scanned(view, table, rest, from, found)
        decreases |rest|
      {
        var sk :| sk in rest;
        if TablePrefix(table) <= sk && !EndsWith(sk, SCHEMA_SUFFIX) {
          var got := store.Get(sk);
          ScannedTake(view, table, rest, from, found, sk);
          if got.Some? {
            found := found + [(ParseKey(sk, table), got.value)];
            from := from + [sk];
          } else {
            // A listed key is always present.
            assert false;
          }
        } else {
          ScannedSkip(view, table, rest, from, found, sk);
        }
        rest := rest - {sk};
      }
      SortedScan(view, table, le, from, found);
      rows := SortBy(found, RowOrder(le));
    }
  }
}

=== FILE: storage.dfy ===
/**
 * The git-backed node storage of src/git/storage.rs.
 *
 * Nodes are kept in a cache, written as blobs to the object database, and
 * found again through a map from node hash (N bytes) to blob id (20 bytes).
 * That map is also persisted as a text file of lines `hex(hash):hex(oid)`,
 * which a new storage reads back. The file is modelled as its bytes, the
 * object database as a map from blob id to node.
 */
module GitStorage {
  import opened Wrappers
  import opened ByteStrings
  import opened Sequences
  import opened Hex

  const NL: byte := 10
  const CR: byte := 13
  const COLON: byte := 58

  /** Bytes in a git object id (SHA-1). */
  const OID_LEN: nat := 20

  /** `"{hash_hex}:{object_hex}\n"`, the line `save_hash_mapping` appends. */
  function MappingLine(hash: Bytes, oid: Bytes): (r: Bytes)
    ensures |r| == 2 * |hash| + 2 * |oid| + 2
    ensures r[2 * |hash|] == COLON && r[|r| - 1] == NL
  {
    EncodeHex(hash) + [COLON] + EncodeHex(oid) + [NL]
  }

  /** `str::split_once`: the text before and after the first `sep`. */
  function SplitOnce(s: Bytes, sep: byte): (r: Option<(Bytes, Bytes)>)
    ensures r.None? <==> sep !in s
    ensures r.Some? ==> s == r.value.0 + [sep] + r.value.1 && sep !in r.value.0
  {
    match IndexOf(s, sep)
    case None => None
    case Some(i) =>
      assert s == s[..i] + [sep] + s[i + 1..];
      Some((s[..i], s[i + 1..]))
  }

  /**
   * The mapping one line of the file holds, if any: the hash part must be
   * 2n hex digits and the object part 40 hex digits.
   */
  function ParseLine(line: Bytes, n: nat): (r: Option<(Bytes, Bytes)>)
    ensures r.Some? ==> |r.value.0| == n && |r.value.1| == OID_LEN
    ensures r.Some? ==> SplitOnce(line, COLON).Some? && |SplitOnce(line, COLON).value.0| == 2 * n
    ensures r.Some? ==> |SplitOnce(line, COLON).value.1| == 2 * OID_LEN
    ensures COLON !in line ==> r.None?
  {
    match SplitOnce(line, COLON)
    case None => None
    case Some((hashHex, objectHex)) =>
      if |hashHex| != 2 * n || |objectHex| != 2 * OID_LEN then None
      else match (DecodeAll(hashHex), DecodeAll(objectHex))
        case (Some(hash), Some(oid)) => Some((hash, oid))
        case _ => None
  }

  /** One line read into the map: a valid line sets its hash, any other line is skipped. */
  function LoadLine(m: map<Bytes, Bytes>, line: Bytes, n: nat): map<Bytes, Bytes>
  {
    match ParseLine(line, n)
    case Some((hash, oid)) => m[hash := oid]
    case None => m
  }

  /** `LoadLine` in the order `load_hash_mappings` tests the parts of a line. */
  lemma LoadLineSplit(m: map<Bytes, Bytes>, line: Bytes, n: nat)
    ensures SplitOnce(line, COLON).None? ==> LoadLine(m, line, n) == m
    ensures SplitOnce(line, COLON).Some? ==>
      var (hashHex, objectHex) := SplitOnce(line, COLON).value;
      LoadLine(m, line, n) ==
        if |hashHex| == 2 * n && DecodeAll(hashHex).Some? && |objectHex| == 2 * OID_LEN && DecodeAll(objectHex).Some?
        then m[DecodeAll(hashHex).value := DecodeAll(objectHex).value]
        else m
  {
  }

  /** The lines read into `m` in order, later lines overriding earlier ones. */
  function LoadInto(m: map<Bytes, Bytes>, lines: seq<Bytes>, n: nat): (r: map<Bytes, Bytes>)
    ensures forall h :: h in r && h !in m ==> |h| == n
  {
    if lines == [] then m else LoadLine(LoadInto(m, lines[..|lines| - 1], n), lines[|lines| - 1], n)
  }

  /** A byte that is not a hex digit never occurs in encoded text. */
  lemma NotInEncodeHex(bs: Bytes, c: byte)
    requires !IsHexDigit(c)
    ensures c !in EncodeHex(bs)
  {
    forall i | 0 <= i < |EncodeHex(bs)| ensures EncodeHex(bs)[i] != c {
      EncodeHexDigitsOnly(bs, i);
    }
  }

  /** Splitting at the first separator of `a + [sep] + b`, where `a` has none, gives back `a` and `b`. */
  lemma SplitOnceJoin(a: Bytes, sep: byte, b: Bytes)
    requires sep !in a
    ensures SplitOnce(a + [sep] + b, sep) == Some((a, b))
  {
    var s := a + [sep] + b;
    assert s[..|a|] == a;
    IndexOfJoin(a, sep, b);
    assert s[|a| + 1..] == b;
  }

  lemma LoadIntoSnoc(m: map<Bytes, Bytes>, lines: seq<Bytes>, l: Bytes, n: nat)
    ensures LoadInto(m, lines + [l], n) == LoadLine(LoadInto(m, lines, n), l, n)
  {
    assert (lines + [l])[..|lines|] == lines;
  }

  /** A line `save_hash_mapping` writes, without its newline, parses back to the same mapping. */
  lemma ParseMappingLine(hash: Bytes, oid: Bytes)
    requires |oid| == OID_LEN
    ensures ParseLine(EncodeHex(hash) + [COLON] + EncodeHex(oid), |hash|) == Some((hash, oid))
  {
    NotInEncodeHex(hash, COLON);
    SplitOnceJoin(EncodeHex(hash), COLON, EncodeHex(oid));
    DecodeAllOfEncode(hash);
    DecodeAllOfEncode(oid);
  }

  /** The text of a saved line holds no newline and does not end in a carriage return. */
  lemma MappingLineText(hash: Bytes, oid: Bytes)
    requires |oid| == OID_LEN
    ensures NL !in EncodeHex(hash) + [COLON] + EncodeHex(oid)
    ensures StripSuffix(EncodeHex(hash) + [COLON] + EncodeHex(oid), CR) == EncodeHex(hash) + [COLON] + EncodeHex(oid)
  {
    NotInEncodeHex(hash, NL);
    NotInEncodeHex(oid, NL);
    var l := EncodeHex(hash) + [COLON] + EncodeHex(oid);
    EncodeHexDigitsOnly(oid, |EncodeHex(oid)| - 1);
    assert l[|l| - 1] == EncodeHex(oid)[|EncodeHex(oid)| - 1];
  }

  /** Saved lines are hex digits, a `:` and a newline: ASCII only. */
  lemma MappingLineAscii(hash: Bytes, oid: Bytes)
    ensures IsAscii(EncodeHex(hash) + [COLON] + EncodeHex(oid))
    ensures IsAscii(MappingLine(hash, oid))
  {
    forall i | 0 <= i < |EncodeHex(hash)| ensures EncodeHex(hash)[i] < 0x80 {
      EncodeHexDigitsOnly(hash, i);
    }
    forall i | 0 <= i < |EncodeHex(oid)| ensures EncodeHex(oid)[i] < 0x80 {
      EncodeHexDigitsOnly(oid, i);
    }
  }

  /** The lines of a file read into an empty map, as the loop of `load_hash_mappings` does. */
  function ParseFile(file: Bytes, n: nat): map<Bytes, Bytes>
  {
    LoadInto(map[], Lines(file, NL, CR), n)
  }

  /**
   * What `load_hash_mappings` reads from a file: `read_to_string` fails on
   * bytes that are not UTF-8, and then nothing is loaded.
   */
  function LoadFile(file: Bytes, n: nat): map<Bytes, Bytes>
  {
    if Utf8Valid(file) then ParseFile(file, n) else map[]
  }

  /**
   * What `save_hash_mapping` writes back: the file read as text, with the
   * mapping's line pushed on. A file that is not UTF-8 reads as the empty
   * string, so it is replaced by the line alone.
   */
  function SaveFile(file: Bytes, hash: Bytes, oid: Bytes): (r: Bytes)
    ensures r != [] && r[|r| - 1] == NL
  {
    (if Utf8Valid(file) then file else []) + MappingLine(hash, oid)
  }

  /** Appending a saved line to a file that ended its last line adds exactly that mapping to its lines. */
  lemma AppendThenParse(file: Bytes, hash: Bytes, oid: Bytes)
    requires file == [] || file[|file| - 1] == NL
    requires |oid| == OID_LEN
    ensures ParseFile(file + MappingLine(hash, oid), |hash|) == ParseFile(file, |hash|)[hash := oid]
  {
    var l := EncodeHex(hash) + [COLON] + EncodeHex(oid);
    MappingLineText(hash, oid);
    assert file + MappingLine(hash, oid) == file + l + [NL];
    LinesAppend(file, l, NL, CR);
    LoadIntoSnoc(map[], Lines(file, NL, CR), l, |hash|);
    ParseMappingLine(hash, oid);
  }

  /**
   * Saving a mapping adds exactly that mapping to what loads, for a file
   * that ended its last line and for one that is not UTF-8 (which loaded
   * nothing and now holds the one line).
   */
  lemma SaveThenLoad(file: Bytes, hash: Bytes, oid: Bytes)
    requires file == [] || file[|file| - 1] == NL || !Utf8Valid(file)
    requires |oid| == OID_LEN
    ensures LoadFile(SaveFile(file, hash, oid), |hash|) == LoadFile(file, |hash|)[hash := oid]
  {
    MappingLineAscii(hash, oid);
    if Utf8Valid(file) {
      Utf8ValidAsciiSuffix(file, MappingLine(hash, oid));
      AppendThenParse(file, hash, oid);
    } else {
      var empty: Bytes := [];
      assert SaveFile(file, hash, oid) == empty + MappingLine(hash, oid);
      Utf8ValidAsciiSuffix(empty, MappingLine(hash, oid));
      AppendThenParse(empty, hash, oid);
    }
  }

  /**
   * As written: after a last line that was never ended (an interrupted write
   * or an edit by hand), the appended line joins it, and neither the
   * mapping of that last line nor the new one is read back.
   */
  lemma UnterminatedAppendAsWritten(prefix: Bytes, last: Bytes, hash: Bytes, oid: Bytes)
    requires prefix == [] || prefix[|prefix| - 1] == NL
    requires last != [] && NL !in last
    requires |oid| == OID_LEN
    ensures ParseFile(prefix + last + MappingLine(hash, oid), |hash|) == ParseFile(prefix, |hash|)
    ensures Utf8Valid(prefix + last) ==> LoadFile(SaveFile(prefix + last, hash, oid), |hash|) == ParseFile(prefix, |hash|)
  {
    var text := EncodeHex(hash) + [COLON] + EncodeHex(oid);
    var l := last + text;
    MappingLineText(hash, oid);
    assert prefix + last + MappingLine(hash, oid) == prefix + l + [NL];
    assert StripSuffix(l, CR) == l by {
      assert l[|l| - 1] == text[|text| - 1];
    }
    LinesAppend(prefix, l, NL, CR);
    LoadIntoSnoc(map[], Lines(prefix, NL, CR), l, |hash|);
    JoinedLineSkipped(last, text, |hash|);
    MappingLineAscii(hash, oid);
    Utf8ValidAsciiSuffix(prefix + last, MappingLine(hash, oid));
  }

  /** A line longer than a hash part, a `:` and an object id holds no mapping. */
  lemma JoinedLineSkipped(last: Bytes, text: Bytes, n: nat)
    requires |last| > 0 && |text| == 2 * n + 1 + 2 * OID_LEN
    ensures ParseLine(last + text, n).None?
  {
  }

  /** A file of one saved line without its newline loads that line's mapping. */
  lemma UnendedLineLoads(hash: Bytes, oid: Bytes)
    requires |oid| == OID_LEN
    ensures LoadFile(EncodeHex(hash) + [COLON] + EncodeHex(oid), |hash|) == map[hash := oid]
  {
    var file := EncodeHex(hash) + [COLON] + EncodeHex(oid);
    MappingLineText(hash, oid);
    MappingLineAscii(hash, oid);
    AsciiValid(file);
    assert Lines(file, NL, CR) == [file];
    LoadIntoSnoc(map[], [], file, |hash|);
    assert [] + [file] == [file];
    ParseMappingLine(hash, oid);
  }

  /** A file holding one mapping on an unended line loads it, and after one more save loads nothing. */
  lemma UnterminatedFileLosesMappings(hash1: Bytes, oid1: Bytes, hash2: Bytes, oid2: Bytes)
    requires |hash1| == |hash2| && |oid1| == OID_LEN && |oid2| == OID_LEN
    ensures LoadFile(EncodeHex(hash1) + [COLON] + EncodeHex(oid1), |hash1|) == map[hash1 := oid1]
    ensures LoadFile(SaveFile(EncodeHex(hash1) + [COLON] + EncodeHex(oid1), hash2, oid2), |hash1|) == map[]
  {
    var file := EncodeHex(hash1) + [COLON] + EncodeHex(oid1);
    UnendedLineLoads(hash1, oid1);
    MappingLineText(hash1, oid1);
    MappingLineAscii(hash1, oid1);
    AsciiValid(file);
    assert file != [] && NL !in file;
    var empty: Bytes := [];
    assert empty + file == file;
    UnterminatedAppendAsWritten(empty, file, hash2, oid2);
    assert ParseFile(empty, |hash2|) == map[];
  }

  /** The file with its last line ended, as it should be before a line is appended. */
  function Terminated(file: Bytes): (r: Bytes)
    ensures r == [] || r[|r| - 1] == NL
    ensures file <= r && |r| <= |file| + 1
  {
    if file == [] || file[|file| - 1] == NL then file else file + [NL]
  }

  /** The save `save_hash_mapping` evidently intends: end the last line, then save the mapping's line. */
  function AppendMapping(file: Bytes, hash: Bytes, oid: Bytes): Bytes
  {
    SaveFile(Terminated(file), hash, oid)
  }

  /**
   * After the intended save the file loads as before plus the new mapping,
   * whether or not its last line was ended (one ending in a carriage return
   * reads differently once ended).
   */
  lemma AppendMappingLoads(file: Bytes, hash: Bytes, oid: Bytes)
    requires |oid| == OID_LEN
    ensures LoadFile(AppendMapping(file, hash, oid), |hash|) == LoadFile(Terminated(file), |hash|)[hash := oid]
    ensures file == [] || file[|file| - 1] != CR ==> LoadFile(Terminated(file), |hash|) == LoadFile(file, |hash|)
  {
    SaveThenLoad(Terminated(file), hash, oid);
    if file != [] && file[|file| - 1] != NL && file[|file| - 1] != CR {
      Utf8ValidAsciiSuffix(file, [NL]);
      LinesTerminate(file, NL, CR);
    }
  }

  /**
   * The file ends its last line or is not UTF-8, and every mapping held in
   * memory would be read back from it; a deleted mapping may still be in
   * the file.
   */
  ghost predicate Consistent(n: nat, mapping: map<Bytes, Bytes>, file: Bytes)
  {
    && (file == [] || file[|file| - 1] == NL || !Utf8Valid(file))
    && (forall h :: h in mapping ==> |h| == n && |mapping[h]| == OID_LEN)
    && Agrees(mapping, LoadFile(file, n))
  }

  /** Every entry of `mapping` is in `loaded` with the same value. */
  ghost predicate Agrees(mapping: map<Bytes, Bytes>, loaded: map<Bytes, Bytes>)
  {
    forall h :: h in mapping ==> h in loaded && loaded[h] == mapping[h]
  }

  lemma AgreesAfterSet(mapping: map<Bytes, Bytes>, before: map<Bytes, Bytes>, after: map<Bytes, Bytes>, hash: Bytes, oid: Bytes)
    requires Agrees(mapping, before) && after == before[hash := oid]
    ensures Agrees(mapping[hash := oid], after)
  {
  }

  /** Recording a mapping and saving its line keeps memory and file consistent. */
  lemma ConsistentAfterSave(n: nat, mapping: map<Bytes, Bytes>, file: Bytes, hash: Bytes, oid: Bytes)
    requires Consistent(n, mapping, file)
    requires |hash| == n && |oid| == OID_LEN
    ensures LoadFile(SaveFile(file, hash, oid), n) == LoadFile(file, n)[hash := oid]
    ensures Consistent(n, mapping[hash := oid], SaveFile(file, hash, oid))
  {
    SaveThenLoad(file, hash, oid);
    ConsistentAfterSet(n, mapping, LoadFile(file, n), SaveFile(file, hash, oid), hash, oid);
  }

  /** A file ending its last line and loading `before` with the new mapping set agrees with the memory after the set. */
  lemma ConsistentAfterSet(n: nat, mapping: map<Bytes, Bytes>, before: map<Bytes, Bytes>, file: Bytes, hash: Bytes, oid: Bytes)
    requires forall h :: h in mapping ==> |h| == n && |mapping[h]| == OID_LEN
    requires Agrees(mapping, before) && LoadFile(file, n) == before[hash := oid]
    requires file != [] && file[|file| - 1] == NL
    requires |hash| == n && |oid| == OID_LEN
    ensures Consistent(n, mapping[hash := oid], file)
  {
    AgreesAfterSet(mapping, before, LoadFile(file, n), hash, oid);
  }

  /**
   * What saving a mapping does to a file of any shape: consistency is kept,
   * and a file that ended its last line, or is not UTF-8, loads the new mapping.
   */
  lemma SavedMapping(n: nat, mapping: map<Bytes, Bytes>, file: Bytes, hash: Bytes, oid: Bytes)
    requires |hash| == n && |oid| == OID_LEN
    ensures Consistent(n, mapping, file) ==> Consistent(n, mapping[hash := oid], SaveFile(file, hash, oid))
    ensures file == [] || file[|file| - 1] == NL || !Utf8Valid(file) ==>
              LoadFile(SaveFile(file, hash, oid), n) == LoadFile(file, n)[hash := oid]
  {
    if Consistent(n, mapping, file) {
      ConsistentAfterSave(n, mapping, file, hash, oid);
    }
    if file == [] || file[|file| - 1] == NL || !Utf8Valid(file) {
      SaveThenLoad(file, hash, oid);
    }
  }

  /**
   * `GitNodeStorage<N>`: a cache of nodes, the hash-to-blob map, the blobs
   * themselves and the contents of the `prolly_hash_mappings` file.
   */
  class GitNodeStorage<Node> {
    /** N, the length of a node hash in bytes. */
    const n: nat
    var cache: map<Bytes, Node>
    var mapping: map<Bytes, Bytes>
    var blobs: map<Bytes, Node>
    var mappingFile: Bytes

    /** What reading the mapping file into an empty map gives. */
    function Loaded(): map<Bytes, Bytes>
      reads this
    {
      LoadFile(mappingFile, n)
    }

    ghost predicate Valid()
      reads this
    {
      Consistent(n, mapping, mappingFile)
    }

    /** `new`: an empty cache, and the mappings read from the file that is already there. */
    constructor (n: nat, file: Bytes, blobs: map<Bytes, Node>)
      ensures this.n == n && cache == map[] && this.blobs == blobs && mappingFile == file
      ensures mapping == LoadFile(file, n)
      ensures file == [] || file[|file| - 1] == NL || !Utf8Valid(file) ==> Valid()
    {
      this.n := n;
      cache := map[];
      mapping := map[];
      this.blobs := blobs;
      mappingFile := file;
      new;
      LoadHashMappings();
      LoadedOids(map[], Lines(file, NL, CR), n);
    }

    static lemma {:induction false} LoadedOids(m: map<Bytes, Bytes>, lines: seq<Bytes>, n: nat)
      requires forall h :: h in m ==> |m[h]| == OID_LEN
      ensures forall h :: h in LoadInto(m, lines, n) ==> |LoadInto(m, lines, n)[h]| == OID_LEN
      decreases |lines|
    {
      if lines != [] {
        LoadedOids(m, lines[..|lines| - 1], n);
      }
    }

    /** The cache first, then the mapping and the blob it names; None when neither has the hash. */
    function GetNodeByHash(hash: Bytes): (r: Option<Node>)
      reads this
      ensures hash in cache ==> r == Some(cache[hash])
      ensures hash !in cache && hash in mapping && mapping[hash] in blobs ==> r == Some(blobs[mapping[hash]])
      ensures r.None? <==> hash !in cache && (hash !in mapping || mapping[hash] !in blobs)
    {
      if hash in cache then Some(cache[hash])
      else if hash in mapping && mapping[hash] in blobs then Some(blobs[mapping[hash]])
      else None
    }

    /**
     * `save_hash_mapping`: the file is read as text, or as the empty string
     * when it is not UTF-8, and written back with one line pushed on.
     */
    method SaveHashMapping(hash: Bytes, oid: Bytes)
      modifies this
      ensures mappingFile == SaveFile(old(mappingFile), hash, oid)
      ensures cache == old(cache) && mapping == old(mapping) && blobs == old(blobs)
    {
      var text := if Utf8Valid(mappingFile) then mappingFile else [];
      mappingFile := text + MappingLine(hash, oid);
    }

    /**
     * `insert_node`: the node is cached, then written as a blob. `written` is
     * the id the object database gives the blob, or None if the write fails;
     * only a written blob is recorded in the mapping and the file. The line
     * is appended as it is, so a file whose last line was not ended loses
     * that line's mapping and the new one on the next load
     * (UnterminatedAppendAsWritten); a file that is not UTF-8 is replaced
     * by the new line.
     */
    method InsertNode(hash: Bytes, node: Node, written: Option<Bytes>) returns (r: Option<()>)
      requires |hash| == n
      requires written.Some? ==> |written.value| == OID_LEN
      modifies this
      ensures old(Valid()) ==> Valid()
      ensures r.Some? <==> written.Some?
      ensures cache == old(cache)[hash := node]
      ensures written.Some? ==>
                && blobs == old(blobs)[written.value := node]
                && mapping == old(mapping)[hash := written.value]
                && mappingFile == SaveFile(old(mappingFile), hash, written.value)
      ensures written.Some? && (old(mappingFile) == [] || old(mappingFile)[|old(mappingFile)| - 1] == NL || !Utf8Valid(old(mappingFile))) ==>
                Loaded() == old(Loaded())[hash := written.value]
      ensures written.None? ==> blobs == old(blobs) && mapping == old(mapping) && mappingFile == old(mappingFile)
      ensures GetNodeByHash(hash) == Some(node)
    {
      cache := cache[hash := node];
      match written
      case Some(oid) =>
        SavedMapping(n, mapping, mappingFile, hash, oid);
        blobs := blobs[oid := node];
        mapping := mapping[hash := oid];
        SaveHashMapping(hash, oid);
        return Some(());
      case None =>
        return None;
    }

    /**
     * `delete_node`: the hash leaves the cache and the mapping and the call
     * always succeeds. The blob and the line in the file stay, so a storage
     * that reads the file again finds the mapping.
     */
    method DeleteNode(hash: Bytes) returns (r: Option<()>)
      modifies this
      ensures old(Valid()) ==> Valid()
      ensures r == Some(())
      ensures cache == old(cache) - {hash} && mapping == old(mapping) - {hash}
      ensures blobs == old(blobs) && mappingFile == old(mappingFile)
      ensures GetNodeByHash(hash).None?
    {
      cache := cache - {hash};
      mapping := mapping - {hash};
      return Some(());
    }

    /**
     * `load_hash_mappings`: a file that is not UTF-8 is not read at all;
     * otherwise each line is read into the mapping in turn, and a line with
     * no `:`, a hash part of the wrong length or an invalid digit is skipped.
     */
    method LoadHashMappings()
      modifies this
      ensures mapping == if Utf8Valid(mappingFile) then LoadInto(old(mapping), Lines(mappingFile, NL, CR), n) else old(mapping)
      ensures cache == old(cache) && blobs == old(blobs) && mappingFile == old(mappingFile)
    {
      if Utf8Valid(mappingFile) {
        mapping := ReadLines(mapping, Lines(mappingFile, NL, CR), n);
      }
    }

    /** The loop over the lines of the file, each read into the map in turn. */
    static method ReadLines(m: map<Bytes, Bytes>, lines: seq<Bytes>, n: nat) returns (r: map<Bytes, Bytes>)
      ensures r == LoadInto(m, lines, n)
    {
      r := m;
      var i := 0;
      while i < |lines|
        invariant 0 <= i <= |lines|
        invariant r == LoadInto(m, lines[..i], n)
      {
        LoadIntoSnoc(m, lines[..i], lines[i], n);
        assert lines[..i + 1] == lines[..i] + [lines[i]];
        r := ReadMappingLine(r, lines[i], n);
        i := i + 1;
      }
      assert lines[..i] == lines;
    }

    /** One line of the file: a `:`, a hash part of 2N digits and a 40-digit object id, or the line is skipped. */
    static method ReadMappingLine(m: map<Bytes, Bytes>, line: Bytes, n: nat) returns (r: map<Bytes, Bytes>)
      ensures r == LoadLine(m, line, n)
    {
      LoadLineSplit(m, line, n);
      r := m;
      var split := SplitOnce(line, COLON);
      if split.Some? {
        var (hashHex, objectHex) := split.value;
        if |hashHex| == 2 * n {
          var hashBytes := DecodeHashHex(hashHex, n);
          if |hashBytes| == n && |objectHex| == 2 * OID_LEN && DecodeAll(objectHex).Some? {
            r := m[hashBytes := DecodeAll(objectHex).value];
          }
        }
      }
    }

    /** The pairs of `hex` read one by one, stopping at the first that is not two hex digits. */
    static method DecodeHashHex(hex: Bytes, n: nat) returns (bytes: Bytes)
      requires |hex| == 2 * n
      ensures |bytes| == n <==> DecodeAll(hex).Some?
      ensures |bytes| == n ==> bytes == DecodeAll(hex).value
    {
      bytes := [];
      var i := 0;
      while i < n
        invariant 0 <= i <= n && |bytes| == i
        invariant forall j :: 0 <= j < i ==> HexPair(hex[2 * j], hex[2 * j + 1]) == Some(bytes[j])
      {
        var pair := HexPair(hex[2 * i], hex[2 * i + 1]);
        if pair.None? {
          break;
        }
        bytes := bytes + [pair.value];
        i := i + 1;
      }
    }
  }
}

=== FILE: versioned_store.dfy ===
/**
 * The staging-area store of src/git/versioned_store.rs.
 *
 * Writes are buffered in a staging area that maps a key to `Some(value)` (a
 * pending write) or `None` (a pending delete); reads see the staging area on
 * top of the committed tree; `commit` drains the staging area into the tree
 * and records a commit object. The git object database is modelled as a map
 * from commit id to commit object, and branch refs as a map from full ref
 * name to commit id.
 */
module VersionedStore {
  import opened Wrappers
  import opened ByteStrings
  import opened Sequences
  import opened GitTypes

  /** Pending changes: `Some(v)` writes `v`, `None` deletes the key. */
  type Staging = map<Bytes, Option<Bytes>>

  datatype CommitObject = CommitObject(parents: seq<CommitId>, message: string, data: Snapshot)

  /** What a read of `k` sees: the staged change if there is one, else the committed value. */
  function Lookup(tree: Snapshot, staging: Staging, k: Bytes): Option<Bytes>
  {
    if k in staging then staging[k]
    else if k in tree then Some(tree[k])
    else None
  }

  /** The tree with every staged change applied. */
  function Apply(tree: Snapshot, staging: Staging): (r: Snapshot)
    ensures forall k :: k in r <==> Lookup(tree, staging, k).Some?
    ensures forall k :: k in r ==> Some(r[k]) == Lookup(tree, staging, k)
  {
    map k | k in tree.Keys + staging.Keys && Lookup(tree, staging, k).Some? :: Lookup(tree, staging, k).value
  }

  /** Staging a write changes what the store holds at that key and nowhere else. */
  lemma StageWrite(tree: Snapshot, staging: Staging, k: Bytes, v: Bytes)
    ensures Apply(tree, staging[k := Some(v)]) == Apply(tree, staging)[k := v]
  {
    var a, b := Apply(tree, staging[k := Some(v)]), Apply(tree, staging)[k := v];
    forall x ensures (x in a <==> x in b) && (x in a ==> a[x] == b[x]) {
      if x != k {
        assert Lookup(tree, staging[k := Some(v)], x) == Lookup(tree, staging, x);
      }
    }
  }

  /** Applying one staged change to the tree and dropping it from the staging area changes no read. */
  lemma DrainOne(tree: Snapshot, staging: Staging, k: Bytes)
    requires k in staging
    ensures Apply(if staging[k].Some? then tree[k := staging[k].value] else tree - {k}, staging - {k})
         == Apply(tree, staging)
  {
    var tree' := if staging[k].Some? then tree[k := staging[k].value] else tree - {k};
    forall j ensures Lookup(tree', staging - {k}, j) == Lookup(tree, staging, j) {
    }
  }

  /** `refs/heads/{b}`, the ref that `update_head` writes for branch `b`. */
  function BranchRef(b: string): (r: string)
    ensures |r| == |b| + 11 && r[11..] == b
  {
    "refs/heads/" + b
  }

  /** A full ref name is used as given; a short one names a branch under `refs/heads/`. */
  function RefName(b: string): (r: string)
    ensures "refs/" <= b ==> r == b
    ensures !("refs/" <= b) ==> r == BranchRef(b)
  {
    if "refs/" <= b then b else "refs/heads/" + b
  }

  /** The value of `key` recorded by commit `id`; a commit that cannot be read yields None. */
  function ValueAt(commits: map<CommitId, CommitObject>, id: CommitId, key: Bytes): Option<Bytes>
  {
    if id in commits && key in commits[id].data then Some(commits[id].data[key]) else None
  }

  /** The value of `key` in the commit before the newest of `h`, None past the oldest. */
  function Previous(commits: map<CommitId, CommitObject>, older: seq<CommitId>, key: Bytes): Option<Bytes>
  {
    if older == [] then None else ValueAt(commits, older[0], key)
  }

  /** Commit `h[i]` of a newest-first history changed `key` relative to the commit before it. */
  predicate ChangedAt(commits: map<CommitId, CommitObject>, h: seq<CommitId>, i: int, key: Bytes)
    requires 0 <= i < |h|
  {
    ValueAt(commits, h[i], key) != Previous(commits, h[i + 1..], key)
  }

  /** The commits of a newest-first history that changed `key`, newest first. */
  function KeyChanges(commits: map<CommitId, CommitObject>, h: seq<CommitId>, key: Bytes): (r: seq<CommitId>)
    ensures |r| <= |h|
  {
    if h == [] then []
    else (if ChangedAt(commits, h, 0, key) then [h[0]] else []) + KeyChanges(commits, h[1..], key)
  }

  /** Every commit that changed the key is reported. */
  lemma {:induction false} KeyChangesComplete(commits: map<CommitId, CommitObject>, h: seq<CommitId>, key: Bytes, i: int)
    requires 0 <= i < |h| && ChangedAt(commits, h, i, key)
    ensures h[i] in KeyChanges(commits, h, key)
  {
    if i > 0 {
      assert h[1..][i - 1 + 1..] == h[i + 1..];
      KeyChangesComplete(commits, h[1..], key, i - 1);
    }
  }

  /** Only commits that changed the key are reported. */
  lemma {:induction false} KeyChangesSound(commits: map<CommitId, CommitObject>, h: seq<CommitId>, key: Bytes, c: CommitId)
    requires c in KeyChanges(commits, h, key)
    ensures exists i :: 0 <= i < |h| && h[i] == c && ChangedAt(commits, h, i, key)
  {
    if !(ChangedAt(commits, h, 0, key) && c == h[0]) {
      KeyChangesSound(commits, h[1..], key, c);
      var i :| 0 <= i < |h[1..]| && h[1..][i] == c && ChangedAt(commits, h[1..], i, key);
      assert h[1..][i + 1..] == h[i + 2..];
      assert h[i + 1] == c && ChangedAt(commits, h, i + 1, key);
    }
  }

  /** Apply the staged changes one at a time, in hash-map order, as `drain` yields them. */
  method DrainStaging(tree: Snapshot, staging: Staging) returns (applied: Snapshot)
    ensures applied == Apply(tree, staging)
  {
    applied := tree;
    var rest := staging;
    while rest != map[]
      invariant Apply(applied, rest) == Apply(tree, staging)
      decreases |rest|
    {
      var key :| key in rest;
      DrainOne(applied, rest, key);
      if rest[key].Some? {
        applied := applied[key := rest[key].value];
      } else {
        applied := applied - {key};
      }
      rest := rest - {key};
    }
    assert Apply(applied, map[]) == applied;
  }

  function StatusKeys(status: seq<(Bytes, string)>): (ks: seq<Bytes>)
    ensures |ks| == |status| && forall i :: 0 <= i < |status| ==> ks[i] == status[i].0
  {
    seq(|status|, i requires 0 <= i < |status| => status[i].0)
  }

  /**
   * The store: the committed tree, the staging area, the current branch, and
   * the parts of the git repository it touches (refs and commit objects).
   */
  class KvStore {
    var tree: Snapshot
    var staging: Staging
    var currentBranch: string
    var refs: map<string, CommitId>
    var commits: map<CommitId, CommitObject>

    /**
     * `init`: a store on branch `main` with an empty tree, opened on a
     * repository that already holds the refs `refs0` and the commits
     * `commits0`. Its initial, empty commit `id` has HEAD's commit as its
     * parent when HEAD names one, and `refs/heads/main` names it; every other
     * ref and commit is kept.
     */
    constructor Init(id: CommitId, refs0: map<string, CommitId>, commits0: map<CommitId, CommitObject>, head: Option<CommitId>)
      ensures tree == map[] && staging == map[] && currentBranch == "main"
      ensures refs == refs0[BranchRef("main") := id]
      ensures commits == commits0[id := CommitObject(if head.Some? then [head.value] else [], "Initial commit", map[])]
      ensures HeadParents() == [id]
    {
      tree := map[];
      staging := map[];
      currentBranch := "main";
      refs := refs0[BranchRef("main") := id];
      commits := commits0[id := CommitObject(if head.Some? then [head.value] else [], "Initial commit", map[])];
    }

    /** What the store currently holds: the tree with the staging area on top. */
    function View(): Snapshot
      reads this
    {
      Apply(tree, staging)
    }

    /** The staged change wins over the committed value. */
    function Get(key: Bytes): (r: Option<Bytes>)
      reads this
      ensures r.Some? <==> key in View()
      ensures r.Some? ==> r.value == View()[key]
    {
      if key in staging then staging[key]
      else if key in tree then Some(tree[key])
      else None
    }

    /** The committed keys, plus staged writes, minus staged deletes. */
    function ListKeys(): (ks: set<Bytes>)
      reads this
      ensures forall k :: k in ks <==> Get(k).Some?
      ensures ks == View().Keys
    {
      (tree.Keys + (set k | k in staging && staging[k].Some?)) - (set k | k in staging && staging[k].None?)
    }

    /** The label `status` gives a staged key. */
    function StatusLabel(key: Bytes): (tag: string)
      reads this
      requires key in staging
      ensures tag == "deleted" <==> staging[key].None?
      ensures tag == "modified" <==> staging[key].Some? && key in tree
      ensures tag == "added" <==> staging[key].Some? && key !in tree
    {
      match staging[key]
      case Some(_) => if key in tree then "modified" else "added"
      case None => "deleted"
    }

    /** One entry per staged key, each with its label, in hash-map order. */
    method Status() returns (status: seq<(Bytes, string)>)
      ensures |status| == |staging|
      ensures forall i :: 0 <= i < |status| ==> status[i].0 in staging && status[i].1 == StatusLabel(status[i].0)
      ensures forall i, j :: 0 <= i < j < |status| ==> status[i].0 != status[j].0
      ensures forall k :: k in staging ==> k in StatusKeys(status)
    {
      status := [];
      var rest := staging.Keys;
      while rest != {}
        invariant rest <= staging.Keys
        invariant |status| + |rest| == |staging|
        invariant forall i :: 0 <= i < |status| ==> status[i].0 in staging.Keys - rest && status[i].1 == StatusLabel(status[i].0)
        invariant forall i, j :: 0 <= i < j < |status| ==> status[i].0 != status[j].0
        invariant forall k :: k in staging.Keys - rest ==> k in StatusKeys(status)
        decreases rest
      {
        var key :| key in rest;
        assert StatusKeys(status + [(key, StatusLabel(key))]) == StatusKeys(status) + [key];
        status := status + [(key, StatusLabel(key))];
        rest := rest - {key};
      }
    }

    /** Stage a write; afterwards `get(key)` returns it and no other read changes. */
    method Insert(key: Bytes, value: Bytes)
      modifies this
      ensures staging == old(staging)[key := Some(value)]
      ensures tree == old(tree) && currentBranch == old(currentBranch)
      ensures refs == old(refs) && commits == old(commits)
      ensures Get(key) == Some(value)
      ensures forall k :: k != key ==> Get(k) == old(Get(k))
      ensures View() == old(View())[key := value]
    {
      StageWrite(tree, staging, key, value);
      staging := staging[key := Some(value)];
    }

    /** Stage a write only if the key is visible now; report whether it was. */
    method Update(key: Bytes, value: Bytes) returns (found: bool)
      modifies this
      ensures found <==> old(Get(key)).Some?
      ensures staging == if found then old(staging)[key := Some(value)] else old(staging)
      ensures tree == old(tree) && currentBranch == old(currentBranch)
      ensures refs == old(refs) && commits == old(commits)
      ensures Get(key) == if found then Some(value) else None
      ensures forall k :: k != key ==> Get(k) == old(Get(k))
    {
      found := Get(key).Some?;
      if found {
        staging := staging[key := Some(value)];
      }
    }

    /** Stage a delete only if the key is visible now; report whether it was. */
    method Delete(key: Bytes) returns (found: bool)
      modifies this
      ensures found <==> old(Get(key)).Some?
      ensures staging == if found then old(staging)[key := None] else old(staging)
      ensures tree == old(tree) && currentBranch == old(currentBranch)
      ensures refs == old(refs) && commits == old(commits)
      ensures Get(key) == None
      ensures forall k :: k != key ==> Get(k) == old(Get(k))
    {
      found := Get(key).Some?;
      if found {
        staging := staging[key := None];
      }
    }

    /** The parent a new commit gets: the commit the current branch points to, if any. */
    function HeadParents(): (ps: seq<CommitId>)
      reads this
      ensures |ps| <= 1
      ensures ps != [] <==> BranchRef(currentBranch) in refs
    {
      if BranchRef(currentBranch) in refs then [refs[BranchRef(currentBranch)]] else []
    }

    /**
     * Drain the staging area into the tree, record commit `id` (the object id
     * git assigns) with the current commit as its parent, and move the
     * current branch to it. An empty staging area still produces a commit.
     */
    method Commit(id: CommitId, message: string) returns (commitId: CommitId)
      modifies this
      ensures tree == old(View())
      ensures staging == map[]
      ensures View() == old(View())
      ensures currentBranch == old(currentBranch)
      ensures refs == old(refs)[BranchRef(currentBranch) := id]
      ensures commits == old(commits)[id := CommitObject(old(HeadParents()), message, tree)]
      ensures commitId == id
    {
      var parents := HeadParents();
      var applied := DrainStaging(tree, staging);
      tree := applied;
      staging := map[];
      commits := commits[id := CommitObject(parents, message, tree)];
      refs := refs[BranchRef(currentBranch) := id];
      commitId := id;
    }

    /**
     * Clear the staging area and switch to `branch` if its ref exists. The
     * staging area is cleared even when the ref is missing, and the tree is
     * not reloaded.
     */
    method Checkout(branch: string) returns (r: Result<(), GitKvError>)
      modifies this
      ensures staging == map[]
      ensures tree == old(tree) && refs == old(refs) && commits == old(commits)
      ensures RefName(branch) in refs ==> r.Ok? && currentBranch == branch
      ensures RefName(branch) !in refs ==> r == Err(BranchNotFound(branch)) && currentBranch == old(currentBranch)
    {
      staging := map[];
      if RefName(branch) in refs {
        currentBranch := branch;
        r := Ok(());
      } else {
        r := Err(BranchNotFound(branch));
      }
    }

    /**
     * The commits of a newest-first history that changed `key`, newest first:
     * the history is walked oldest first, comparing each commit's value with
     * the one before it (nothing before the oldest).
     */
    method GetCommitsForKey(history: seq<CommitId>, key: Bytes) returns (changes: seq<CommitId>)
      ensures changes == KeyChanges(commits, history, key)
    {
      var chronological := Reverse(history);
      var found: seq<CommitId> := [];
      var previous: Option<Bytes> := None;
      for j := 0 to |chronological|
        invariant Reverse(found) == KeyChanges(commits, history[|history| - j..], key)
        invariant previous == Previous(commits, history[|history| - j..], key)
      {
        var commit := chronological[j];
        var current := ValueAt(commits, commit, key);
        ghost var done := history[|history| - j..];
        assert history[|history| - j - 1..] == [commit] + done;
        if previous != current {
          found := found + [commit];
          assert Reverse(found) == [commit] + Reverse(found[..|found| - 1]);
        }
        previous := current;
      }
      assert history[|history| - |chronological|..] == history;
      changes := Reverse(found);
    }
  }

  /**
   * The key-level diff of two snapshots: Added and Modified over the keys of
   * `to`, then Removed over the keys of `from`, both in hash-map order, then
   * sorted by key.
   */
  method Diff(from: Snapshot, to: Snapshot) returns (diffs: seq<KvDiff>)
    ensures IsSortedDiff(from, to, diffs)
  {
    var found: seq<KvDiff> := [];
    var rest := to.Keys;
    while rest != {}
      invariant rest <= to.Keys
      invariant forall i :: 0 <= i < |found| ==> ChangeAt(from, to, found[i].key) == Some(found[i].operation)
      invariant Distinct(DiffKeys(found))
      invariant forall k :: k in DiffKeys(found) <==> k in to.Keys - rest && ChangeAt(from, to, k).Some?
      decreases rest
    {
      var key :| key in rest;
      if key !in from {
        AppendFresh(found, KvDiff(key, Added(to[key])));
        found := found + [KvDiff(key, Added(to[key]))];
      } else if from[key] != to[key] {
        AppendFresh(found, KvDiff(key, Modified(from[key], to[key])));
        found := found + [KvDiff(key, Modified(from[key], to[key]))];
      }
      rest := rest - {key};
    }
    rest := from.Keys;
    while rest != {}
      invariant rest <= from.Keys
      invariant forall i :: 0 <= i < |found| ==> ChangeAt(from, to, found[i].key) == Some(found[i].operation)
      invariant Distinct(DiffKeys(found))
      invariant forall k :: k in DiffKeys(found) <==> ChangeAt(from, to, k).Some? && (k in to || k in from.Keys - rest)
      decreases rest
    {
      var key :| key in rest;
      if key !in to {
        AppendFresh(found, KvDiff(key, Removed(from[key])));
        found := found + [KvDiff(key, Removed(from[key]))];
      }
      rest := rest - {key};
    }
    SortedChangeList(from, to, found);
    diffs := SortBy(found, ByKey());
  }
}

=== FILE: worktree.dfy ===
/**
 * The worktree registry of src/git/worktree.rs: a map from worktree id to
 * its description, advisory locks, and merges that move branch refs.
 *
 * The branch refs under `refs/heads/` are modelled as a map from branch name
 * to the commit id text the ref file holds, trimmed of surrounding white
 * space as every read of a ref trims it; the lock files and the other
 * files a worktree owns are represented by the `lockFile` field alone.
 */
module Worktrees {
  import opened Wrappers
  import opened GitTypes

  datatype WorktreeInfo = WorktreeInfo(id: string, path: string, branch: string, isLinked: bool, lockFile: Option<string>)

  /** What a merge between two branch refs reports on success. */
  datatype MergeOutcome =
    | Identical
    | Updated(commit: string)

  const MAIN: string := "main"

  class WorktreeManager {
    const gitDir: string
    var worktrees: map<string, WorktreeInfo>
    var refs: map<string, string>

    /** The lock file of a worktree: inside its own git directory when linked, the index lock for the main one. */
    function LockPath(info: WorktreeInfo): (p: string)
    {
      if info.isLinked then gitDir + "/worktrees/" + info.id + "/locked" else gitDir + "/index.lock"
    }

    /**
     * Every entry is filed under its own id; the main worktree is always
     * present and is the only unlinked one; a lock names the worktree's own
     * lock file.
     */
    ghost predicate Valid()
      reads this
    {
      && MAIN in worktrees
      && (forall id :: id in worktrees ==> worktrees[id].id == id && (worktrees[id].isLinked <==> id != MAIN))
      && (forall id :: id in worktrees && worktrees[id].lockFile.Some? ==> worktrees[id].lockFile.value == LockPath(worktrees[id]))
    }

    /** A manager that knows the main worktree, unlinked and unlocked, on the branch its HEAD names. */
    constructor (gitDir: string, mainPath: string, mainBranch: string, refs: map<string, string>)
      ensures Valid()
      ensures this.gitDir == gitDir && this.refs == refs
      ensures worktrees == map[MAIN := WorktreeInfo(MAIN, mainPath, mainBranch, false, None)]
    {
      this.gitDir := gitDir;
      this.refs := refs;
      worktrees := map[MAIN := WorktreeInfo(MAIN, mainPath, mainBranch, false, None)];
    }

    function IsLocked(id: string): (locked: bool)
      reads this
      ensures id !in worktrees ==> !locked
      ensures id in worktrees ==> (locked <==> worktrees[id].lockFile.Some?)
    {
      id in worktrees && worktrees[id].lockFile.Some?
    }

    /**
     * Register a new linked worktree `wt-<first 8 characters of uuid>` on
     * `branch`, first pointing `branch` at main's commit when asked to create
     * it (which fails when there is no main branch).
     */
    method AddWorktree(path: string, branch: string, createBranch: bool, uuid: string) returns (r: Result<WorktreeInfo, GitKvError>)
      requires Valid()
      requires |uuid| >= 8
      modifies this
      ensures Valid()
      ensures createBranch && MAIN !in old(refs) ==>
        r == Err(BranchNotFound("Main branch not found, cannot create new branch")) && unchanged(this)
      ensures !(createBranch && MAIN !in old(refs)) ==>
        var id := "wt-" + uuid[..8];
        && r == Ok(WorktreeInfo(id, path, branch, true, None))
        && worktrees == old(worktrees)[id := r.value]
        && refs == (if createBranch then old(refs)[branch := old(refs)[MAIN]] else old(refs))
        && (id !in old(worktrees) ==> |worktrees| == |old(worktrees)| + 1)
    {
      var id := "wt-" + uuid[..8];
      if createBranch {
        if MAIN !in refs {
          return Err(BranchNotFound("Main branch not found, cannot create new branch"));
        }
        refs := refs[branch := refs[MAIN]];
      }
      var info := WorktreeInfo(id, path, branch, true, None);
      assert id != MAIN by {
        assert id[0] == 'w';
      }
      worktrees := worktrees[id := info];
      return Ok(info);
    }

    /** Forget a linked worktree; the main one cannot be removed. */
    method RemoveWorktree(id: string) returns (r: Result<(), GitKvError>)
      requires Valid()
      modifies this
      ensures Valid()
      ensures refs == old(refs)
      ensures id == MAIN ==> r == Err(GitObjectError("Cannot remove main worktree")) && worktrees == old(worktrees)
      ensures id != MAIN && id !in old(worktrees) ==> r.Err? && worktrees == old(worktrees)
      ensures id != MAIN && id in old(worktrees) ==> r.Ok? && worktrees == old(worktrees) - {id}
    {
      if id == MAIN {
        return Err(GitObjectError("Cannot remove main worktree"));
      }
      if id !in worktrees {
        return Err(GitObjectError("Worktree " + id + " not found"));
      }
      worktrees := worktrees - {id};
      return Ok(());
    }

    /** Take the advisory lock of a worktree; an unknown or already locked worktree is an error. */
    method LockWorktree(id: string, reason: string) returns (r: Result<(), GitKvError>)
      requires Valid()
      modifies this
      ensures Valid()
      ensures refs == old(refs)
      ensures id !in old(worktrees) ==> r.Err? && worktrees == old(worktrees)
      ensures old(IsLocked(id)) ==> r == Err(GitObjectError("Worktree " + id + " is already locked")) && worktrees == old(worktrees)
      ensures id in old(worktrees) && !old(IsLocked(id)) ==>
        && r.Ok? && IsLocked(id)
        && worktrees == old(worktrees)[id := old(worktrees)[id].(lockFile := Some(LockPath(old(worktrees)[id])))]
    {
      if id !in worktrees {
        return Err(GitObjectError("Worktree " + id + " not found"));
      }
      var info := worktrees[id];
      if info.lockFile.Some? {
        return Err(GitObjectError("Worktree " + id + " is already locked"));
      }
      worktrees := worktrees[id := info.(lockFile := Some(LockPath(info)))];
      return Ok(());
    }

    /** Release the lock of a worktree; unlocking an unlocked worktree does nothing. */
    method UnlockWorktree(id: string) returns (r: Result<(), GitKvError>)
      requires Valid()
      modifies this
      ensures Valid()
      ensures refs == old(refs)
      ensures id !in old(worktrees) ==> r.Err? && worktrees == old(worktrees)
      ensures id in old(worktrees) ==>
        && r.Ok? && !IsLocked(id)
        && worktrees == old(worktrees)[id := old(worktrees)[id].(lockFile := None)]
    {
      if id !in worktrees {
        return Err(GitObjectError("Worktree " + id + " not found"));
      }
      var info := worktrees[id];
      if info.lockFile.Some? {
        worktrees := worktrees[id := info.(lockFile := None)];
      }
      return Ok(());
    }

    /** The commit text a branch ref holds. */
    function BranchCommit(branch: string): (r: Result<string, GitKvError>)
      reads this
      ensures r.Ok? <==> branch in refs
      ensures r.Ok? ==> r.value == refs[branch]
    {
      if branch in refs then Ok(refs[branch]) else Err(BranchNotFound("Branch " + branch + " not found"))
    }

    /**
     * Move `main` to the source branch's commit. Every pair of different
     * commits is treated as a fast-forward, so the merge-commit path is never
     * taken and the result is always main pointing at the source commit.
     */
    method PerformMergeToMain(sourceBranch: string) returns (r: Result<MergeOutcome, GitKvError>)
      modifies this
      ensures worktrees == old(worktrees)
      ensures sourceBranch !in old(refs) ==> r == Err(BranchNotFound("Source branch " + sourceBranch + " not found")) && refs == old(refs)
      ensures sourceBranch in old(refs) && MAIN !in old(refs) ==> r == Err(BranchNotFound("Main branch not found")) && refs == old(refs)
      ensures sourceBranch in old(refs) && MAIN in old(refs) ==>
        && r.Ok?
        && (r.value == Identical <==> old(refs)[sourceBranch] == old(refs)[MAIN])
        && refs == old(refs)[MAIN := old(refs)[sourceBranch]]
    {
      if sourceBranch !in refs {
        return Err(BranchNotFound("Source branch " + sourceBranch + " not found"));
      }
      var source := refs[sourceBranch];
      if MAIN !in refs {
        return Err(BranchNotFound("Main branch not found"));
      }
      var main := refs[MAIN];
      if source == main {
        return Ok(Identical);
      }
      refs := refs[MAIN := source];
      return Ok(Updated(source));
    }

    /**
     * Merge a linked worktree's branch into `main`, holding the worktree's
     * lock for the duration when it was not already held: the worktree's
     * lock state afterwards is what it was before.
     */
    method MergeToMain(id: string, commitMessage: string) returns (r: Result<MergeOutcome, GitKvError>)
      requires Valid()
      modifies this
      ensures Valid()
      ensures worktrees == old(worktrees)
      ensures id !in old(worktrees) ==> r.Err? && refs == old(refs)
      ensures id == MAIN ==> r == Err(GitObjectError("Cannot merge main worktree to itself")) && refs == old(refs)
      ensures id in old(worktrees) && id != MAIN ==>
        var source := old(worktrees)[id].branch;
        if source in old(refs) && MAIN in old(refs) then
          && r.Ok?
          && (r.value == Identical <==> old(refs)[source] == old(refs)[MAIN])
          && refs == old(refs)[MAIN := old(refs)[source]]
        else r.Err? && refs == old(refs)
    {
      if id !in worktrees {
        return Err(GitObjectError("Worktree " + id + " not found"));
      }
      if worktrees[id].id == MAIN {
        return Err(GitObjectError("Cannot merge main worktree to itself"));
      }
      var branchName := worktrees[id].branch;
      var wasLocked := IsLocked(id);
      if !wasLocked {
        var _ := LockWorktree(id, "Merging to main branch");
      }
      r := PerformMergeToMain(branchName);
      if !wasLocked {
        var _ := UnlockWorktree(id);
      }
    }

    /** Point `targetBranch` at the source branch's commit, unless both already agree. */
    method PerformMerge(sourceBranch: string, targetBranch: string) returns (r: Result<MergeOutcome, GitKvError>)
      modifies this
      ensures worktrees == old(worktrees)
      ensures sourceBranch !in old(refs) ==> r == Err(BranchNotFound("Source branch " + sourceBranch + " not found")) && refs == old(refs)
      ensures sourceBranch in old(refs) && targetBranch !in old(refs) ==> r == Err(BranchNotFound("Target branch " + targetBranch + " not found")) && refs == old(refs)
      ensures sourceBranch in old(refs) && targetBranch in old(refs) ==>
        && r.Ok?
        && (r.value == Identical <==> old(refs)[sourceBranch] == old(refs)[targetBranch])
        && (r.value == Identical ==> refs == old(refs))
        && refs == old(refs)[targetBranch := old(refs)[sourceBranch]]
    {
      if sourceBranch !in refs {
        return Err(BranchNotFound("Source branch " + sourceBranch + " not found"));
      }
      var source := refs[sourceBranch];
      if targetBranch !in refs {
        return Err(BranchNotFound("Target branch " + targetBranch + " not found"));
      }
      var target := refs[targetBranch];
      if source == target {
        return Ok(Identical);
      }
      refs := refs[targetBranch := source];
      return Ok(Updated(source));
    }

    /**
     * Merge a worktree's branch into another branch, with the same lock
     * discipline as `MergeToMain`; merging a branch into itself is refused.
     */
    method MergeBranch(sourceId: string, targetBranch: string, commitMessage: string) returns (r: Result<MergeOutcome, GitKvError>)
      requires Valid()
      modifies this
      ensures Valid()
      ensures worktrees == old(worktrees)
      ensures sourceId !in old(worktrees) ==> r.Err? && refs == old(refs)
      ensures sourceId in old(worktrees) && old(worktrees)[sourceId].branch == targetBranch ==>
        r == Err(GitObjectError("Cannot merge branch to itself")) && refs == old(refs)
      ensures sourceId in old(worktrees) && old(worktrees)[sourceId].branch != targetBranch ==>
        var source := old(worktrees)[sourceId].branch;
        if source in old(refs) && targetBranch in old(refs) then
          && r.Ok?
          && (r.value == Identical <==> old(refs)[source] == old(refs)[targetBranch])
          && refs == old(refs)[targetBranch := old(refs)[source]]
        else r.Err? && refs == old(refs)
    {
      if sourceId !in worktrees {
        return Err(GitObjectError("Source worktree " + sourceId + " not found"));
      }
      if worktrees[sourceId].branch == targetBranch {
        return Err(GitObjectError("Cannot merge branch to itself"));
      }
      var sourceBranch := worktrees[sourceId].branch;
      var wasLocked := IsLocked(sourceId);
      if !wasLocked {
        var _ := LockWorktree(sourceId, "Merging to " + targetBranch);
      }
      r := PerformMerge(sourceBranch, targetBranch);
      if !wasLocked {
        var _ := UnlockWorktree(sourceId);
      }
    }
  }
}

=== FILE: wrappers.dfy ===
/** Option and Result values, standing for Rust's `Option<T>` and `Result<T, E>`. */
module Wrappers {

  datatype Option<+T> = None | Some(value: T) {
    function GetOr(default: T): T {
      match this
      case Some(v) => v
      case None => default
    }
  }

  datatype Result<+T, +E> = Ok(value: T) | Err(error: E)
}
